=== FILE: README.md ===
# Licensing and order reconciliation of the contracts backend, in Dafny

This project models the core of a small Node/Express backend that sells
yearly licenses of a desktop application. It covers these parts:

- **License codes** (`license-code.js`): the 31-symbol alphabet, how typed codes are normalised, the `XXXX-XXXX-XXXX` format, and generation by rejection sampling.
- **Issuing licenses** (`license-issue.js`): drawing a code that is not in use and creating the license document in one transaction.
- **License lifecycle**:
  - first activation and device binding (`license-activate.js`);
  - the one-off support device change (`license-support.js`);
  - the admin device change with its one-year cooling-off (`license-admin-change-device.js`);
  - the one-off code recovery by e-mail (`license-recover.js`).
- **The online check of the desktop client** (`index.js`): `/api/licencia/validar`, with its activation log, and `/api/licencia/info`.
- **Stripe webhook** (`stripe-webhook.js`): the idempotent handling of `checkout.session.completed`.
- **Manual payments**:
  - placing a Bizum or bank-transfer order (`manual-payment.js`);
  - the back office that lists and completes orders (`admin-panel.js`).
- **The invoice counter** `N/YYYY` that the webhook and the back office share.

## Modelling conventions

- **Handlers and transactions.** Every HTTP handler is a pure function from the store, the current instant and the request to the reply and the new store. A Firestore transaction is one atomic step. Stripe sales and manual sales use one record type (`Store.License`).
- **Absent values.** A missing or `null` string field is `""`. JavaScript reads such fields with `||`, so they behave the same. An optional timestamp is an `Option<Time>`, and instants are integer milliseconds.
- **Inputs that replace outside effects:**
  - the clock (`now`, and `yearNow` for the invoice year);
  - the random bytes of the code generator (`draws`, one byte stream per attempt) and the digits of `Math.random()`;
  - whether the Stripe signature verified;
  - whether the mail was sent;
  - the documents a Firestore query returned (its ids). The recovery handler needs only that each is stored and registered to the e-mail (`RegisteredTo`); `IsQueryResult` describes a full answer (distinct, at most 20, all of them when fewer came back).
  - the configured keys and prices.
- **One module per source file.** `Common`, `Text` and `Store` hold the shared types.

## Behaviour worth knowing

- **Alphabet size.** The code's alphabet has 31 symbols: A–Z without I, L and O, then 2–9 (license-code.js:5-8). Rejection sampling therefore keeps only the bytes below 248, the largest multiple of 31 that fits in a byte.
- **Invoice counter year.** A counter document whose year is missing or 0 counts as being from the current year, so its count continues.
- **Invoice ledger.** The webhook issues an invoice number but writes no entry in the `invoices` ledger. Only the back office records one.
- **Back-office completion errors.** A missing or non-pending order surfaces as 500 `SERVER_ERROR`, because the thrown error reaches the outer catch. It is not a dedicated code.
- **Back-office render failure.** The license, the next invoice number and its ledger entry are written before the mail and its PDF are rendered. If rendering throws, the reply is 500, those three writes stay, and the order stays `paid_processing`.
- **Webhook mail failure.** When the webhook's mail fails, the license and the counter stay written and the event is marked `error`.
- **Statuses in `/validar`.** `/validar` treats every status other than `active` and `revoked` as "used". It does not know `refunded` or `expired` as blocking.
- **`/info` and `/validar` disagree** on a license that is marked used but bound to no device.
- **Admin device change.** The admin endpoint upper-cases and trims the code but does not remove white space inside it, unlike `normalizeCode`.
- **Two code formats.** Codes of the generator's shape never pass the `CONTR-…` format that `index.js` checks.

## Model

| member | source | states |
|---|---|---|
| Common.AddOneYear | license-issue.js:74-79 | the expiry a purchase gets lies strictly after the payment instant |
| LicenseCode.NormalizeCode | license-code.js:17-19 | a normalised code holds no white space and no lower-case letter and is never longer than the input; a code typed without white space is only upper-cased |
| LicenseCode.NormalizeCodeIdempotent | license-code.js:17-19 | normalising an already normalised code changes nothing |
| LicenseCode.DashGroupsPositions | license-code.js:9 | the repeated `-XXXX` group pattern holds exactly when there is a dash every fifth position and a class character everywhere else |
| LicenseCode.MatchesCodeReIffShape | license-code.js:9 | CODE_RE accepts exactly the 14-character texts with dashes at positions 4 and 9 and `[A-Z2-9]` elsewhere |
| LicenseCode.IsValidCodeFormat | license-code.js:24-26 | the format check holds exactly when the normalised code is 14 characters with dashes at positions 4 and 9 and `[A-Z2-9]` elsewhere |
| LicenseCode.AlphabetFacts | license-code.js:6-8 | the alphabet has 31 distinct symbols, all in `[A-Z2-9]`, with none of the look-alikes 0, 1, O, I and L; the rejection bound is 248 |
| LicenseCode.AlphabetAvoidsLookAlikes | license-code.js:6-8 | none of 0, 1, O, I and L is in the alphabet |
| LicenseCode.AlphabetInCodeClass | license-code.js:6-9 | every symbol of the alphabet is admitted by CODE_RE's character class |
| LicenseCode.AlphabetHasNoDuplicates | license-code.js:6-8 | no symbol appears twice in the alphabet |
| LicenseCode.IncreasingOn | license-code.js:6-8 | neighbours increasing on a slice makes the whole slice strictly increasing |
| LicenseCode.Accepted | license-code.js:37-44 | rejection sampling keeps only bytes below the bound, never more bytes than were drawn |
| LicenseCode.RandomFromAlphabet | license-code.js:32-49 | `randomFromAlphabet(len)` yields exactly `len` symbols, each from the alphabet |
| LicenseCode.RandomFromAlphabetIsFirstAccepted | license-code.js:37-46 | the sampled text is the alphabet symbol `v % 31` of each of the first `len` accepted bytes, in order |
| LicenseCode.GenerateLicenseCode | license-code.js:54-57 | a generated code has the `XXXX-XXXX-XXXX` shape with symbols from the alphabet |
| LicenseCode.ShapedCodeIsNormal | license-code.js:17-26 | a code of the right shape is left alone by normalisation and passes the format check |
| LicenseCode.GeneratedCodeIsValid | license-code.js:54-57 | every generated code passes `isValidCodeFormat` and is its own normal form |
| LicenseCode.ValidCodeNotAlwaysGenerated | license-code.js:6-9 | the format check admits codes the generator never produces (those using 0, 1, I, L or O) |
| LicenseIssue.Candidate | license-issue.js:26 | each attempt's candidate has the code shape |
| LicenseIssue.AttemptCount | license-issue.js:23-25 | the loop makes 20 attempts by default and `maxAttempts` attempts otherwise (none for a negative bound) |
| LicenseIssue.FirstFresh | license-issue.js:25-33 | finds the first attempt whose candidate is not stored, or reports that every candidate in the range is taken |
| LicenseIssue.GenerateUniqueLicenseCode | license-issue.js:19-36 | the code returned is the first candidate not in use; without a database it throws; when every attempt collides it throws the exhausted error naming the bound |
| LicenseIssue.StripeLicense | license-issue.js:68-111 | the written license is new and active, with a lower-cased e-mail, source `stripe`, the payment instant (or now) and the Checkout session id |
| LicenseIssue.CreateLicenseTx | license-issue.js:116-120 | the creating transaction refuses a taken key and otherwise adds exactly that one key, touching no other license |
| LicenseIssue.CreateLicenseFromStripe | license-issue.js:52-123 | the missing-field errors come in source order; a failure writes nothing and is never a collision; success happens exactly when all fields are present and some attempt is fresh, and adds one new license under that code |
| Store.IsExpired | license-activate.js:18-22 | a license with no expiry counts as expired; one with an expiry is live strictly before that instant and expired from it on |
| LicenseActivate.CheckRequest | license-activate.js:43-50 | the request errors come in order: MISSING_CODE, INVALID_CODE_FORMAT, MISSING_DEVICE; it passes exactly when the code is valid and a device is given, yielding the normalised code |
| LicenseActivate.ActivateTx | license-activate.js:55-112 | an unknown code is 404, a revoked or refunded one 403 BLOCKED, a lapsed one is marked expired; a bound device never changes; success happens exactly on a live unblocked license that is unbound or bound to this device; nothing else is written |
| LicenseActivate.Activate | license-activate.js:39-136 | the request errors leave the store alone, only licenses are ever written, and a success names the normalised code |
| LicenseActivate.ActivateAgainIsIdempotent | license-activate.js:93-102 | activating again from the same device succeeds as a repeat activation and writes nothing |
| LicenseActivate.ActivateOtherDeviceRejected | license-activate.js:104-111 | once a device is bound, another device gets 403 DEVICE_MISMATCH and nothing is written |
| LicenseSupport.RequireAdmin | license-support.js:37-43 | an unset server token throws; otherwise access is granted exactly for a present, equal token |
| LicenseSupport.SupportTx | license-support.js:72-119 | the refusals come in order: NOT_FOUND, NOT_ACTIVE, EXPIRED (which marks the license expired), and DEVICE_CHANGE_ALREADY_USED for a live active license whose change is spent; a change rebinds the device, records the previous one and the reason, and spends the one change |
| LicenseSupport.SupportChangeDevice | license-support.js:53-141 | an unset token throws with no write, a wrong token is 401, bad inputs are refused before the store, and only the named license can change |
| LicenseSupport.SecondChangeAlwaysFails | license-support.js:90-97 | after a device change, every later change request for that license is refused, whatever device or reason it gives |
| LicenseAdminChangeDevice.IsAdmin | license-admin-change-device.js:6-13 | with no admin token configured nobody is admitted; otherwise exactly the configured token is |
| LicenseAdminChangeDevice.AdminCode | license-admin-change-device.js:35 | the code this endpoint reads holds no lower-case letter and is no longer than the input |
| LicenseAdminChangeDevice.Refusal | license-admin-change-device.js:46-70 | a license may change device exactly when it is active, live, and has not spent its change or spent it at least a year ago; NOT_ACTIVE and EXPIRED take precedence; a change spent with no date is DEVICE_CHANGE_ALREADY_USED and one less than a year ago is DEVICE_CHANGE_TOO_SOON |
| LicenseAdminChangeDevice.AdminChangeDevice | license-admin-change-device.js:28-87 | a wrong key is 401, missing fields are refused before the store, an unknown code is refused, every refusal writes nothing, and a change rebinds the device and records when it happened |
| LicenseAdminChangeDevice.AdminCodeAgreesWithNormalizeCode | license-admin-change-device.js:35 | for codes with no inner white space, this endpoint reads the code as `normalizeCode` does |
| LicenseAdminChangeDevice.ChangeWithinAYearRefused | license-admin-change-device.js:64-70 | within a year of a change, the next change is refused |
| LicenseAdminChangeDevice.ChangeAfterAYearAllowed | license-admin-change-device.js:64-77 | a year or more after a change, a change to a new device is allowed again while the license is live |
| LicenseRecover.Candidates | license-recover.js:107-115 | keeps exactly the query results that are active in any letter case and not expired |
| LicenseRecover.MostRecent | license-recover.js:122-133 | the chosen license has the latest payment (else creation) instant, and is the first with it, as the stable descending sort puts it first |
| LicenseRecover.ChosenIsMostRecent | license-recover.js:107-133 | the license the handler picks is a recoverable query result, and no recoverable result has a later payment (else creation) instant |
| LicenseRecover.RecoverTx | license-recover.js:149-159 | the re-read succeeds exactly on a recoverable license whose recovery is unspent, and then only marks the recovery used; a spent recovery is 403 RECOVERY_ALREADY_USED, and a license gone or no longer recoverable is a 500 |
| LicenseRecover.Recover | license-recover.js:84-187 | a missing e-mail is 400; with nothing to recover the reply is the generic success and nothing is written; otherwise the most recent candidate is chosen: a spent recovery is 403 RECOVERY_ALREADY_USED with no write, an unspent one is marked used at `now` and its code (the document id when the code field is missing) is mailed with its expiry; a failed mail is a 500 but the flag stays spent |
| LicenseRecover.SecondRecoveryRefused | license-recover.js:136-159 | once a recovery went ahead, the same request mails nothing again |
| LicenseRecover.SameViewSameCandidates | license-recover.js:107-115 | the filter depends only on which results are recoverable |
| LicenseRecover.SameKeysSameChoice | license-recover.js:122-133 | the choice depends only on the candidates' recency instants |
| InvoiceCounter.NextInvoiceNumber | admin-panel.js:28-48 | within the stored year the number follows the stored count; a new year or a fresh counter starts at 1; the counter keeps the issued number and the current year |
| InvoiceCounter.IssueRun | admin-panel.js:28-48 | a run of counter transactions issues one number per call, each dated with the year of its call |
| InvoiceCounter.IssueRunDistinct | admin-panel.js:28-48 | while the clock does not go back, no invoice number is issued twice, and none repeats a number already counted in the stored year |
| InvoiceCounter.IssueRunConsecutive | admin-panel.js:38-46 | the calls of one year issue consecutive numbers right after the stored count |
| InvoiceCounter.InvoiceKeyShape | admin-panel.js:266 | the ledger key of `N/YYYY` is `N-YYYY` |
| InvoiceCounter.InvoiceKeyInjective | admin-panel.js:266 | different invoice numbers get different ledger keys, so recording one never overwrites another |
| AdminPanel.RequireAdminKey | admin-panel.js:148-154 | an unset key is 500 ADMIN_KEY_NOT_SET; the request passes exactly when the trimmed keys are present and equal; anything else is 401 |
| AdminPanel.InsertNewestFirst | admin-panel.js:177-181 | inserting into a newest-first list keeps it newest first and adds exactly that item |
| AdminPanel.SortNewestFirst | admin-panel.js:177-181 | the comparator sort orders by descending creation second and is a permutation of its input |
| AdminPanel.Fetch | admin-panel.js:175 | each query id is paired with its stored document, in query order |
| AdminPanel.ListManualOrders | admin-panel.js:166-188 | the listing holds exactly the returned orders of the requested status (pending by default), each once with its document, newest first, with the configured price |
| AdminPanel.MarkPaidTx | admin-panel.js:200-214 | only a pending order moves on, to paid_processing with the payment instant, price and currency; otherwise nothing is written |
| AdminPanel.ManualLicense | admin-panel.js:219-240 | the license of a manual order is new and active, with a lower-cased e-mail, one year of validity and a back-reference to the order |
| AdminPanel.LedgerEntry | admin-panel.js:266-280 | the ledger entry carries the invoice number, the instant, the e-mail and the order id, and a payment method that is the order's or `manual` when it has none |
| AdminPanel.RecordSale | admin-panel.js:222-276 | a collision writes nothing; otherwise the license, the next counter value and its ledger entry are written |
| AdminPanel.AfterMail | admin-panel.js:296-312 | after a failed send the order carries the code and the error; after a successful one it carries the code and the invoice number and is license_sent |
| AdminPanel.IssueForOrder | admin-panel.js:216-314 | success happens exactly when a fresh code exists and rendering works; then exactly the sale's writes and the order's final status are stored; with no fresh code nothing is written; a render failure keeps the new license, the next invoice number and its ledger entry; failures leave the order as it was |
| AdminPanel.SellWithCode | admin-panel.js:226-314 | a collision writes nothing; a render failure keeps the sale's writes (license, counter, ledger entry) and answers 500; otherwise the order's final status follows the mail |
| AdminPanel.FailedCompletionWrites | admin-panel.js:200-289 | a pending order whose every attempt meets a stored code ends in 500 with only the paid_processing write; a render failure ends in 500 and leaves the new license, the next invoice number and its ledger entry, with the order paid_processing |
| AdminPanel.CompleteManualOrder | admin-panel.js:190-319 | a missing id is 400; a missing or non-pending order is refused with no write; past the order step the order never returns to pending; success creates one new license, the next invoice number and its ledger entry, stores the order as stamped paid (instant, price, EUR) with the mail outcome merged over its other fields, and reports whether the mail failed; with no fresh code only the paid_processing write remains; a render failure leaves an orphan license, a spent invoice number and its ledger entry, with the order stuck in paid_processing |
| AdminPanel.CompleteTwiceRefused | admin-panel.js:200-214 | completing the same order a second time is refused and writes nothing, so an order yields at most one license |
| StripeWebhook.RecordEvent | stripe-webhook.js:169-182 | a known event only gets its last-seen instant; a new one is stored as received; no other event changes |
| StripeWebhook.CustomerEmail | stripe-webhook.js:200 | the lower-cased details e-mail is preferred; there is no e-mail exactly when both are missing |
| StripeWebhook.MarkError | stripe-webhook.js:277-283 | the failure merge marks only that event error with the message and the instant, keeping its other fields and every other event |
| StripeWebhook.SettlePaid | stripe-webhook.js:204-283 | an existing session license makes the event processed with nothing created; with the fields present and a free candidate code, exactly the session's license and the next counter value are written, and a sent mail leaves the event processed with that code, invoice number and e-mail, while a failed one leaves it error with the mail's message; with no code or a missing field the event is error and nothing else changes |
| StripeWebhook.HandleWebhook | stripe-webhook.js:150-284 | a bad signature is 400 with no write; only the event, the licenses and the counter can change; an ignored event creates nothing; a paid completed checkout of a new session with an e-mail and a free code adds the session's license and the next counter value, and replies success exactly when the mail went out; a paid checkout with no e-mail is 500 with the TypeError's text (naming `null` or `undefined` as the session sent it) and marks the event error; no session gets a second license |
| StripeWebhook.AddingKeepsOneLicensePerSession | stripe-webhook.js:205-222 | adding a license for a session that had none keeps one license per session |
| StripeWebhook.WebhookKeepsOneLicensePerSession | stripe-webhook.js:205-222 | whatever events arrive, the webhook never stores two licenses for one Checkout session |
| StripeWebhook.AddedIsSessionLicense | stripe-webhook.js:214-222 | the license a paid event adds belongs to that event's session |
| StripeWebhook.SessionWithLicenseNotReissued | stripe-webhook.js:204-209 | a paid event for a session that already has its license is answered with success, creates no license and takes no invoice number, and only its own event is marked processed with the reason |
| StripeWebhook.RedeliveryCreatesNothing | stripe-webhook.js:205-209 | redelivering an event whose session got its license is answered with success and writes only the event's bookkeeping |
| ManualPayment.KeepAlnum | manual-payment.js:5 | the filter keeps only `[A-Z0-9]` characters and leaves an all-alphanumeric text alone |
| ManualPayment.GenReferenciaAsWritten | manual-payment.js:4-7 | the reference as written is the method prefix, a dash and at most six `[A-Z0-9]` characters |
| ManualPayment.AsWrittenRandomPartStartsWithZero | manual-payment.js:4-7 | the first random character of every reference as written is `0` |
| ManualPayment.AsWrittenMissesReference | manual-payment.js:4-7 | so the reference `TUAPP-BIZ-A00000` is never generated |
| ManualPayment.GenReferencia | manual-payment.js:4-7 | a reference is the prefix, a dash and up to six `[A-Z0-9]` characters |
| ManualPayment.AsWrittenIsShiftedDraw | manual-payment.js:4-7 | the as-written reference of a draw is the intended reference of that draw with a `0` in front |
| ManualPayment.GenReferenciaReachesEvery | manual-payment.js:4-7 | every six-character `[A-Z0-9]` suffix is produced by some random draw |
| ManualPayment.ConfiguredPrice | manual-payment.js:13-17 | the price is the configured one when it is positive, else 0, and never negative |
| ManualPayment.Producto | manual-payment.js:88 | a missing product defaults to `contratos`, otherwise it is trimmed |
| ManualPayment.PendingOrder | manual-payment.js:126-141 | the stored order is pending, in euros, dated now, with the lower-cased e-mail, the amount and the reference, and nothing paid or sent yet |
| ManualPayment.InstructionsFor | manual-payment.js:145-151 | the instructions repeat the order's method, reference and amount, and carry the Bizum phone or the bank details of that method |
| ManualPayment.CreateManualOrder | manual-payment.js:80-156 | the refusals come in order: INVALID_METHOD, INVALID_EMAIL, BIZUM_PHONE_NOT_SET or BANK_IBAN_NOT_SET, PRICE_EUR_NOT_SET; a refusal writes nothing; success happens exactly when all checks pass, and adds one pending order with the intended six-character reference and returns its instructions |
| ManualPayment.CreateManualOrderAsWritten | manual-payment.js:80-156 | the handler of the source, whose reference keeps the leading `0`, is this handler given the draw with a `0` in front: the same outcome, and on success the as-written reference |
| OnlineValidation.NormalizarCodigo | index.js:94-99 | the online normalisation is the same as `normalizeCode`: no white space and a fixed point |
| OnlineValidation.CodigoFormatoValido | index.js:101-104 | a code in the online format starts `CONTR-` and has 20, 25 or 30 characters |
| OnlineValidation.CodigoFormatoValidoIff | index.js:101-104 | the `CONTR` format holds exactly for `CONTR` followed by 3 to 5 dash groups of four `[A-Z0-9]`, i.e. lengths 20, 25 or 30 |
| OnlineValidation.CodeShapeNeverContr | index.js:101-104 | no code of the generator's `XXXX-XXXX-XXXX` shape passes the online format |
| OnlineValidation.EffectiveStatus | index.js:164-166 | a missing status reads as active; a present one is kept; the result is never empty |
| OnlineValidation.HasLapsed | index.js:180-192 | a missing expiry never lapses; a lapsed license is also expired for the activation endpoints, and the two checks differ only on a missing expiry and at the expiry instant itself |
| OnlineValidation.ValidateTx | index.js:151-247 | the outcomes are not_found, revoked, expired, first use (which binds the device and starts a year), same device (which fills a missing expiry) and used_by_other; only a success is logged as a success; a refusal writes nothing |
| OnlineValidation.Validate | index.js:133-255 | missing fields and a bad format are 400 with no write; otherwise exactly one attempt is logged, only that license can change, and a success leaves it bound, used and with an expiry |
| OnlineValidation.ValidateValidIff | index.js:151-247 | on a well-formed request a device is let in exactly when the license is stored, not revoked, not lapsed, and unused or bound to that device |
| OnlineValidation.ValidateAgainSameDevice | index.js:195-237 | a device let in once is let in again while the license has not lapsed, and the second visit does not change the license |
| OnlineValidation.OtherDeviceTurnedAway | index.js:195-246 | once a device was let in, any other device is turned away as used_by_other (or expired) and the binding stays |
| OnlineValidation.IssuedCodesFailOnlineValidation | index.js:137-146 | codes of the generator's shape are refused by `/validar` before the store is read, and nothing is written |
| OnlineValidation.InfoOnLicense | index.js:276-298 | on a stored license `/info` answers 200 with reason revoked, used_by_other or expired, and succeeds with the stored expiry exactly when the license is not revoked, not bound to another device once used, and not lapsed |
| OnlineValidation.Info | index.js:261-301 | `/info` writes nothing; missing fields and a bad `CONTR` format are 400 before the store is read; an unknown well-formed code is a 200 `not_found`; other 200 refusals are `revoked`, `used_by_other` or `expired`; it succeeds with the stored expiry exactly for a stored, unrevoked, unlapsed license not bound to another device |
| OnlineValidation.InfoAgreesWithValidate | index.js:274-296 | for an active license, or a used one bound to a device, `/info` succeeds exactly when `/validar` would |
| OnlineValidation.InfoAndValidateDisagreeOnUnboundUsed | index.js:283-291 | for a license marked used but bound to no device, `/info` succeeds while `/validar` answers used_by_other |
| Scenarios.WebhookLicenseActivates | license-activate.js:77-91 | a license the webhook created activates on its first device, while `/validar` rejects its code as badly formatted |
| Scenarios.NewLicenseActivates | license-activate.js:77-91 | a stored, live, never-activated license of the generator's shape activates on its first device and binds it, while `/validar` rejects its code as badly formatted |
| Scenarios.PlacedOrderCompletes | admin-panel.js:200-314 | a manual order just placed can be completed: the license points back to the order and the order ends license_sent |
| Scenarios.SalesShareTheCounter | stripe-webhook.js:225 | a Stripe sale and a manual sale in the same year take consecutive invoice numbers from the one counter |

## Left out

- Firestore's availability checks: the 503 replies (`FIRESTORE_NOT_READY`, `firestore_not_ready`, `Firestore no inicializado`), the 500 `SERVER_CONFIG` replies for a missing database (license-activate.js:41, license-support.js:59, license-recover.js:86, license-admin-change-device.js:33) and the webhook's 500 for one (stripe-webhook.js:163). Also left out: the catch-all 500 for storage exceptions, and retries of transactions under contention: every transaction is one atomic step.
- Concurrency between requests: handlers run one after the other.
- The Stripe signature check itself (cryptography) is an input `signatureValid`; a failure of the idempotency write (its own 500) is not modelled.
- Mail rendering, HTML and PDF templates and the SMTP transport: outcomes are inputs (`Delivery`, `Mail`, `mailDelivered`); mail contents are not modelled beyond the code and invoice number they carry.
- Money arithmetic (base, VAT and withholding, `toFixed`, decimal commas) and the `baseImponible`/`ivaPerc`/`retPerc` fields of orders and ledger entries: floating point.
- Display rendering: the invoice, purchase and recovery mail templates, the admin HTML page, locale date formatting, `/generar-pdf` and `/api/health/firestore` produce output only and hold no licensing logic.
- LicenseSupport.SupportChangeDevice: the reason is cut to 200 characters, while `.slice(0, 200)` counts UTF-16 code units. A reason with characters outside the Basic Multilingual Plane is kept longer by the model than by the source, and the source can split a surrogate pair.
- `Number(process.env.X)` parsing is an input `Option<real>` (None for a non-finite value).
- The `lastError` and `console` writes on failure paths and the `activations` log's server timestamps beyond the instant `now`.
- `server.js` (routing, CORS, body parsing) and `stripe-checkout.js` (creating Checkout sessions): outside the licensing core.
- The `collectionName` option of `generateUniqueLicenseCode` is fixed to `licenses`, the only value callers pass.
- Common.AddOneYear: models `setFullYear(+1)` as 365 days; leap days and calendar arithmetic are left out, and the model relies only on the expiry lying after the payment.
- Text.ToUpper and Text.ToLower map ASCII letters only; JavaScript's Unicode case mapping is wider. Text.Trim and the `\s` of the code regular expressions use JavaScript's white space and line terminators (Text.IsSpace).
- ManualPayment.CreateManualOrder: the stored reference is the intended six-character one (ManualPayment.GenReferencia, see Findings); the source's reference, with its leading `0`, is what this handler gives for the draw with a `0` put in front (ManualPayment.CreateManualOrderAsWritten).
- AdminPanel.ListManualOrders: states the order by creation second but not the relative order of orders created in the same second (Array.prototype.sort is stable; the model's insertion sort is not claimed to match it).
- LicenseRecover.Recover: the query answer is read from the same store the transaction reads, so a stale query snapshot and a recovery flag spent by a concurrent request between the query and the transaction are not modelled; the 500 replies of the transaction's re-read (missing or no longer recoverable license) only arise from such races and are stated on LicenseRecover.RecoverTx.

## Findings

| source | as written | input that shows it | evidently intended | confidence | as-written member | corrected member |
|---|---|---|---|---|---|---|
| manual-payment.js:4-7 | `Math.random().toString(36)` prints `0.` before the digits; after upper-casing and dropping the point, the six kept characters start with that `0`, so only five are random | any draw, e.g. digits `a00000` give `TUAPP-BIZ-0A0000`; `TUAPP-BIZ-A00000` is unreachable | six random `[A-Z0-9]` characters taken from the digits after the point | not executed | ManualPayment.GenReferenciaAsWritten | ManualPayment.GenReferencia |

=== FILE: admin_panel.dfy ===
/*******************************************************************************
 *  The manual-order back office (admin-panel.js): the admin-key gate, the
 *  listing of orders by status, and the completion of a manual order, which
 *  moves it `pending → paid_processing → license_sent` (or
 *  `license_created_email_failed`) while issuing its license and invoice.
 *******************************************************************************/

module AdminPanel {
  import opened Common
  import opened Text
  import opened LicenseCode
  import opened Store
  import opened LicenseIssue
  import opened InvoiceCounter

  /** `requireAdmin`: both keys are compared trimmed; an unset key on the
      server is a 500, a missing or different key a 401. `None` lets the
      request through. */
  function RequireAdminKey(expected: string, provided: string): (r: Option<Failure>)
    ensures Trim(expected) == [] ==> r == Some(Failure(500, "ADMIN_KEY_NOT_SET"))
    ensures r.None? <==> Trim(expected) != [] && Trim(provided) == Trim(expected)
    ensures r.Some? && Trim(expected) != [] ==> r == Some(Failure(401, "UNAUTHORIZED"))
  {
    var key := Trim(provided);
    var want := Trim(expected);
    if want == [] then Some(Failure(500, "ADMIN_KEY_NOT_SET"))
    else if key == [] || key != want then Some(Failure(401, "UNAUTHORIZED"))
    else None
  }

  /** `getPriceEur`: the configured price when it parses to a finite number,
      else 0. `None` stands for a value that does not. */
  function PriceEur(configured: Option<real>): real {
    configured.GetOr(0.0)
  }

  // ---------------------------------------------------------------------------
  // listManualOrders
  // ---------------------------------------------------------------------------

  const LIST_LIMIT: nat := 200

  /** `ids` is a possible answer of `manual_orders where status == … limit 200`. */
  predicate IsOrderQueryResult(orders: map<string, Order>, status: string, ids: seq<string>) {
    && |ids| <= LIST_LIMIT
    && (forall i, j :: 0 <= i < j < |ids| ==> ids[i] != ids[j])
    && (forall i :: 0 <= i < |ids| ==> ids[i] in orders && orders[ids[i]].status == status)
    && (|ids| < LIST_LIMIT ==> forall id :: id in orders && orders[id].status == status ==> id in ids)
  }

  /** `createdAt._seconds`, with a missing timestamp counting as 0. */
  function ListKey(o: Order): int {
    if o.createdAt.Some? then Seconds(o.createdAt.value) else 0
  }

  predicate SortedNewestFirst(items: seq<(string, Order)>) {
    forall i, j :: 0 <= i < j < |items| ==> ListKey(items[i].1) >= ListKey(items[j].1)
  }

  /** Puts `x` before the first item that is not newer than it. */
  function InsertNewestFirst(x: (string, Order), items: seq<(string, Order)>): (r: seq<(string, Order)>)
    requires SortedNewestFirst(items)
    ensures SortedNewestFirst(r)
    ensures multiset(r) == multiset(items) + multiset{x}
    ensures |r| == |items| + 1
    ensures r[0] == x || (|items| > 0 && r[0] == items[0])
  {
    if |items| == 0 || ListKey(x.1) >= ListKey(items[0].1) then [x] + items
    else
      var rest := InsertNewestFirst(x, items[1..]);
      assert items == [items[0]] + items[1..];
      SortedCons(items[0], rest);
      [items[0]] + rest
  }

  /** An item no older than the head of a newest-first list may go in front. */
  lemma SortedCons(y: (string, Order), rest: seq<(string, Order)>)
    requires SortedNewestFirst(rest)
    requires |rest| > 0 ==> ListKey(rest[0].1) <= ListKey(y.1)
    ensures SortedNewestFirst([y] + rest)
  {
    var s := [y] + rest;
    forall i, j | 0 <= i < j < |s|
      ensures ListKey(s[i].1) >= ListKey(s[j].1)
    {
      if i == 0 {
        assert s[j] == rest[j - 1];
        assert ListKey(rest[0].1) >= ListKey(rest[j - 1].1);
      } else {
        assert s[i] == rest[i - 1] && s[j] == rest[j - 1];
      }
    }
  }

  /** The comparator sort `bSec - aSec`: newest first. */
  function SortNewestFirst(items: seq<(string, Order)>): (r: seq<(string, Order)>)
    ensures SortedNewestFirst(r)
    ensures multiset(r) == multiset(items)
    ensures |r| == |items|
  {
    if |items| == 0 then []
    else
      assert items == [items[0]] + items[1..];
      InsertNewestFirst(items[0], SortNewestFirst(items[1..]))
  }

  /** The query answer paired with the documents. */
  function Fetch(orders: map<string, Order>, ids: seq<string>): (r: seq<(string, Order)>)
    requires forall i :: 0 <= i < |ids| ==> ids[i] in orders
    ensures |r| == |ids|
    ensures forall i :: 0 <= i < |ids| ==> r[i] == (ids[i], orders[ids[i]])
  {
    seq(|ids|, i requires 0 <= i < |ids| => (ids[i], orders[ids[i]]))
  }

  /** The reply of `listManualOrders`. */
  datatype OrderList = OrderList(items: seq<(string, Order)>, priceEur: real)

  /** `listManualOrders`: the orders of the requested status (`pending`
      when none is given), newest first, with the configured price. */
  function ListManualOrders(db: Db, rawStatus: string, ids: seq<string>, configuredPrice: Option<real>): (r: OrderList)
    requires IsOrderQueryResult(db.orders, if rawStatus == [] then "pending" else rawStatus, ids)
    ensures SortedNewestFirst(r.items)
    ensures |r.items| == |ids| <= LIST_LIMIT
    // Exactly the answered orders, each once, each with its stored document.
    ensures multiset(r.items) == multiset(Fetch(db.orders, ids))
    ensures forall i :: 0 <= i < |r.items| ==>
      && r.items[i].0 in db.orders && r.items[i].1 == db.orders[r.items[i].0]
      && r.items[i].1.status == (if rawStatus == [] then "pending" else rawStatus)
    ensures r.priceEur == PriceEur(configuredPrice)
  {
    var items := SortNewestFirst(Fetch(db.orders, ids));
    assert forall i :: 0 <= i < |items| ==> items[i] in multiset(Fetch(db.orders, ids));
    OrderList(items, PriceEur(configuredPrice))
  }

  // ---------------------------------------------------------------------------
  // completeManualOrder
  // ---------------------------------------------------------------------------

  /** What happens after the invoice is recorded: the PDF rendering or the
      transport setup throws, the transport refuses the mail, or it is sent. */
  datatype Delivery = RenderFailed | SendFailed(message: string) | Delivered

  /** The reply of a completion that got as far as issuing the license. */
  datatype Completion = Completion(licenseCode: string, emailFailed: bool)

  /** The order transaction: only a pending order moves on, to
      `paid_processing`, with the payment instant, the configured price and
      the currency. */
  function MarkPaidTx(orders: map<string, Order>, now: Time, id: string, price: real): (r: (bool, map<string, Order>))
    ensures r.0 <==> id in orders && orders[id].status == "pending"
    ensures !r.0 ==> r.1 == orders
    ensures r.0 ==> r.1 == orders[id := orders[id].(status := "paid_processing", paidAt := Some(now),
                                                   updatedAt := Some(now), amount := price, currency := "EUR")]
  {
    if id !in orders || orders[id].status != "pending" then (false, orders)
    else (true, orders[id := orders[id].(status := "paid_processing", paidAt := Some(now),
                                         updatedAt := Some(now), amount := price, currency := "EUR")])
  }

  /** The license document of a completed manual order. */
  function ManualLicense(code: string, now: Time, id: string, order: Order): (lic: License)
    ensures IsNewLicense(lic, code)
    ensures lic.email == ToLower(Trim(order.email)) && lic.source == "manual"
    ensures lic.paidAt == Some(now) && lic.expiresAt == Some(AddOneYear(now))
    ensures lic.manual == Some(ManualRef(id, order.metodo, order.referencia)) && lic.stripe.None?
  {
    License(
      code := code,
      email := ToLower(Trim(order.email)),
      status := "active",
      createdAt := Some(now),
      paidAt := Some(now),
      expiresAt := Some(AddOneYear(now)),
      deviceUuid := "",
      activatedUuid := "",
      activatedAt := None,
      deviceChangeUsed := false,
      deviceChangedAt := None,
      deviceChangeReason := "",
      previousDeviceUuid := "",
      recoveryUsed := false,
      recoveryUsedAt := None,
      source := "manual",
      stripe := None,
      manual := Some(ManualRef(id, order.metodo, order.referencia)),
      webhookProcessedAt := None,
      updatedAt := Some(now))
  }

  /** The entry of the issued-invoices ledger. */
  function LedgerEntry(no: InvoiceNo, now: Time, email: string, order: Order, id: string): (r: Invoice)
    ensures r.invoiceNumber == InvoiceText(no) && r.date == now && r.email == email && r.orderId == id
    // The payment method is never blank: an order without one is recorded as manual.
    ensures r.payMethod != []
    ensures order.metodo != [] ==> r.payMethod == order.metodo
  {
    Invoice(InvoiceText(no), now, email, if order.metodo != [] then order.metodo else "manual", id)
  }

  /** The writes of a sale once its code is drawn: the license (through the
      creating transaction), the next invoice number and its ledger entry.
      `None` when the creating transaction meets a collision. */
  function RecordSale(db: Db, now: Time, yearNow: int, id: string, order: Order, code: string): (r: Option<Db>)
    ensures r.None? <==> code in db.licenses
    ensures r.Some? ==>
      var inv := NextInvoiceNumber(db.counter, yearNow);
      r.value == db.(licenses := db.licenses[code := ManualLicense(code, now, id, order)],
                     counter := Some(inv.1),
                     invoices := db.invoices[InvoiceKey(inv.0) := LedgerEntry(inv.0, now, ToLower(Trim(order.email)), order, id)])
  {
    var (created, licenses') := CreateLicenseTx(db.licenses, code, ManualLicense(code, now, id, order));
    if created.Err? then None
    else
      var (no, counter') := NextInvoiceNumber(db.counter, yearNow);
      Some(db.(licenses := licenses', counter := Some(counter'),
               invoices := db.invoices[InvoiceKey(no) := LedgerEntry(no, now, ToLower(Trim(order.email)), order, id)]))
  }

  /** The order's final update after the mail: `license_created_email_failed`
      with the transport's message, or `license_sent` with the invoice. */
  function AfterMail(paid: Order, now: Time, code: string, no: InvoiceNo, delivery: Delivery): (o: Order)
    requires !delivery.RenderFailed?
    ensures o.licenseCode == code
    ensures delivery.Delivered? ==> o.status == "license_sent" && o.invoice == InvoiceText(no) && o.sentAt == Some(now)
    ensures delivery.SendFailed? ==>
      o.status == "license_created_email_failed" && o.emailError == delivery.message && o.invoice == paid.invoice
  {
    match delivery
    case SendFailed(msg) =>
      paid.(status := "license_created_email_failed", licenseCode := code, emailError := msg, updatedAt := Some(now))
    case Delivered =>
      paid.(status := "license_sent", licenseCode := code, invoice := InvoiceText(no), sentAt := Some(now), updatedAt := Some(now))
  }

  /** The steps after the order transaction, on the store it left behind:
      a fresh code, the sale's writes, the mail, and the order's final status. */
  function IssueForOrder(db: Db, now: Time, yearNow: int, id: string, order: Order,
                         draws: seq<seq<byte>>, delivery: Delivery): (r: (Result<Completion, Failure>, Db))
    requires EnoughEntropy(draws) && DEFAULT_MAX_ATTEMPTS <= |draws|
    requires id in db.orders
    ensures r.0.Err? ==> r.0.error == Failure(500, "SERVER_ERROR") && r.1.orders == db.orders
    ensures r.1.events == db.events && r.1.activations == db.activations
    ensures OnlyKeyChanged(db.orders, r.1.orders, id) && r.1.orders.Keys == db.orders.Keys
    ensures r.0.Ok? <==>
      (exists k :: 0 <= k < DEFAULT_MAX_ATTEMPTS && Candidate(draws, k) !in db.licenses) && !delivery.RenderFailed?
    ensures (forall k :: 0 <= k < DEFAULT_MAX_ATTEMPTS ==> Candidate(draws, k) in db.licenses) ==>
      r == (Err(Failure(500, "SERVER_ERROR")), db)
    ensures (exists k :: 0 <= k < DEFAULT_MAX_ATTEMPTS && Candidate(draws, k) !in db.licenses) && delivery.RenderFailed? ==>
      var inv := NextInvoiceNumber(db.counter, yearNow);
      && r.0 == Err(Failure(500, "SERVER_ERROR"))
      && r.1.orders == db.orders && r.1.counter == Some(inv.1)
      && exists code ::
        && code !in db.licenses && HasCodeShape(code)
        && r.1.licenses == db.licenses[code := ManualLicense(code, now, id, order)]
        && r.1.invoices == db.invoices[InvoiceKey(inv.0) := LedgerEntry(inv.0, now, ToLower(Trim(order.email)), order, id)]
    ensures r.0.Ok? ==>
      var code := r.0.value.licenseCode;
      var inv := NextInvoiceNumber(db.counter, yearNow);
      && code !in db.licenses && HasCodeShape(code)
      && RecordSale(db, now, yearNow, id, order, code) == Some(r.1.(orders := db.orders))
      && r.1.licenses == db.licenses[code := ManualLicense(code, now, id, order)]
      && r.1.counter == Some(inv.1)
      && r.1.invoices == db.invoices[InvoiceKey(inv.0) := LedgerEntry(inv.0, now, ToLower(Trim(order.email)), order, id)]
      && r.1.orders[id] == AfterMail(db.orders[id], now, code, inv.0, delivery)
      && (r.0.value.emailFailed <==> delivery.SendFailed?)
  {
    assert AttemptCount(None) == DEFAULT_MAX_ATTEMPTS;
    match GenerateUniqueLicenseCode(Some(db.licenses), None, draws)
    case Err(_) => (Err(Failure(500, "SERVER_ERROR")), db)
    case Ok(code) => SellWithCode(db, now, yearNow, id, order, code, delivery)
  }

  /** The same steps once the code is drawn. */
  function SellWithCode(db: Db, now: Time, yearNow: int, id: string, order: Order, code: string,
                        delivery: Delivery): (r: (Result<Completion, Failure>, Db))
    requires id in db.orders
    ensures r.0.Err? ==> r.0.error == Failure(500, "SERVER_ERROR") && r.1.orders == db.orders
    ensures r.1.events == db.events && r.1.activations == db.activations
    ensures OnlyKeyChanged(db.orders, r.1.orders, id) && r.1.orders.Keys == db.orders.Keys
    ensures r.0.Ok? <==> code !in db.licenses && !delivery.RenderFailed?
    ensures code in db.licenses ==> r == (Err(Failure(500, "SERVER_ERROR")), db)
    // The mail is rendered only after the license, the invoice number and the
    // ledger entry are written, so a render failure leaves all three behind.
    ensures code !in db.licenses && delivery.RenderFailed? ==>
      r.0 == Err(Failure(500, "SERVER_ERROR")) && RecordSale(db, now, yearNow, id, order, code) == Some(r.1)
    ensures r.0.Ok? ==>
      && r.0.value.licenseCode == code
      && RecordSale(db, now, yearNow, id, order, code) == Some(r.1.(orders := db.orders))
      && r.1.orders[id] == AfterMail(db.orders[id], now, code, NextInvoiceNumber(db.counter, yearNow).0, delivery)
      && (r.0.value.emailFailed <==> delivery.SendFailed?)
  {
    match RecordSale(db, now, yearNow, id, order, code)
    case None => (Err(Failure(500, "SERVER_ERROR")), db)
    case Some(db') =>
      if delivery.RenderFailed? then (Err(Failure(500, "SERVER_ERROR")), db')
      else
        var no := NextInvoiceNumber(db.counter, yearNow).0;
        (Ok(Completion(code, delivery.SendFailed?)), db'.(orders := db.orders[id := AfterMail(db.orders[id], now, code, no, delivery)]))
  }

  /** `completeManualOrder`. Every thrown error, including a missing or
      non-pending order, ends in the outer catch as 500 SERVER_ERROR. */
  function CompleteManualOrder(db: Db, now: Time, yearNow: int, rawId: string, configuredPrice: Option<real>,
                               draws: seq<seq<byte>>, delivery: Delivery): (r: (Result<Completion, Failure>, Db))
    requires EnoughEntropy(draws) && DEFAULT_MAX_ATTEMPTS <= |draws|
    ensures Trim(rawId) == [] ==> r == (Err(Failure(400, "MISSING_ID")), db)
    ensures r.0.Err? ==> r.0.error == Failure(400, "MISSING_ID") || r.0.error == Failure(500, "SERVER_ERROR")
    // Nothing but this order, one license, the counter and one invoice is written.
    ensures r.1.events == db.events && r.1.activations == db.activations
    ensures OnlyKeyChanged(db.orders, r.1.orders, Trim(rawId)) && r.1.orders.Keys == db.orders.Keys
    // A missing or non-pending order is refused without any write.
    ensures Trim(rawId) != [] && (Trim(rawId) !in db.orders || db.orders[Trim(rawId)].status != "pending") ==>
      r == (Err(Failure(500, "SERVER_ERROR")), db)
    // Once past the order transaction the order has left `pending` for good:
    // it is stuck in `paid_processing` when issuance or rendering fails.
    ensures Trim(rawId) != [] && Trim(rawId) in db.orders && db.orders[Trim(rawId)].status == "pending" ==>
      && (|| r.1.orders[Trim(rawId)].status == "paid_processing" || r.1.orders[Trim(rawId)].status == "license_sent"
          || r.1.orders[Trim(rawId)].status == "license_created_email_failed")
      && (r.0.Err? <==> r.1.orders[Trim(rawId)].status == "paid_processing")
    ensures r.0.Ok? <==>
      && Trim(rawId) != [] && Trim(rawId) in db.orders && db.orders[Trim(rawId)].status == "pending"
      && (exists k :: 0 <= k < DEFAULT_MAX_ATTEMPTS && Candidate(draws, k) !in db.licenses)
      && !delivery.RenderFailed?
    // When every attempt meets a stored code, only the order's paid_processing write remains.
    ensures Trim(rawId) != [] && Trim(rawId) in db.orders && db.orders[Trim(rawId)].status == "pending"
            && (forall k :: 0 <= k < DEFAULT_MAX_ATTEMPTS ==> Candidate(draws, k) in db.licenses) ==>
      r == (Err(Failure(500, "SERVER_ERROR")), db.(orders := MarkPaidTx(db.orders, now, Trim(rawId), PriceEur(configuredPrice)).1))
    // A render failure leaves an orphan license, a spent invoice number and its
    // ledger entry behind, with the order stuck in paid_processing.
    ensures Trim(rawId) != [] && Trim(rawId) in db.orders && db.orders[Trim(rawId)].status == "pending"
            && (exists k :: 0 <= k < DEFAULT_MAX_ATTEMPTS && Candidate(draws, k) !in db.licenses)
            && delivery.RenderFailed? ==>
      var id := Trim(rawId);
      var inv := NextInvoiceNumber(db.counter, yearNow);
      && r.0 == Err(Failure(500, "SERVER_ERROR"))
      && r.1.orders == MarkPaidTx(db.orders, now, id, PriceEur(configuredPrice)).1
      && r.1.counter == Some(inv.1)
      && exists code ::
        && code !in db.licenses && HasCodeShape(code)
        && r.1.licenses == db.licenses[code := ManualLicense(code, now, id, db.orders[id])]
        && r.1.invoices == db.invoices[InvoiceKey(inv.0) := LedgerEntry(inv.0, now, ToLower(Trim(db.orders[id].email)), db.orders[id], id)]
    // A completed order has a new license under a fresh code, the next
    // invoice number, its ledger entry, and a status telling whether the mail
    // went out.
    ensures r.0.Ok? ==>
      var id := Trim(rawId);
      var code := r.0.value.licenseCode;
      var inv := NextInvoiceNumber(db.counter, yearNow);
      && code !in db.licenses && HasCodeShape(code)
      && r.1.licenses == db.licenses[code := ManualLicense(code, now, id, db.orders[id])]
      && r.1.counter == Some(inv.1)
      && r.1.invoices == db.invoices[InvoiceKey(inv.0) := LedgerEntry(inv.0, now, ToLower(Trim(db.orders[id].email)), db.orders[id], id)]
      && r.1.orders[id] == AfterMail(MarkPaidTx(db.orders, now, id, PriceEur(configuredPrice)).1[id], now, code, inv.0, delivery)
      && r.1.orders[id].licenseCode == code
      && (r.0.value.emailFailed <==> delivery.SendFailed?)
      && (delivery.Delivered? ==> r.1.orders[id].status == "license_sent" && r.1.orders[id].invoice == InvoiceText(inv.0))
      && (delivery.SendFailed? ==> r.1.orders[id].status == "license_created_email_failed"
                                   && r.1.orders[id].emailError == delivery.message)
  {
    var id := Trim(rawId);
    if id == [] then (Err(Failure(400, "MISSING_ID")), db)
    else
      FailedCompletionWrites(db, now, yearNow, id, PriceEur(configuredPrice), draws, delivery);
      CompleteOrder(db, now, yearNow, id, PriceEur(configuredPrice), draws, delivery)
  }

  /** The completion of the order `id` from the order transaction on. */
  function CompleteOrder(db: Db, now: Time, yearNow: int, id: string, price: real,
                         draws: seq<seq<byte>>, delivery: Delivery): (r: (Result<Completion, Failure>, Db))
    requires EnoughEntropy(draws) && DEFAULT_MAX_ATTEMPTS <= |draws|
    ensures r.0.Err? ==> r.0.error == Failure(500, "SERVER_ERROR")
    ensures r.1.events == db.events && r.1.activations == db.activations
    ensures OnlyKeyChanged(db.orders, r.1.orders, id) && r.1.orders.Keys == db.orders.Keys
    ensures (id !in db.orders || db.orders[id].status != "pending") ==> r == (Err(Failure(500, "SERVER_ERROR")), db)
    ensures id in db.orders && db.orders[id].status == "pending" ==>
      && (|| r.1.orders[id].status == "paid_processing" || r.1.orders[id].status == "license_sent"
          || r.1.orders[id].status == "license_created_email_failed")
      && (r.0.Err? <==> r.1.orders[id].status == "paid_processing")
    ensures r.0.Ok? <==>
      && id in db.orders && db.orders[id].status == "pending"
      && (exists k :: 0 <= k < DEFAULT_MAX_ATTEMPTS && Candidate(draws, k) !in db.licenses)
      && !delivery.RenderFailed?
    ensures r.0.Ok? ==>
      var code := r.0.value.licenseCode;
      var inv := NextInvoiceNumber(db.counter, yearNow);
      && code !in db.licenses && HasCodeShape(code)
      && r.1.licenses == db.licenses[code := ManualLicense(code, now, id, db.orders[id])]
      && r.1.counter == Some(inv.1)
      && r.1.invoices == db.invoices[InvoiceKey(inv.0) := LedgerEntry(inv.0, now, ToLower(Trim(db.orders[id].email)), db.orders[id], id)]
      && r.1.orders[id] == AfterMail(MarkPaidTx(db.orders, now, id, price).1[id], now, code, inv.0, delivery)
      && r.1.orders[id].licenseCode == code
      && (r.0.value.emailFailed <==> delivery.SendFailed?)
      && (delivery.Delivered? ==> r.1.orders[id].status == "license_sent" && r.1.orders[id].invoice == InvoiceText(inv.0))
      && (delivery.SendFailed? ==> r.1.orders[id].status == "license_created_email_failed"
                                   && r.1.orders[id].emailError == delivery.message)
  {
    var (marked, orders') := MarkPaidTx(db.orders, now, id, price);
    if !marked then (Err(Failure(500, "SERVER_ERROR")), db)
    else IssueForOrder(db.(orders := orders'), now, yearNow, id, db.orders[id], draws, delivery)
  }


  /** What a failed completion of a pending order leaves behind. When every
      attempt meets a stored code, only the order transaction's write remains.
      The mail is rendered only after the license, the invoice number and the
      ledger entry are written, so a render failure leaves all three behind:
      an orphan license, a spent invoice number and its ledger entry, with the
      order stuck in paid_processing. */
  lemma FailedCompletionWrites(db: Db, now: Time, yearNow: int, id: string, price: real,
                               draws: seq<seq<byte>>, delivery: Delivery)
    requires EnoughEntropy(draws) && DEFAULT_MAX_ATTEMPTS <= |draws|
    ensures id in db.orders && db.orders[id].status == "pending"
            && (forall k :: 0 <= k < DEFAULT_MAX_ATTEMPTS ==> Candidate(draws, k) in db.licenses) ==>
      CompleteOrder(db, now, yearNow, id, price, draws, delivery)
        == (Err(Failure(500, "SERVER_ERROR")), db.(orders := MarkPaidTx(db.orders, now, id, price).1))
    ensures id in db.orders && db.orders[id].status == "pending"
            && (exists k :: 0 <= k < DEFAULT_MAX_ATTEMPTS && Candidate(draws, k) !in db.licenses)
            && delivery.RenderFailed? ==>
      var r := CompleteOrder(db, now, yearNow, id, price, draws, delivery);
      var inv := NextInvoiceNumber(db.counter, yearNow);
      && r.0 == Err(Failure(500, "SERVER_ERROR"))
      && r.1.orders == MarkPaidTx(db.orders, now, id, price).1
      && r.1.counter == Some(inv.1)
      && exists code ::
        && code !in db.licenses && HasCodeShape(code)
        && r.1.licenses == db.licenses[code := ManualLicense(code, now, id, db.orders[id])]
        && r.1.invoices == db.invoices[InvoiceKey(inv.0) := LedgerEntry(inv.0, now, ToLower(Trim(db.orders[id].email)), db.orders[id], id)]
  {
  }

  /** A manual order yields at most one license: whatever became of a
      completion that got past the order transaction, completing the same
      order again is refused and writes nothing. */
  lemma CompleteTwiceRefused(db: Db, now: Time, later: Time, y1: int, y2: int, rawId: string, p1: Option<real>, p2: Option<real>,
                             draws1: seq<seq<byte>>, draws2: seq<seq<byte>>, d1: Delivery, d2: Delivery)
    requires EnoughEntropy(draws1) && DEFAULT_MAX_ATTEMPTS <= |draws1|
    requires EnoughEntropy(draws2) && DEFAULT_MAX_ATTEMPTS <= |draws2|
    requires Trim(rawId) != [] && Trim(rawId) in db.orders && db.orders[Trim(rawId)].status == "pending"
    ensures var db1 := CompleteManualOrder(db, now, y1, rawId, p1, draws1, d1).1;
      CompleteManualOrder(db1, later, y2, rawId, p2, draws2, d2) == (Err(Failure(500, "SERVER_ERROR")), db1)
  {
  }
}

=== FILE: common.dfy ===
/*******************************************************************************
 *  Shared vocabulary of the licensing backend model: optional values, results
 *  and the millisecond clock.
 *******************************************************************************/

module Common {

  /** A value that may be absent: a JavaScript field that is null or undefined. */
  datatype Option<+T> = None | Some(value: T) {

    /** The value, or `default` when absent (JavaScript's `x || default` on objects). */
    function GetOr(default: T): T {
      match this
      case Some(v) => v
      case None => default
    }
  }

  /** The outcome of a step that either yields a value or fails with an error. */
  datatype Result<+T, +E> = Ok(value: T) | Err(error: E)

  /** Instants are integer milliseconds since the Unix epoch, as `Date.getTime()`. */
  type Time = int

  const MS_PER_SECOND: int := 1000
  const MS_PER_DAY: int := 24 * 60 * 60 * MS_PER_SECOND

  /** `d.setFullYear(d.getFullYear() + 1)`: the calendar length of the year
      (leap days) is not modelled; the rest of the model relies only on the
      result lying strictly after `t`. */
  function AddOneYear(t: Time): (r: Time)
    ensures r > t
  {
    t + 365 * MS_PER_DAY
  }

  /** Whole seconds of an instant, as a Firestore Timestamp's `_seconds`. */
  function Seconds(t: Time): int
  {
    t / MS_PER_SECOND
  }
}

=== FILE: invoice_counter.dfy ===
/*******************************************************************************
 *  Invoice numbering (`getNextInvoiceNumber`, written identically in
 *  admin-panel.js and stripe-webhook.js): one counter document shared by
 *  both paths, reset when the calendar year changes, issuing `N/YYYY`.
 *******************************************************************************/

module InvoiceCounter {
  import opened Common
  import opened Text
  import opened Store

  /** An issued invoice number: the sequence number within its year. */
  datatype InvoiceNo = InvoiceNo(n: int, year: int)

  /** The counter transaction: continue the count when the stored year is
      the current one (a missing year counts as current), start again at 1
      otherwise, and store the issued number with the current year. */
  function NextInvoiceNumber(counter: Option<Counter>, yearNow: int): (r: (InvoiceNo, Counter))
    ensures r.0.year == yearNow && r.1 == Counter(r.0.n, yearNow)
    // Within one year the numbers climb past the stored one.
    ensures counter.Some? && (counter.value.year == yearNow || counter.value.year == 0) ==>
      r.0.n == counter.value.current + 1
    // A fresh counter, or a new year, starts at 1.
    ensures counter.None? || (counter.value.year != yearNow && counter.value.year != 0) ==> r.0.n == 1
  {
    var lastYear := if counter.Some? && counter.value.year != 0 then counter.value.year else yearNow;
    var next := if counter.Some? && lastYear == yearNow then counter.value.current + 1 else 1;
    (InvoiceNo(next, yearNow), Counter(next, yearNow))
  }

  /** `${nextNum}/${yearNow}`. */
  function InvoiceText(no: InvoiceNo): string {
    IntToString(no.n) + "/" + IntToString(no.year)
  }

  /** The key of the invoice in the `invoices` ledger: the text with its
      (first) slash turned into a dash. */
  function InvoiceKey(no: InvoiceNo): string {
    ReplaceFirst(InvoiceText(no), '/', '-')
  }

  /** The numbers a run of counter transactions issues, one per year reading. */
  function IssueRun(counter: Option<Counter>, years: seq<int>): (r: seq<InvoiceNo>)
    ensures |r| == |years|
    ensures forall i :: 0 <= i < |r| ==> r[i].year == years[i]
    decreases |years|
  {
    if |years| == 0 then []
    else
      var (no, counter') := NextInvoiceNumber(counter, years[0]);
      [no] + IssueRun(Some(counter'), years[1..])
  }

  predicate NoRepeats(nos: seq<InvoiceNo>) {
    forall i, j :: 0 <= i < j < |nos| ==> nos[i] != nos[j]
  }

  /** Every number issued in the counter's own year lies past its count. */
  predicate AllAbove(nos: seq<InvoiceNo>, counter: Counter) {
    forall i :: 0 <= i < |nos| && nos[i].year == counter.year ==> nos[i].n > counter.current
  }

  /** While the clock does not run backwards and the stored counter is not
      from a later year, no invoice number is issued twice, and none of them
      repeats a number the counter had already reached in its own year. */
  lemma {:induction false} IssueRunDistinct(counter: Option<Counter>, years: seq<int>)
    requires forall i, j :: 0 <= i < j < |years| ==> years[i] <= years[j]
    requires forall i :: 0 <= i < |years| ==> years[i] > 0
    requires counter.Some? && |years| > 0 ==> counter.value.year <= years[0]
    ensures NoRepeats(IssueRun(counter, years))
    ensures counter.Some? ==> AllAbove(IssueRun(counter, years), counter.value)
    decreases |years|
  {
    if |years| > 0 {
      var step := NextInvoiceNumber(counter, years[0]);
      var no := step.0;
      var rest := IssueRun(Some(step.1), years[1..]);
      IssueRunDistinct(Some(step.1), years[1..]);
      assert step.1 == Counter(no.n, years[0]);
      assert IssueRun(counter, years) == [no] + rest;
      forall j | 0 <= j < |rest|
        ensures rest[j] != no
      {
        assert years[1..][j] == years[j + 1];
        if rest[j].year == no.year {
          assert rest[j].n > no.n;
        }
      }
    }
  }

  /** The count the next number in year `y` follows. */
  function CountBefore(counter: Option<Counter>, y: int): int {
    if counter.Some? && (counter.value.year == y || counter.value.year == 0) then counter.value.current else 0
  }

  /** `k` readings of the same year. */
  function Repeat(y: int, k: nat): (r: seq<int>)
    ensures |r| == k && forall i :: 0 <= i < k ==> r[i] == y
  {
    seq(k, _ => y)
  }

  /** Within one year the numbers are consecutive: the k calls of a year
      issue the k numbers that follow the stored count, with no gap and no
      repeat (1, 2, 3, … for a fresh counter or a new year). */
  lemma {:induction false} IssueRunConsecutive(counter: Option<Counter>, y: int, k: nat)
    ensures forall i :: 0 <= i < k ==> IssueRun(counter, Repeat(y, k))[i] == InvoiceNo(CountBefore(counter, y) + i + 1, y)
    decreases k
  {
    if k > 0 {
      var years := Repeat(y, k);
      var step := NextInvoiceNumber(counter, y);
      assert years[1..] == Repeat(y, k - 1);
      IssueRunConsecutive(Some(step.1), y, k - 1);
      assert IssueRun(counter, years) == [step.0] + IssueRun(Some(step.1), years[1..]);
    }
  }

  /** A text `a + [sep] + b` whose prefix `a` is made of digits determines
      `a` and `b`. */
  lemma SplitAtSeparator(a: string, b: string, c: string, d: string, sep: char)
    requires !IsDigit(sep)
    requires forall i :: 0 <= i < |a| ==> IsDigit(a[i])
    requires forall i :: 0 <= i < |c| ==> IsDigit(c[i])
    requires a + [sep] + b == c + [sep] + d
    ensures a == c && b == d
  {
    assert (a + [sep] + b)[|a|] == sep && (c + [sep] + d)[|c|] == sep;
    assert forall i :: 0 <= i < |a| ==> (a + [sep] + b)[i] == a[i];
    assert forall i :: 0 <= i < |c| ==> (c + [sep] + d)[i] == c[i];
    if |a| == |c| {
      assert a == (a + [sep] + b)[..|a|];
      assert c == (c + [sep] + d)[..|c|];
      assert b == (a + [sep] + b)[|a| + 1..];
      assert d == (c + [sep] + d)[|c| + 1..];
    }
  }

  /** The ledger key of a number is its text with a dash for the slash. */
  lemma InvoiceKeyShape(no: InvoiceNo)
    requires no.n >= 0 && no.year >= 0
    ensures InvoiceKey(no) == NatToString(no.n) + "-" + NatToString(no.year)
  {
    var a := NatToString(no.n);
    assert forall i :: 0 <= i < |a| ==> a[i] != '/';
    ReplaceFirstSplit(a, '/', '-', NatToString(no.year));
  }

  /** Distinct numbers get distinct ledger keys, so recording an invoice with
      `set` never overwrites another one. */
  lemma InvoiceKeyInjective(x: InvoiceNo, y: InvoiceNo)
    requires x.n >= 0 && x.year >= 0 && y.n >= 0 && y.year >= 0
    requires InvoiceKey(x) == InvoiceKey(y)
    ensures x == y
  {
    InvoiceKeyShape(x);
    InvoiceKeyShape(y);
    SplitAtSeparator(NatToString(x.n), NatToString(x.year), NatToString(y.n), NatToString(y.year), '-');
    NatToStringInjective(x.n, y.n);
    NatToStringInjective(x.year, y.year);
  }
}

=== FILE: license_activate.dfy ===
/*******************************************************************************
 *  License activation, `POST /api/licencia/activar` (license-activate.js):
 *  binds a code to the first device that activates it.
 *******************************************************************************/

module LicenseActivate {
  import opened Common
  import opened Text
  import opened LicenseCode
  import opened Store

  /** The body of a successful activation. */
  datatype Activation = Activation(code: string, expiresAt: Option<Time>, deviceUuid: string, firstActivation: bool)

  /** `revoked` and `refunded`, in any letter case, block a license. */
  predicate IsBlocked(status: string) {
    ToLower(status) == "revoked" || ToLower(status) == "refunded"
  }

  /** The request checks, in order, before the store is read: a code, a code of
      the right format, a device. On success, the normalised code and the
      trimmed device id. */
  function CheckRequest(rawCode: string, rawDevice: string): (r: Result<(string, string), Failure>)
    ensures NormalizeCode(rawCode) == [] ==> r == Err(Failure(400, "MISSING_CODE"))
    ensures NormalizeCode(rawCode) != [] && !IsValidCodeFormat(rawCode) ==> r == Err(Failure(400, "INVALID_CODE_FORMAT"))
    ensures IsValidCodeFormat(rawCode) && Trim(rawDevice) == [] ==> r == Err(Failure(400, "MISSING_DEVICE"))
    ensures r.Ok? <==> IsValidCodeFormat(rawCode) && Trim(rawDevice) != []
    ensures r.Ok? ==> r.value == (NormalizeCode(rawCode), Trim(rawDevice)) && HasCodeShape(r.value.0)
  {
    var code := NormalizeCode(rawCode);
    var device := Trim(rawDevice);
    NormalizeCodeIdempotent(rawCode);
    if code == [] then Err(Failure(400, "MISSING_CODE"))
    else if !IsValidCodeFormat(code) then Err(Failure(400, "INVALID_CODE_FORMAT"))
    else if device == [] then Err(Failure(400, "MISSING_DEVICE"))
    else Ok((code, device))
  }

  /** The transaction body on the license stored under `code`. */
  function ActivateTx(licenses: map<string, License>, now: Time, code: string, device: string)
    : (r: (Result<Activation, Failure>, map<string, License>))
    requires device != []
    // A missing or blocked license is rejected without a write.
    ensures code !in licenses ==> r == (Err(Failure(404, "NOT_FOUND")), licenses)
    ensures code in licenses && IsBlocked(licenses[code].status) ==> r == (Err(Failure(403, "BLOCKED")), licenses)
    // Otherwise only the license under `code` may change.
    ensures OnlyKeyChanged(licenses, r.1, code) && r.1.Keys == licenses.Keys
    // An expired license is marked expired and rejected.
    ensures code in licenses && !IsBlocked(licenses[code].status) && IsExpired(licenses[code].expiresAt, now) ==>
      r.0 == Err(Failure(403, "EXPIRED")) && r.1[code] == licenses[code].(status := "expired", updatedAt := Some(now))
    // Success exactly for a live license that is unbound or bound to this device.
    ensures r.0.Ok? <==>
      code in licenses && !IsBlocked(licenses[code].status) && !IsExpired(licenses[code].expiresAt, now)
      && (licenses[code].deviceUuid == [] || licenses[code].deviceUuid == device)
    ensures r.0.Ok? ==>
      && r.1[code].deviceUuid == device
      && r.0.value == Activation(code, licenses[code].expiresAt, device, licenses[code].deviceUuid == [])
    // Binding writes the device and the activation instant and nothing else.
    ensures r.0.Ok? && r.0.value.firstActivation ==>
      r.1[code] == licenses[code].(deviceUuid := device, activatedAt := Some(now), updatedAt := Some(now))
    // A bound license stays bound to its device on every path.
    ensures code in licenses && licenses[code].deviceUuid != [] ==> r.1[code].deviceUuid == licenses[code].deviceUuid
    // Activation moves the status nowhere but to `expired`.
    ensures code in licenses ==> r.1[code].status == licenses[code].status || r.1[code].status == "expired"
    // Every path other than expiry and first binding leaves the store as it was.
    ensures r.0 != Err(Failure(403, "EXPIRED")) && !(r.0.Ok? && r.0.value.firstActivation) ==> r.1 == licenses
  {
    if code !in licenses then (Err(Failure(404, "NOT_FOUND")), licenses)
    else
      var lic := licenses[code];
      if IsBlocked(lic.status) then (Err(Failure(403, "BLOCKED")), licenses)
      else if IsExpired(lic.expiresAt, now) then
        (Err(Failure(403, "EXPIRED")), licenses[code := lic.(status := "expired", updatedAt := Some(now))])
      else if lic.deviceUuid == [] then
        (Ok(Activation(code, lic.expiresAt, device, true)),
         licenses[code := lic.(deviceUuid := device, activatedAt := Some(now), updatedAt := Some(now))])
      else if lic.deviceUuid == device then
        (Ok(Activation(code, lic.expiresAt, device, false)), licenses)
      else (Err(Failure(403, "DEVICE_MISMATCH")), licenses)
  }

  /** `activateLicenseHandler`: request checks, then the transaction. */
  function Activate(db: Db, now: Time, rawCode: string, rawDevice: string): (r: (Result<Activation, Failure>, Db))
    ensures CheckRequest(rawCode, rawDevice).Err? ==> r == (Err(CheckRequest(rawCode, rawDevice).error), db)
    ensures r.1 == db.(licenses := r.1.licenses)
    ensures r.0.Ok? ==> IsValidCodeFormat(rawCode) && r.0.value.code == NormalizeCode(rawCode)
  {
    match CheckRequest(rawCode, rawDevice)
    case Err(f) => (Err(f), db)
    case Ok((code, device)) =>
      var (res, licenses') := ActivateTx(db.licenses, now, code, device);
      (res, db.(licenses := licenses'))
  }

  /** Activating again on the same device succeeds, reports that it is not the
      first activation, and writes nothing. */
  lemma ActivateAgainIsIdempotent(db: Db, now: Time, later: Time, rawCode: string, rawDevice: string)
    requires Activate(db, now, rawCode, rawDevice).0.Ok?
    requires !IsExpired(db.licenses[NormalizeCode(rawCode)].expiresAt, later)
    ensures var db1 := Activate(db, now, rawCode, rawDevice).1;
      && Activate(db1, later, rawCode, rawDevice).0.Ok?
      && !Activate(db1, later, rawCode, rawDevice).0.value.firstActivation
      && Activate(db1, later, rawCode, rawDevice).1 == db1
  {
  }

  /** Once a device is bound, a different device is refused with
      DEVICE_MISMATCH and the binding is kept. */
  lemma ActivateOtherDeviceRejected(db: Db, now: Time, later: Time, rawCode: string, d1: string, d2: string)
    requires Activate(db, now, rawCode, d1).0.Ok?
    requires Trim(d2) != [] && Trim(d2) != Trim(d1)
    requires !IsExpired(db.licenses[NormalizeCode(rawCode)].expiresAt, later)
    ensures var db1 := Activate(db, now, rawCode, d1).1;
      && Activate(db1, later, rawCode, d2) == (Err(Failure(403, "DEVICE_MISMATCH")), db1)
      && db1.licenses[NormalizeCode(rawCode)].deviceUuid == Trim(d1)
  {
  }
}

=== FILE: license_admin_change_device.dfy ===
/*******************************************************************************
 *  Admin device change (license-admin-change-device.js): one rebinding per
 *  license every 365 days, gated on the `x-admin-token` header. Every failure
 *  is an exception mapped to a reply, and none of them writes.
 *******************************************************************************/

module LicenseAdminChangeDevice {
  import opened Common
  import opened Text
  import opened LicenseCode
  import opened Store

  /** The cooling-off period between two changes: 365 days in milliseconds. */
  const ONE_YEAR_MS: int := 365 * 24 * 60 * 60 * 1000

  /** `requireAdmin`: the header must be present and equal the configured
      token; an unset token therefore admits nobody. */
  predicate IsAdmin(expected: string, provided: string)
    // With no admin token configured, nobody is an admin.
    ensures expected == [] ==> !IsAdmin(expected, provided)
    ensures IsAdmin(expected, provided) ==> provided == expected
    // A configured token admits whoever presents it.
    ensures expected != [] && provided == expected ==> IsAdmin(expected, provided)
  {
    provided != [] && provided == expected
  }

  /** The code as this endpoint reads it: trimmed and upper-cased, with no
      removal of inner white space and no format check. */
  function AdminCode(rawCode: string): (r: string)
    ensures |r| <= |rawCode|
    ensures forall i :: 0 <= i < |r| ==> !IsLowerAscii(r[i])
  {
    ToUpper(Trim(rawCode))
  }

  /** The store-side checks of the transaction, in order; `None` when the
      change may go ahead. */
  function Refusal(lic: License, now: Time): (r: Option<string>)
    ensures r.None? <==>
      && lic.status == "active"
      && !IsExpired(lic.expiresAt, now)
      && !(lic.deviceChangeUsed && lic.deviceChangedAt.None?)
      && (lic.deviceChangedAt.None? || now - lic.deviceChangedAt.value >= ONE_YEAR_MS)
    ensures lic.status != "active" ==> r == Some("NOT_ACTIVE")
    ensures lic.status == "active" && IsExpired(lic.expiresAt, now) ==> r == Some("EXPIRED")
    ensures lic.status == "active" && !IsExpired(lic.expiresAt, now) && lic.deviceChangeUsed && lic.deviceChangedAt.None? ==>
      r == Some("DEVICE_CHANGE_ALREADY_USED")
    ensures (lic.status == "active" && !IsExpired(lic.expiresAt, now)
             && lic.deviceChangedAt.Some? && now - lic.deviceChangedAt.value < ONE_YEAR_MS) ==>
      r == Some("DEVICE_CHANGE_TOO_SOON")
  {
    if lic.status != "active" then Some("NOT_ACTIVE")
    else if IsExpired(lic.expiresAt, now) then Some("EXPIRED")
    else if lic.deviceChangeUsed && lic.deviceChangedAt.None? then Some("DEVICE_CHANGE_ALREADY_USED")
    else if lic.deviceChangedAt.Some? && now - lic.deviceChangedAt.value < ONE_YEAR_MS then Some("DEVICE_CHANGE_TOO_SOON")
    else None
  }

  /** `adminChangeDeviceHandler`. The thrown errors carry no status of their
      own except the admin check's, so they all become 403. */
  function AdminChangeDevice(db: Db, now: Time, adminToken: string, providedToken: string,
                             rawCode: string, rawNewDevice: string): (r: (Result<(), Failure>, Db))
    ensures !IsAdmin(adminToken, providedToken) ==> r == (Err(Failure(401, "Unauthorized")), db)
    ensures IsAdmin(adminToken, providedToken) && (AdminCode(rawCode) == [] || Trim(rawNewDevice) == []) ==>
      r == (Err(Failure(400, "MISSING_FIELDS")), db)
    ensures IsAdmin(adminToken, providedToken) && AdminCode(rawCode) != [] && Trim(rawNewDevice) != []
            && AdminCode(rawCode) !in db.licenses ==>
      r == (Err(Failure(403, "NOT_FOUND")), db)
    // No failure writes anything.
    ensures r.0.Err? ==> r.1 == db
    // The change goes through exactly when every check passes.
    ensures r.0.Ok? <==>
      && IsAdmin(adminToken, providedToken)
      && AdminCode(rawCode) != [] && Trim(rawNewDevice) != []
      && AdminCode(rawCode) in db.licenses
      && Refusal(db.licenses[AdminCode(rawCode)], now).None?
    // It rebinds the device, spends the change and stamps it, and touches
    // nothing else.
    ensures r.0.Ok? ==>
      var code := AdminCode(rawCode);
      r.1 == db.(licenses := db.licenses[code := db.licenses[code].(
        deviceUuid := Trim(rawNewDevice),
        deviceChangeUsed := true,
        deviceChangedAt := Some(now),
        updatedAt := Some(now))])
  {
    if !IsAdmin(adminToken, providedToken) then (Err(Failure(401, "Unauthorized")), db)
    else
      var code := AdminCode(rawCode);
      var newDevice := Trim(rawNewDevice);
      if code == [] || newDevice == [] then (Err(Failure(400, "MISSING_FIELDS")), db)
      else if code !in db.licenses then (Err(Failure(403, "NOT_FOUND")), db)
      else
        var lic := db.licenses[code];
        match Refusal(lic, now)
        case Some(reason) => (Err(Failure(403, reason)), db)
        case None =>
          var changed := lic.(deviceUuid := newDevice, deviceChangeUsed := true,
                              deviceChangedAt := Some(now), updatedAt := Some(now));
          (Ok(()), db.(licenses := db.licenses[code := changed]))
  }

  /** For a code with no white space inside, this endpoint's reading agrees
      with `normalizeCode`; it differs only on inner white space. */
  lemma AdminCodeAgreesWithNormalizeCode(rawCode: string)
    requires NoSpace(Trim(rawCode))
    ensures AdminCode(rawCode) == NormalizeCode(rawCode)
  {
    ToUpperKeepsSpaces(Trim(rawCode));
    RemoveSpacesOfNoSpace(ToUpper(Trim(rawCode)));
  }

  /** Within a year of a change, a second one is refused as too soon (unless
      the license has meanwhile stopped being active and live), and nothing
      is written. */
  lemma ChangeWithinAYearRefused(db: Db, now: Time, later: Time, adminToken: string, providedToken: string,
                                 rawCode: string, d1: string, d2: string)
    requires AdminChangeDevice(db, now, adminToken, providedToken, rawCode, d1).0.Ok?
    requires Trim(d2) != []
    requires now <= later < now + ONE_YEAR_MS
    ensures var db1 := AdminChangeDevice(db, now, adminToken, providedToken, rawCode, d1).1;
      var second := AdminChangeDevice(db1, later, adminToken, providedToken, rawCode, d2);
      && second.0.Err? && second.1 == db1
      && (!IsExpired(db1.licenses[AdminCode(rawCode)].expiresAt, later) ==>
            second.0 == Err(Failure(403, "DEVICE_CHANGE_TOO_SOON")))
  {
  }

  /** A year after a change, the next one is allowed again, provided the
      license is still live. */
  lemma ChangeAfterAYearAllowed(db: Db, now: Time, later: Time, adminToken: string, providedToken: string,
                                rawCode: string, d1: string, d2: string)
    requires AdminChangeDevice(db, now, adminToken, providedToken, rawCode, d1).0.Ok?
    requires Trim(d2) != []
    requires later >= now + ONE_YEAR_MS
    requires !IsExpired(db.licenses[AdminCode(rawCode)].expiresAt, later)
    ensures var db1 := AdminChangeDevice(db, now, adminToken, providedToken, rawCode, d1).1;
      AdminChangeDevice(db1, later, adminToken, providedToken, rawCode, d2).0.Ok?
  {
  }
}

=== FILE: license_code.dfy ===
/*******************************************************************************
 *  License codes: the 31-symbol alphabet, normalisation of typed codes, the
 *  `XXXX-XXXX-XXXX` format check and generation by rejection sampling over a
 *  stream of random bytes (license-code.js).
 *******************************************************************************/

module LicenseCode {
  import opened Text

  newtype byte = x: int | 0 <= x < 256

  /** Upper-case letters and digits without the look-alikes 0, 1, O, I and L. */
  const ALPHABET: string := "ABCDEFGHJKMNPQRSTUVWXYZ23456789"

  /** Symbols per group, groups per code, and the formatted code length. */
  const GROUP_LENGTH: nat := 4
  const RAW_LENGTH: nat := 12
  const CODE_LENGTH: nat := 14

  /** Bytes at or above this bound are skipped: the largest multiple of the
      alphabet size not exceeding 256, so each symbol has equally many bytes. */
  const REJECT_BOUND: int := (256 / |ALPHABET|) * |ALPHABET|

  /** The character classes of the two code regular expressions of the backend. */
  datatype CharClass =
    | CodeClass    // [A-Z2-9]
    | AlnumClass   // [A-Z0-9]

  predicate InClass(c: char, cls: CharClass) {
    match cls
    case CodeClass => IsUpperAscii(c) || ('2' <= c <= '9')
    case AlnumClass => IsUpperAscii(c) || IsDigit(c)
  }

  /** `[X]{4}` for the class X. */
  predicate IsGroup(s: string, cls: CharClass) {
    |s| == GROUP_LENGTH && forall i :: 0 <= i < |s| ==> InClass(s[i], cls)
  }

  /** `(-[X]{4}){n}`: exactly `n` dash-prefixed groups. */
  predicate DashGroups(s: string, cls: CharClass, n: nat)
    decreases n
  {
    if n == 0 then s == []
    else |s| >= 5 && s[0] == '-' && IsGroup(s[1..5], cls) && DashGroups(s[5..], cls, n - 1)
  }

  /** CODE_RE, `^[A-Z2-9]{4}-[A-Z2-9]{4}-[A-Z2-9]{4}$`: a group followed by two
      dash-prefixed groups. */
  predicate MatchesCodeRe(s: string) {
    |s| >= GROUP_LENGTH && IsGroup(s[..GROUP_LENGTH], CodeClass)
    && DashGroups(s[GROUP_LENGTH..], CodeClass, 2)
  }

  /** The same format stated position by position: 14 characters, dashes at
      positions 4 and 9, and `[A-Z2-9]` everywhere else. */
  predicate HasCodeShape(s: string) {
    && |s| == CODE_LENGTH && s[4] == '-' && s[9] == '-'
    && forall i :: 0 <= i < |s| && i != 4 && i != 9 ==> InClass(s[i], CodeClass)
  }

  /** `normalizeCode`: trim, upper-case, then drop every white-space character. */
  function NormalizeCode(code: string): (r: string)
    ensures NoSpace(r)
    ensures forall i :: 0 <= i < |r| ==> !IsLowerAscii(r[i])
    ensures |r| <= |code|
    // A code typed without white space is only upper-cased.
    ensures NoSpace(code) ==> r == ToUpper(code)
  {
    var upper := ToUpper(Trim(code));
    assert forall c :: c in upper ==> !IsLowerAscii(c);
    assert NoSpace(code) ==> RemoveSpaces(upper) == ToUpper(code) by {
      if NoSpace(code) {
        TrimOfNoSpace(code);
        ToUpperKeepsSpaces(code);
        RemoveSpacesOfNoSpace(ToUpper(code));
      }
    }
    RemoveSpaces(upper)
  }

  /** `isValidCodeFormat`: CODE_RE tested on the normalised code. */
  predicate IsValidCodeFormat(code: string)
    // Valid exactly when the normalised code has the position-wise shape.
    ensures IsValidCodeFormat(code) <==> HasCodeShape(NormalizeCode(code))
  {
    MatchesCodeReIffShape(NormalizeCode(code));
    MatchesCodeRe(NormalizeCode(code))
  }

  /** Normalising twice is normalising once. */
  lemma NormalizeCodeIdempotent(code: string)
    ensures NormalizeCode(NormalizeCode(code)) == NormalizeCode(code)
  {
    var n := NormalizeCode(code);
    TrimOfNoSpace(n);
    ToUpperOfUpper(n);
    RemoveSpacesOfNoSpace(n);
  }

  /** A string made of `n` dash-prefixed groups, described by position. */
  lemma {:induction false} DashGroupsPositions(s: string, cls: CharClass, n: nat)
    ensures DashGroups(s, cls, n) <==>
      (|s| == 5 * n && forall k :: 0 <= k < |s| ==> (if k % 5 == 0 then s[k] == '-' else InClass(s[k], cls)))
    decreases n
  {
    if n > 0 && |s| >= 5 {
      var t := s[5..];
      DashGroupsPositions(t, cls, n - 1);
      assert forall k :: 5 <= k < |s| ==> s[k] == t[k - 5] && (k - 5) % 5 == k % 5;
      if DashGroups(s, cls, n) {
        assert forall k :: 1 <= k < 5 ==> s[k] == s[1..5][k - 1];
      }
      if |s| == 5 * n && forall k :: 0 <= k < |s| ==> (if k % 5 == 0 then s[k] == '-' else InClass(s[k], cls)) {
        assert forall k :: 0 <= k < |t| ==> t[k] == s[k + 5] && (k + 5) % 5 == k % 5;
        assert IsGroup(s[1..5], cls);
      }
    }
  }

  /** CODE_RE accepts exactly the strings of the position-wise shape. */
  lemma MatchesCodeReIffShape(s: string)
    ensures MatchesCodeRe(s) <==> HasCodeShape(s)
  {
    if |s| >= GROUP_LENGTH {
      var t := s[GROUP_LENGTH..];
      DashGroupsPositions(t, CodeClass, 2);
      assert forall k :: 4 <= k < |s| ==> s[k] == t[k - 4];
      if HasCodeShape(s) {
        assert forall k :: 0 <= k < |t| ==> (k % 5 == 0 <==> k == 0 || k == 5);
      }
      if MatchesCodeRe(s) {
        assert forall k :: 0 <= k < |t| ==> (k % 5 == 0 <==> k == 0 || k == 5);
        assert forall k :: 0 <= k < 4 ==> s[k] == s[..GROUP_LENGTH][k];
      }
    }
  }

  /** No symbol occurs twice. */
  predicate NoDuplicates(s: string) {
    forall i, j :: 0 <= i < j < |s| ==> s[i] != s[j]
  }

  /** The alphabet: 31 distinct symbols, all admitted by CODE_RE, none of them
      a look-alike character. */
  lemma AlphabetFacts()
    ensures |ALPHABET| == 31
    ensures NoDuplicates(ALPHABET)
    ensures '0' !in ALPHABET && '1' !in ALPHABET && 'O' !in ALPHABET && 'I' !in ALPHABET && 'L' !in ALPHABET
    ensures forall c :: c in ALPHABET ==> InClass(c, CodeClass)
    ensures REJECT_BOUND == 248
  {
    AlphabetHasNoDuplicates();
    AlphabetAvoidsLookAlikes();
    AlphabetInCodeClass();
  }

  lemma AlphabetAvoidsLookAlikes()
    ensures '0' !in ALPHABET && '1' !in ALPHABET && 'O' !in ALPHABET && 'I' !in ALPHABET && 'L' !in ALPHABET
  {
    assert forall i :: 0 <= i < |ALPHABET| ==> ALPHABET[i] !in "01OIL";
  }

  lemma AlphabetInCodeClass()
    ensures forall c :: c in ALPHABET ==> InClass(c, CodeClass)
  {
  }

  lemma AlphabetHasNoDuplicates()
    ensures NoDuplicates(ALPHABET)
  {
    AlphabetSegments();
    IncreasingOn(ALPHABET, 0, 23);
    IncreasingOn(ALPHABET, 23, 31);
  }

  /** The alphabet is increasing on its letters and on its digits, and the
      letters come first. */
  lemma AlphabetSegments()
    ensures |ALPHABET| == 31
    ensures forall i :: 0 <= i < 22 ==> ALPHABET[i] < ALPHABET[i + 1]
    ensures forall i :: 23 <= i < 30 ==> ALPHABET[i] < ALPHABET[i + 1]
    ensures forall i :: 0 <= i < 31 ==> (i < 23 <==> IsUpperAscii(ALPHABET[i]))
  {
  }

  /** Neighbours increasing on `[lo, hi)` makes the whole slice strictly increasing. */
  lemma IncreasingOn(s: string, lo: nat, hi: nat)
    requires lo <= hi <= |s|
    requires forall i :: lo <= i < hi - 1 ==> s[i] < s[i + 1]
    ensures forall i, j :: lo <= i < j < hi ==> s[i] < s[j]
  {
    forall i, j | lo <= i < j < hi
      ensures s[i] < s[j]
    {
      var k := i;
      while k < j
        invariant i <= k <= j
        invariant s[i] <= s[k]
        invariant k > i ==> s[i] < s[k]
      {
        k := k + 1;
      }
    }
  }

  /** The bytes rejection sampling keeps, in order. */
  function Accepted(bytes: seq<byte>): (r: seq<byte>)
    ensures |r| <= |bytes|
    ensures forall i :: 0 <= i < |r| ==> r[i] as int < REJECT_BOUND
  {
    if |bytes| == 0 then []
    else (if bytes[0] as int < REJECT_BOUND then [bytes[0]] else []) + Accepted(bytes[1..])
  }

  /** The symbol an accepted byte stands for. */
  function Symbol(v: byte): char
    requires v as int < REJECT_BOUND
  {
    ALPHABET[v as int % |ALPHABET|]
  }

  function Symbols(vs: seq<byte>): (r: string)
    requires forall i :: 0 <= i < |vs| ==> vs[i] as int < REJECT_BOUND
    ensures |r| == |vs|
  {
    seq(|vs|, i requires 0 <= i < |vs| => Symbol(vs[i]))
  }

  /** `randomFromAlphabet(len)` reading the bytes the random source delivers:
      bytes at or above REJECT_BOUND are skipped, an accepted byte `v` yields
      the symbol `ALPHABET[v % 31]`. The source draws until it has `len`
      symbols; `bytes` is that draw and holds at least `len` acceptable bytes. */
  function RandomFromAlphabet(len: nat, bytes: seq<byte>): (out: string)
    requires len <= |Accepted(bytes)|
    ensures |out| == len
    ensures forall i :: 0 <= i < |out| ==> out[i] in ALPHABET
    decreases |bytes|
  {
    if len == 0 then []
    else if bytes[0] as int >= REJECT_BOUND then RandomFromAlphabet(len, bytes[1..])
    else [Symbol(bytes[0])] + RandomFromAlphabet(len - 1, bytes[1..])
  }

  /** The symbols of an accepted byte followed by more accepted bytes. */
  lemma SymbolsCons(v: byte, vs: seq<byte>)
    requires v as int < REJECT_BOUND
    requires forall i :: 0 <= i < |vs| ==> vs[i] as int < REJECT_BOUND
    ensures Symbols([v] + vs) == [Symbol(v)] + Symbols(vs)
  {
    assert forall i :: 0 <= i < |vs| ==> ([v] + vs)[i + 1] == vs[i];
  }

  /** The first `len` accepted bytes, by the first byte read. */
  lemma AcceptedPrefix(len: nat, bytes: seq<byte>)
    requires 0 < len <= |Accepted(bytes)|
    ensures bytes[0] as int >= REJECT_BOUND ==> Accepted(bytes)[..len] == Accepted(bytes[1..])[..len]
    ensures bytes[0] as int < REJECT_BOUND ==> Accepted(bytes)[..len] == [bytes[0]] + Accepted(bytes[1..])[..len - 1]
  {
    if bytes[0] as int < REJECT_BOUND {
      assert Accepted(bytes) == [bytes[0]] + Accepted(bytes[1..]);
    }
  }

  /** Rejection sampling returns the symbols of the first `len` accepted bytes. */
  lemma {:induction false} RandomFromAlphabetIsFirstAccepted(len: nat, bytes: seq<byte>)
    requires len <= |Accepted(bytes)|
    ensures RandomFromAlphabet(len, bytes) == Symbols(Accepted(bytes)[..len])
    decreases |bytes|
  {
    if len > 0 {
      var rest := bytes[1..];
      AcceptedPrefix(len, bytes);
      if bytes[0] as int >= REJECT_BOUND {
        RandomFromAlphabetIsFirstAccepted(len, rest);
      } else {
        RandomFromAlphabetIsFirstAccepted(len - 1, rest);
        SymbolsCons(bytes[0], Accepted(rest)[..len - 1]);
      }
    }
  }

  /** `generateLicenseCode`: twelve sampled symbols grouped `4-4-4`. */
  function GenerateLicenseCode(bytes: seq<byte>): (code: string)
    requires RAW_LENGTH <= |Accepted(bytes)|
    ensures HasCodeShape(code)
    ensures forall i :: 0 <= i < |code| && i != 4 && i != 9 ==> code[i] in ALPHABET
  {
    AlphabetFacts();
    var raw := RandomFromAlphabet(RAW_LENGTH, bytes);
    raw[0..4] + "-" + raw[4..8] + "-" + raw[8..12]
  }

  /** A code of the right shape is its own normal form, and passes the
      format check. */
  lemma ShapedCodeIsNormal(code: string)
    requires HasCodeShape(code)
    ensures NormalizeCode(code) == code
    ensures IsValidCodeFormat(code)
  {
    TrimOfNoSpace(code);
    ToUpperOfUpper(code);
    RemoveSpacesOfNoSpace(code);
    MatchesCodeReIffShape(code);
  }

  /** Every generated code passes the format check and is already normalised. */
  lemma GeneratedCodeIsValid(bytes: seq<byte>)
    requires RAW_LENGTH <= |Accepted(bytes)|
    ensures NormalizeCode(GenerateLicenseCode(bytes)) == GenerateLicenseCode(bytes)
    ensures IsValidCodeFormat(GenerateLicenseCode(bytes))
  {
    ShapedCodeIsNormal(GenerateLicenseCode(bytes));
  }

  /** The converse fails: CODE_RE also admits I, L and O, which the generator
      never emits, so some valid codes are never generated. */
  lemma ValidCodeNotAlwaysGenerated()
    ensures IsValidCodeFormat("IIII-LLLL-OOOO")
    ensures forall bytes :: RAW_LENGTH <= |Accepted(bytes)| ==> GenerateLicenseCode(bytes) != "IIII-LLLL-OOOO"
  {
    var s := "IIII-LLLL-OOOO";
    assert HasCodeShape(s);
    ShapedCodeIsNormal(s);
    AlphabetFacts();
    forall bytes | RAW_LENGTH <= |Accepted(bytes)|
      ensures GenerateLicenseCode(bytes) != s
    {
      assert GenerateLicenseCode(bytes)[0] in ALPHABET;
    }
  }
}

=== FILE: license_issue.dfy ===
/*******************************************************************************
 *  License issuance (license-issue.js): drawing a code no stored license
 *  uses, and creating the license document for a paid Stripe Checkout
 *  session.
 *
 *  The random source is an input: `draws[k]` is the byte stream the k-th
 *  attempt reads, long enough to yield a full code.
 *******************************************************************************/

module LicenseIssue {
  import opened Common
  import opened Text
  import opened LicenseCode
  import opened Store

  /** The attempts `generateUniqueLicenseCode` makes when the caller gives no
      finite `maxAttempts`. */
  const DEFAULT_MAX_ATTEMPTS: nat := 20

  /** The exceptions of this file, each with the message it carries. */
  datatype IssueError =
    | NoDatabase
    | Exhausted(attempts: int)
    | MissingEmail
    | MissingSessionId
    | MissingAmount
    | MissingCurrency
    | Collision
  {
    function Message(): string {
      match this
      case NoDatabase => "Firestore db requerido"
      case Exhausted(n) => "No se pudo generar un c\U{F3}digo \U{FA}nico tras " + IntToString(n) + " intentos"
      case MissingEmail => "email requerido"
      case MissingSessionId => "stripeSessionId requerido"
      case MissingAmount => "amountTotal requerido"
      case MissingCurrency => "currency requerida"
      case Collision => "Colisi\U{F3}n inesperada: el c\U{F3}digo ya existe"
    }
  }

  /** Every attempt's byte stream holds enough acceptable bytes for a code. */
  predicate EnoughEntropy(draws: seq<seq<byte>>) {
    forall k :: 0 <= k < |draws| ==> RAW_LENGTH <= |Accepted(draws[k])|
  }

  /** The code attempt `k` draws. */
  function Candidate(draws: seq<seq<byte>>, k: nat): (code: string)
    requires EnoughEntropy(draws) && k < |draws|
    ensures HasCodeShape(code)
  {
    GenerateLicenseCode(draws[k])
  }

  /** How many attempts the loop `for (attempt = 1; attempt <= maxAttempts; …)`
      makes: the given finite count (none when it is not positive), or 20. */
  function AttemptCount(maxAttempts: Option<int>): (n: nat)
    ensures maxAttempts.None? ==> n == DEFAULT_MAX_ATTEMPTS
    ensures maxAttempts.Some? ==> n == if maxAttempts.value < 0 then 0 else maxAttempts.value
  {
    match maxAttempts
    case None => DEFAULT_MAX_ATTEMPTS
    case Some(m) => if m < 0 then 0 else m
  }

  /** The first attempt in `[from, limit)` whose code is not in use. */
  function FirstFresh(licenses: map<string, License>, draws: seq<seq<byte>>, from: nat, limit: nat): (r: Option<nat>)
    requires EnoughEntropy(draws) && from <= limit <= |draws|
    ensures r.Some? ==>
      && from <= r.value < limit
      && Candidate(draws, r.value) !in licenses
      && forall j :: from <= j < r.value ==> Candidate(draws, j) in licenses
    ensures r.None? ==> forall j :: from <= j < limit ==> Candidate(draws, j) in licenses
    decreases limit - from
  {
    if from == limit then None
    else if Candidate(draws, from) !in licenses then Some(from)
    else FirstFresh(licenses, draws, from + 1, limit)
  }

  /** `generateUniqueLicenseCode`: the code of the first attempt that is not
      a stored license's key; when every attempt collides, an exception naming
      the attempt count. */
  function GenerateUniqueLicenseCode(db: Option<map<string, License>>, maxAttempts: Option<int>, draws: seq<seq<byte>>)
    : (r: Result<string, IssueError>)
    requires EnoughEntropy(draws) && AttemptCount(maxAttempts) <= |draws|
    ensures db.None? ==> r == Err(NoDatabase)
    ensures r.Ok? ==>
      && db.Some? && r.value !in db.value && HasCodeShape(r.value)
      && exists k :: 0 <= k < AttemptCount(maxAttempts) && r.value == Candidate(draws, k)
    // Exhaustion happens exactly when every attempt hit a stored code.
    ensures db.Some? ==>
      (r.Err? <==> forall j :: 0 <= j < AttemptCount(maxAttempts) ==> Candidate(draws, j) in db.value)
    ensures db.Some? && r.Err? ==> r.error == Exhausted(maxAttempts.GetOr(DEFAULT_MAX_ATTEMPTS))
  {
    match db
    case None => Err(NoDatabase)
    case Some(licenses) =>
      match FirstFresh(licenses, draws, 0, AttemptCount(maxAttempts))
      case Some(k) => Ok(Candidate(draws, k))
      case None => Err(Exhausted(maxAttempts.GetOr(DEFAULT_MAX_ATTEMPTS)))
  }

  /** The fields `createLicenseFromStripe` reads from its input. A field the
      caller leaves out is the empty string; `amountTotal` is `None` when it
      is not a finite number, `paidAt` when it is not given. */
  datatype StripeInput = StripeInput(
    email: string,
    stripeSessionId: string,
    paymentIntentId: string,
    amountTotal: Option<int>,
    currency: string,
    paidAt: Option<Time>)

  /** What the caller gets back. */
  datatype Issued = Issued(code: string, expiresAt: Time)

  /** A license as issuance creates it: active, paid, expiring after its
      payment, bound to no device, with its device change and its recovery
      both unused. */
  predicate IsNewLicense(lic: License, code: string) {
    && lic.code == code
    && lic.status == "active"
    && lic.paidAt.Some? && lic.expiresAt.Some? && lic.expiresAt.value > lic.paidAt.value
    && lic.deviceUuid == [] && lic.activatedUuid == [] && lic.activatedAt.None?
    && !lic.deviceChangeUsed && lic.deviceChangedAt.None?
    && !lic.recoveryUsed && lic.recoveryUsedAt.None?
  }

  /** The document `createLicenseFromStripe` writes. */
  function StripeLicense(code: string, now: Time, input: StripeInput): (lic: License)
    requires input.amountTotal.Some?
    ensures IsNewLicense(lic, code)
    ensures lic.email == ToLower(Trim(input.email)) && lic.source == "stripe"
    ensures lic.paidAt == Some(input.paidAt.GetOr(now))
    ensures lic.stripe.Some? && lic.stripe.value.sessionId == input.stripeSessionId
  {
    var paidAt := input.paidAt.GetOr(now);
    License(
      code := code,
      email := ToLower(Trim(input.email)),
      status := "active",
      createdAt := Some(now),
      paidAt := Some(paidAt),
      expiresAt := Some(AddOneYear(paidAt)),
      deviceUuid := "",
      activatedUuid := "",
      activatedAt := None,
      deviceChangeUsed := false,
      deviceChangedAt := None,
      deviceChangeReason := "",
      previousDeviceUuid := "",
      recoveryUsed := false,
      recoveryUsedAt := None,
      source := "stripe",
      stripe := Some(StripeRef(input.stripeSessionId, input.paymentIntentId, input.amountTotal.value, input.currency)),
      manual := None,
      webhookProcessedAt := Some(now),
      updatedAt := Some(now))
  }

  /** The creating transaction: refuses when the key is taken, and otherwise
      adds the document under it. */
  function CreateLicenseTx(licenses: map<string, License>, code: string, lic: License)
    : (r: (Result<(), IssueError>, map<string, License>))
    ensures r.0.Err? <==> code in licenses
    ensures r.0.Err? ==> r == (Err(Collision), licenses)
    ensures r.0.Ok? ==> r.1.Keys == licenses.Keys + {code} && r.1[code] == lic
    ensures OnlyKeyChanged(licenses, r.1, code)
  {
    if code in licenses then (Err(Collision), licenses)
    else (Ok(()), licenses[code := lic])
  }

  /** `createLicenseFromStripe`: the input checks, in order, then a fresh code
      and the creating transaction. */
  function CreateLicenseFromStripe(db: Db, now: Time, input: StripeInput, draws: seq<seq<byte>>)
    : (r: (Result<Issued, IssueError>, Db))
    requires EnoughEntropy(draws) && DEFAULT_MAX_ATTEMPTS <= |draws|
    ensures input.email == [] ==> r == (Err(MissingEmail), db)
    ensures input.email != [] && input.stripeSessionId == [] ==> r == (Err(MissingSessionId), db)
    ensures input.email != [] && input.stripeSessionId != [] && input.amountTotal.None? ==> r == (Err(MissingAmount), db)
    ensures input.email != [] && input.stripeSessionId != [] && input.amountTotal.Some? && input.currency == [] ==>
      r == (Err(MissingCurrency), db)
    // Every failure leaves the store as it was, and in this sequential model
    // the creating transaction never meets a collision.
    ensures r.0.Err? ==> r.1 == db && r.0.error != Collision
    ensures r.0.Ok? <==>
      && input.email != [] && input.stripeSessionId != [] && input.amountTotal.Some? && input.currency != []
      && exists k :: 0 <= k < DEFAULT_MAX_ATTEMPTS && Candidate(draws, k) !in db.licenses
    // Success adds one new license under a fresh, well-formed code and
    // writes nothing else.
    ensures r.0.Ok? ==>
      var code := r.0.value.code;
      && code !in db.licenses && HasCodeShape(code)
      && r.1 == db.(licenses := db.licenses[code := StripeLicense(code, now, input)])
      && IsNewLicense(r.1.licenses[code], code)
      && r.0.value.expiresAt == r.1.licenses[code].expiresAt.value
  {
    if input.email == [] then (Err(MissingEmail), db)
    else if input.stripeSessionId == [] then (Err(MissingSessionId), db)
    else if input.amountTotal.None? then (Err(MissingAmount), db)
    else if input.currency == [] then (Err(MissingCurrency), db)
    else
      match GenerateUniqueLicenseCode(Some(db.licenses), None, draws)
      case Err(e) => (Err(e), db)
      case Ok(code) =>
        var lic := StripeLicense(code, now, input);
        var (created, licenses') := CreateLicenseTx(db.licenses, code, lic);
        if created.Err? then (Err(Collision), db)
        else (Ok(Issued(code, lic.expiresAt.value)), db.(licenses := licenses'))
  }
}

=== FILE: license_recover.dfy ===
/*******************************************************************************
 *  License recovery by e-mail, `POST /api/licencia/recuperar`
 *  (license-recover.js): the code of the customer's most recent live license
 *  is mailed to them, once per license.
 *
 *  The Firestore query `licenses where email == … limit 20` is an input: the
 *  document ids it returned, in the order it returned them. Whether the mail
 *  transport accepted the message is an input too.
 *******************************************************************************/

module LicenseRecover {
  import opened Common
  import opened Text
  import opened Store

  const QUERY_LIMIT: nat := 20

  /** `ids` is a possible answer of the query: at most 20 distinct licenses
      registered to `email`, and all of them when fewer than 20 came back. */
  predicate IsQueryResult(licenses: map<string, License>, email: string, ids: seq<string>) {
    && |ids| <= QUERY_LIMIT
    && (forall i, j :: 0 <= i < j < |ids| ==> ids[i] != ids[j])
    && RegisteredTo(licenses, email, ids)
    && (|ids| < QUERY_LIMIT ==> forall id :: id in licenses && licenses[id].email == email ==> id in ids)
  }

  /** A license recovery may hand out: active in any letter case, and live. */
  predicate IsRecoverable(lic: License, now: Time) {
    ToLower(lic.status) == "active" && !IsExpired(lic.expiresAt, now)
  }

  /** What the handler relies on in an answer of the query: every document
      it names is stored and registered to `email`. */
  predicate RegisteredTo(licenses: map<string, License>, email: string, ids: seq<string>) {
    forall i :: 0 <= i < |ids| ==> ids[i] in licenses && licenses[ids[i]].email == email
  }

  /** The filter of the query results, keeping their order. */
  function Candidates(licenses: map<string, License>, ids: seq<string>, now: Time): (r: seq<string>)
    requires forall i :: 0 <= i < |ids| ==> ids[i] in licenses
    ensures |r| <= |ids|
    ensures forall i :: 0 <= i < |r| ==> r[i] in ids && r[i] in licenses && IsRecoverable(licenses[r[i]], now)
    ensures forall i :: 0 <= i < |ids| && IsRecoverable(licenses[ids[i]], now) ==> ids[i] in r
  {
    if |ids| == 0 then []
    else
      var rest := Candidates(licenses, ids[1..], now);
      assert forall i :: 1 <= i < |ids| ==> ids[i] == ids[1..][i - 1];
      if IsRecoverable(licenses[ids[0]], now) then [ids[0]] + rest else rest
  }

  /** The instant the sort orders by: `paidAt`, else `createdAt`, else the epoch. */
  function RecencyKey(lic: License): Time {
    lic.paidAt.GetOr(lic.createdAt.GetOr(0))
  }

  /** The head of the candidates after the stable sort by descending recency:
      the first candidate whose key is the largest. */
  function MostRecent(licenses: map<string, License>, cands: seq<string>): (k: nat)
    requires |cands| > 0 && forall i :: 0 <= i < |cands| ==> cands[i] in licenses
    ensures k < |cands|
    ensures forall i :: 0 <= i < |cands| ==> RecencyKey(licenses[cands[i]]) <= RecencyKey(licenses[cands[k]])
    ensures forall i :: 0 <= i < k ==> RecencyKey(licenses[cands[i]]) < RecencyKey(licenses[cands[k]])
  {
    if |cands| == 1 then 0
    else
      var k := MostRecent(licenses, cands[1..]);
      if RecencyKey(licenses[cands[0]]) >= RecencyKey(licenses[cands[1 + k]]) then 0 else 1 + k
  }

  /** The message handed to the mail transport. */
  datatype RecoveryMail = RecoveryMail(to: string, code: string, expiresAt: Option<Time>)

  /** The recovery transaction on the chosen license: the re-read checks
      (each an exception the handler turns into a 500, except
      RECOVERY_ALREADY_USED, which stays a 403), then the flag. */
  function RecoverTx(licenses: map<string, License>, now: Time, id: string): (r: (Result<(), Failure>, map<string, License>))
    ensures r.0.Ok? <==> id in licenses && IsRecoverable(licenses[id], now) && !licenses[id].recoveryUsed
    ensures r.0.Err? ==> r.1 == licenses
    ensures r.0.Err? && id in licenses && IsRecoverable(licenses[id], now) ==> r.0.error == Failure(403, "RECOVERY_ALREADY_USED")
    ensures !(id in licenses && IsRecoverable(licenses[id], now)) ==> r.0 == Err(Failure(500, "SERVER_ERROR"))
    ensures r.0.Ok? ==> r.1 == licenses[id := licenses[id].(recoveryUsed := true, recoveryUsedAt := Some(now), updatedAt := Some(now))]
  {
    if id !in licenses then (Err(Failure(500, "SERVER_ERROR")), licenses)
    else
      var lic := licenses[id];
      if ToLower(lic.status) != "active" then (Err(Failure(500, "SERVER_ERROR")), licenses)
      else if IsExpired(lic.expiresAt, now) then (Err(Failure(500, "SERVER_ERROR")), licenses)
      else if lic.recoveryUsed then (Err(Failure(403, "RECOVERY_ALREADY_USED")), licenses)
      else (Ok(()), licenses[id := lic.(recoveryUsed := true, recoveryUsedAt := Some(now), updatedAt := Some(now))])
  }

  /** `recoverLicenseHandler`. The reply is the same generic success whether
      or not a license exists, so that the endpoint does not reveal it. */
  function Recover(db: Db, now: Time, rawEmail: string, ids: seq<string>, mailDelivered: bool)
    : (r: (Result<(), Failure>, Option<RecoveryMail>, Db))
    requires RegisteredTo(db.licenses, ToLower(Trim(rawEmail)), ids)
    ensures ToLower(Trim(rawEmail)) == [] ==> r == (Err(Failure(400, "MISSING_EMAIL")), None, db)
    // Only the `licenses` collection changes, and only one recovery flag in it.
    ensures r.2 == db.(licenses := r.2.licenses) && r.2.licenses.Keys == db.licenses.Keys
    // No mail, no write: nothing recoverable, or its recovery already used.
    ensures r.1.None? ==> r.2 == db
    ensures Candidates(db.licenses, ids, now) == [] ==> r.1.None? && (r.0.Ok? <==> ToLower(Trim(rawEmail)) != [])
    // A mail goes only to the requested address, and carries the code of the
    // most recent live license registered to it, whose recovery it spends.
    ensures r.1.Some? ==>
      && r.1.value.to == ToLower(Trim(rawEmail)) != []
      && exists id :: id in ids && id in db.licenses
           && db.licenses[id].email == r.1.value.to
           && IsRecoverable(db.licenses[id], now)
           && !db.licenses[id].recoveryUsed
           && (forall j :: 0 <= j < |ids| && IsRecoverable(db.licenses[ids[j]], now) ==>
                 RecencyKey(db.licenses[ids[j]]) <= RecencyKey(db.licenses[id]))
           && r.1.value.code == (if db.licenses[id].code != [] then db.licenses[id].code else id)
           && r.2.licenses == db.licenses[id := db.licenses[id].(recoveryUsed := true, recoveryUsedAt := Some(now), updatedAt := Some(now))]
    // With something to recover, the most recent candidate decides: a spent
    // recovery is refused without a write, an unspent one is spent and its
    // code (the document id when the field is empty) is mailed.
    ensures ToLower(Trim(rawEmail)) != [] && Candidates(db.licenses, ids, now) != [] ==>
      var cands := Candidates(db.licenses, ids, now);
      var id := cands[MostRecent(db.licenses, cands)];
      var lic := db.licenses[id];
      && (lic.recoveryUsed ==> r == (Err(Failure(403, "RECOVERY_ALREADY_USED")), None, db))
      && (!lic.recoveryUsed ==>
            && r.1 == Some(RecoveryMail(ToLower(Trim(rawEmail)), if lic.code != [] then lic.code else id, lic.expiresAt))
            && r.2.licenses == db.licenses[id := lic.(recoveryUsed := true, recoveryUsedAt := Some(now), updatedAt := Some(now))])
    // A failed delivery is a 500, yet the recovery stays spent.
    ensures r.1.Some? ==> (r.0.Ok? <==> mailDelivered)
    ensures r.1.Some? && !mailDelivered ==> r.0 == Err(Failure(500, "SERVER_ERROR"))
    // The only refusals are a missing e-mail and a recovery already spent.
    ensures r.0.Err? && r.1.None? ==>
      r.0.error == Failure(400, "MISSING_EMAIL") || r.0.error == Failure(403, "RECOVERY_ALREADY_USED")
  {
    var email := ToLower(Trim(rawEmail));
    if email == [] then (Err(Failure(400, "MISSING_EMAIL")), None, db)
    else RecoverFor(db, now, email, ids, mailDelivered)
  }

  /** The handler once the e-mail is known to be present. */
  function RecoverFor(db: Db, now: Time, email: string, ids: seq<string>, mailDelivered: bool)
    : (r: (Result<(), Failure>, Option<RecoveryMail>, Db))
    requires email != [] && RegisteredTo(db.licenses, email, ids)
    ensures r.2 == db.(licenses := r.2.licenses) && r.2.licenses.Keys == db.licenses.Keys
    ensures r.1.None? ==> r.2 == db
    ensures Candidates(db.licenses, ids, now) == [] ==> r.1.None? && r.0.Ok?
    ensures r.1.Some? ==>
      && r.1.value.to == email
      && exists id :: id in ids && id in db.licenses
           && db.licenses[id].email == r.1.value.to
           && IsRecoverable(db.licenses[id], now)
           && !db.licenses[id].recoveryUsed
           && (forall j :: 0 <= j < |ids| && IsRecoverable(db.licenses[ids[j]], now) ==>
                 RecencyKey(db.licenses[ids[j]]) <= RecencyKey(db.licenses[id]))
           && r.1.value.code == (if db.licenses[id].code != [] then db.licenses[id].code else id)
           && r.2.licenses == db.licenses[id := db.licenses[id].(recoveryUsed := true, recoveryUsedAt := Some(now), updatedAt := Some(now))]
    ensures Candidates(db.licenses, ids, now) != [] ==>
      var cands := Candidates(db.licenses, ids, now);
      var id := cands[MostRecent(db.licenses, cands)];
      var lic := db.licenses[id];
      && (lic.recoveryUsed ==> r == (Err(Failure(403, "RECOVERY_ALREADY_USED")), None, db))
      && (!lic.recoveryUsed ==>
            && r.1 == Some(RecoveryMail(email, if lic.code != [] then lic.code else id, lic.expiresAt))
            && r.2.licenses == db.licenses[id := lic.(recoveryUsed := true, recoveryUsedAt := Some(now), updatedAt := Some(now))])
    ensures r.1.Some? ==> (r.0.Ok? <==> mailDelivered)
    ensures r.1.Some? && !mailDelivered ==> r.0 == Err(Failure(500, "SERVER_ERROR"))
    ensures r.0.Err? && r.1.None? ==> r.0.error == Failure(403, "RECOVERY_ALREADY_USED")
  {
    if ids == [] then (Ok(()), None, db)
    else
      var cands := Candidates(db.licenses, ids, now);
      if cands == [] then (Ok(()), None, db)
      else
        ChosenIsMostRecent(db.licenses, ids, now);
        RecoverChosen(db, now, email, cands[MostRecent(db.licenses, cands)], mailDelivered)
  }

  /** The chosen candidate is a recoverable query result whose recency no
      other recoverable result exceeds. */
  lemma ChosenIsMostRecent(licenses: map<string, License>, ids: seq<string>, now: Time)
    requires forall i :: 0 <= i < |ids| ==> ids[i] in licenses
    requires Candidates(licenses, ids, now) != []
    ensures var cands := Candidates(licenses, ids, now);
      var id := cands[MostRecent(licenses, cands)];
      && id in ids && id in licenses && IsRecoverable(licenses[id], now)
      && forall j :: 0 <= j < |ids| && IsRecoverable(licenses[ids[j]], now) ==>
           RecencyKey(licenses[ids[j]]) <= RecencyKey(licenses[id])
  {
    var cands := Candidates(licenses, ids, now);
    var id := cands[MostRecent(licenses, cands)];
    forall j | 0 <= j < |ids| && IsRecoverable(licenses[ids[j]], now)
      ensures RecencyKey(licenses[ids[j]]) <= RecencyKey(licenses[id])
    {
      var i :| 0 <= i < |cands| && cands[i] == ids[j];
    }
  }

  /** The recovery of the chosen license `id`, a recoverable one: the early
      check of its flag, the transaction, then the mail. */
  function RecoverChosen(db: Db, now: Time, email: string, id: string, mailDelivered: bool)
    : (r: (Result<(), Failure>, Option<RecoveryMail>, Db))
    requires id in db.licenses && IsRecoverable(db.licenses[id], now)
    ensures db.licenses[id].recoveryUsed ==> r == (Err(Failure(403, "RECOVERY_ALREADY_USED")), None, db)
    ensures !db.licenses[id].recoveryUsed ==>
      var lic := db.licenses[id];
      && r.1 == Some(RecoveryMail(email, if lic.code != [] then lic.code else id, lic.expiresAt))
      && r.2 == db.(licenses := db.licenses[id := lic.(recoveryUsed := true, recoveryUsedAt := Some(now), updatedAt := Some(now))])
      && r.0 == (if mailDelivered then Ok(()) else Err(Failure(500, "SERVER_ERROR")))
  {
    var chosen := db.licenses[id];
    var code := if chosen.code != [] then chosen.code else id;
    if chosen.recoveryUsed then (Err(Failure(403, "RECOVERY_ALREADY_USED")), None, db)
    else
      var (tx, licenses') := RecoverTx(db.licenses, now, id);
      match tx
      case Err(f) => (Err(f), None, db)
      case Ok(_) =>
        var mail := RecoveryMail(email, code, chosen.expiresAt);
        (if mailDelivered then Ok(()) else Err(Failure(500, "SERVER_ERROR")), Some(mail), db.(licenses := licenses'))
  }

  /** A license's recovery can be used once: asking again, with the same
      answer to the query and no license having expired meanwhile, is refused
      and writes nothing, whether or not the first mail was delivered. */
  lemma SecondRecoveryRefused(db: Db, now: Time, later: Time, rawEmail: string, ids: seq<string>, m1: bool, m2: bool)
    requires IsQueryResult(db.licenses, ToLower(Trim(rawEmail)), ids)
    requires Recover(db, now, rawEmail, ids, m1).1.Some?
    requires forall i :: 0 <= i < |ids| ==> IsRecoverable(db.licenses[ids[i]], now) == IsRecoverable(db.licenses[ids[i]], later)
    ensures var db1 := Recover(db, now, rawEmail, ids, m1).2;
      && IsQueryResult(db1.licenses, ToLower(Trim(rawEmail)), ids)
      && Recover(db1, later, rawEmail, ids, m2) == (Err(Failure(403, "RECOVERY_ALREADY_USED")), None, db1)
  {
    var email := ToLower(Trim(rawEmail));
    var db1 := Recover(db, now, rawEmail, ids, m1).2;
    var cands := Candidates(db.licenses, ids, now);
    var id := cands[MostRecent(db.licenses, cands)];
    var spent := db.licenses[id].(recoveryUsed := true, recoveryUsedAt := Some(now), updatedAt := Some(now));
    assert db1.licenses == db.licenses[id := spent];
    RewriteKeepsQueryResult(db.licenses, email, ids, id, spent);
    assert forall i :: 0 <= i < |ids| ==> IsRecoverable(db1.licenses[ids[i]], later) == IsRecoverable(db.licenses[ids[i]], now);
    SameViewSameCandidates(db.licenses, now, db1.licenses, later, ids);
    SameKeysSameChoice(db.licenses, db1.licenses, cands);
  }

  /** Rewriting a stored license without changing its e-mail leaves every
      answer of the query an answer. */
  lemma RewriteKeepsQueryResult(licenses: map<string, License>, email: string, ids: seq<string>, id: string, lic: License)
    requires IsQueryResult(licenses, email, ids)
    requires id in licenses && lic.email == licenses[id].email
    ensures IsQueryResult(licenses[id := lic], email, ids)
  {
  }

  /** Writing the recovery flag changes neither which licenses are
      candidates nor which of them is chosen. */
  lemma {:induction false} SameViewSameCandidates(a: map<string, License>, t1: Time, b: map<string, License>, t2: Time, ids: seq<string>)
    requires forall i :: 0 <= i < |ids| ==> ids[i] in a && ids[i] in b
    requires forall i :: 0 <= i < |ids| ==> IsRecoverable(a[ids[i]], t1) == IsRecoverable(b[ids[i]], t2)
    ensures Candidates(a, ids, t1) == Candidates(b, ids, t2)
    decreases |ids|
  {
    if |ids| > 0 {
      SameViewSameCandidates(a, t1, b, t2, ids[1..]);
    }
  }

  lemma {:induction false} SameKeysSameChoice(a: map<string, License>, b: map<string, License>, cands: seq<string>)
    requires |cands| > 0
    requires forall i :: 0 <= i < |cands| ==> cands[i] in a && cands[i] in b
    requires forall i :: 0 <= i < |cands| ==> RecencyKey(a[cands[i]]) == RecencyKey(b[cands[i]])
    ensures MostRecent(a, cands) == MostRecent(b, cands)
    decreases |cands|
  {
    if |cands| > 1 {
      SameKeysSameChoice(a, b, cands[1..]);
    }
  }
}

=== FILE: license_support.dfy ===
/*******************************************************************************
 *  Support device change, `POST /api/admin/licencia/cambiar-dispositivo` as
 *  written in license-support.js: token-protected, and one change per license
 *  ever.
 *******************************************************************************/

module LicenseSupport {
  import opened Common
  import opened Text
  import opened LicenseCode
  import opened Store
  import LicenseActivate

  const MAX_REASON_LENGTH: nat := 200

  /** The body of a successful change. */
  datatype DeviceChange = DeviceChange(code: string, previousDeviceUuid: string, deviceUuid: string, expiresAt: Option<Time>)

  /** How the handler ends: a change, a refusal, or an exception that escapes
      the handler (an unset ADMIN_TOKEN). */
  datatype Outcome = Changed(change: DeviceChange) | Refused(failure: Failure) | Thrown(message: string)

  /** `requireAdmin`: an unset token on the server throws; otherwise the
      `x-admin-token` header must be present and equal to it. */
  function RequireAdmin(expected: string, provided: string): (r: Result<bool, string>)
    ensures r.Err? <==> expected == []
    ensures r.Ok? ==> (r.value <==> provided != [] && provided == expected)
  {
    if expected == [] then Err("Falta ADMIN_TOKEN en el servidor")
    else Ok(provided != [] && provided == expected)
  }

  /** The transaction body: NOT_FOUND, NOT_ACTIVE, EXPIRED (which also marks
      the license expired), DEVICE_CHANGE_ALREADY_USED, then the rebinding. */
  function SupportTx(licenses: map<string, License>, now: Time, code: string, newDevice: string, reason: string)
    : (r: (Outcome, map<string, License>))
    ensures !r.0.Thrown?
    ensures OnlyKeyChanged(licenses, r.1, code) && r.1.Keys == licenses.Keys
    ensures code !in licenses ==> r == (Refused(Failure(404, "NOT_FOUND")), licenses)
    ensures code in licenses && ToLower(licenses[code].status) != "active" ==>
      r == (Refused(Failure(403, "NOT_ACTIVE")), licenses)
    ensures code in licenses && ToLower(licenses[code].status) == "active" && IsExpired(licenses[code].expiresAt, now) ==>
      r == (Refused(Failure(403, "EXPIRED")), licenses[code := licenses[code].(status := "expired", updatedAt := Some(now))])
    ensures code in licenses && ToLower(licenses[code].status) == "active" && !IsExpired(licenses[code].expiresAt, now)
            && licenses[code].deviceChangeUsed ==>
      r == (Refused(Failure(403, "DEVICE_CHANGE_ALREADY_USED")), licenses)
    ensures code in licenses && licenses[code].deviceChangeUsed && !(r.0 == Refused(Failure(403, "EXPIRED"))) ==>
      r.1 == licenses
    // The change goes through exactly for an active, live license whose one change is unused.
    ensures r.0.Changed? <==>
      code in licenses && ToLower(licenses[code].status) == "active"
      && !IsExpired(licenses[code].expiresAt, now) && !licenses[code].deviceChangeUsed
    ensures r.0.Changed? ==>
      var prev := licenses[code];
      && r.0.change == DeviceChange(code, prev.deviceUuid, newDevice, prev.expiresAt)
      && r.1[code] == prev.(
          deviceUuid := newDevice,
          activatedAt := if prev.activatedAt.Some? then prev.activatedAt else Some(now),
          deviceChangeUsed := true,
          deviceChangedAt := Some(now),
          deviceChangeReason := reason,
          previousDeviceUuid := prev.deviceUuid,
          updatedAt := Some(now))
  {
    if code !in licenses then (Refused(Failure(404, "NOT_FOUND")), licenses)
    else
      var lic := licenses[code];
      if ToLower(lic.status) != "active" then (Refused(Failure(403, "NOT_ACTIVE")), licenses)
      else if IsExpired(lic.expiresAt, now) then
        (Refused(Failure(403, "EXPIRED")), licenses[code := lic.(status := "expired", updatedAt := Some(now))])
      else if lic.deviceChangeUsed then (Refused(Failure(403, "DEVICE_CHANGE_ALREADY_USED")), licenses)
      else
        var changed := lic.(
          deviceUuid := newDevice,
          activatedAt := if lic.activatedAt.Some? then lic.activatedAt else Some(now),
          deviceChangeUsed := true,
          deviceChangedAt := Some(now),
          deviceChangeReason := reason,
          previousDeviceUuid := lic.deviceUuid,
          updatedAt := Some(now));
        (Changed(DeviceChange(code, lic.deviceUuid, newDevice, lic.expiresAt)), licenses[code := changed])
  }

  /** `supportChangeDeviceHandler`: the admin check comes before anything
      else, the request checks before the store is read. */
  function SupportChangeDevice(db: Db, now: Time, adminToken: string, providedToken: string,
                               rawCode: string, rawNewDevice: string, rawReason: string): (r: (Outcome, Db))
    ensures r.1 == db.(licenses := r.1.licenses)
    ensures adminToken == [] ==> r.0.Thrown? && r.1 == db
    ensures adminToken != [] && (providedToken == [] || providedToken != adminToken) ==>
      r == (Refused(Failure(401, "UNAUTHORIZED")), db)
    ensures RequireAdmin(adminToken, providedToken) == Ok(true) && LicenseActivate.CheckRequest(rawCode, rawNewDevice).Err? ==>
      r == (Refused(LicenseActivate.CheckRequest(rawCode, rawNewDevice).error), db)
    ensures r.0.Changed? ==>
      && providedToken == adminToken != []
      && r.0.change.code == NormalizeCode(rawCode)
      && r.0.change.deviceUuid == Trim(rawNewDevice)
      && r.0.change.code in r.1.licenses
      && r.1.licenses[r.0.change.code].deviceChangeUsed
      && |r.1.licenses[r.0.change.code].deviceChangeReason| <= MAX_REASON_LENGTH
  {
    match RequireAdmin(adminToken, providedToken)
    case Err(msg) => (Thrown(msg), db)
    case Ok(authorized) =>
      if !authorized then (Refused(Failure(401, "UNAUTHORIZED")), db)
      else
        var reason := Take(Trim(rawReason), MAX_REASON_LENGTH);
        match LicenseActivate.CheckRequest(rawCode, rawNewDevice)
        case Err(f) => (Refused(f), db)
        case Ok((code, newDevice)) =>
          var (out, licenses') := SupportTx(db.licenses, now, code, newDevice, reason);
          (out, db.(licenses := licenses'))
  }

  /** A license's one device change is spent for good: every later request
      for it is refused and its device stays as the first change left it. */
  lemma {:induction false} SecondChangeAlwaysFails(db: Db, now: Time, later: Time, adminToken: string, providedToken: string,
                                   rawCode: string, d1: string, d2: string, reason1: string, reason2: string)
    requires SupportChangeDevice(db, now, adminToken, providedToken, rawCode, d1, reason1).0.Changed?
    ensures var db1 := SupportChangeDevice(db, now, adminToken, providedToken, rawCode, d1, reason1).1;
      var second := SupportChangeDevice(db1, later, adminToken, providedToken, rawCode, d2, reason2);
      && second.0.Refused?
      && second.1.licenses[NormalizeCode(rawCode)].deviceUuid == Trim(d1)
  {
    var db1 := SupportChangeDevice(db, now, adminToken, providedToken, rawCode, d1, reason1).1;
    var code := NormalizeCode(rawCode);
    assert db1.licenses[code].deviceChangeUsed && db1.licenses[code].deviceUuid == Trim(d1);
    match LicenseActivate.CheckRequest(rawCode, d2)
    case Err(_) =>
    case Ok((c, nd)) =>
      var reason := Take(Trim(reason2), MAX_REASON_LENGTH);
      var tx := SupportTx(db1.licenses, later, c, nd, reason);
      assert !tx.0.Changed?;
  }
}

=== FILE: manual_payment.dfy ===
/*******************************************************************************
 *  Manual orders, `POST /api/pago-manual` (manual-payment.js): a Bizum or
 *  bank-transfer order is validated, given a payment reference, and stored
 *  as `pending` for an administrator to complete.
 *
 *  `Math.random` is an input: the base-36 digits of the fraction it drew.
 *  The configuration (`PRICE_EUR`, `BIZUM_PHONE`, `BANK_*`) is an input, and
 *  so is the fresh id Firestore's `add` picks.
 *******************************************************************************/

module ManualPayment {
  import opened Common
  import opened Text
  import opened LicenseCode
  import opened Store

  /** The random characters a payment reference is meant to carry. */
  const REFERENCE_RANDOM_LENGTH: nat := 6

  // ---------------------------------------------------------------------------
  // genReferencia
  // ---------------------------------------------------------------------------

  /** The digits `Math.random().toString(36)` prints after the point. */
  predicate IsBase36Digits(digits: string) {
    forall i :: 0 <= i < |digits| ==> IsDigit(digits[i]) || IsLowerAscii(digits[i])
  }

  /** `Math.random().toString(36)`: a number in [0, 1) prints as `0.` and its
      fraction digits, and 0 itself as `0`. */
  function RandomText(digits: string): string {
    if digits == [] then "0" else "0." + digits
  }

  /** `.replace(/[^A-Z0-9]/g, '')`. */
  function KeepAlnum(s: string): (r: string)
    ensures |r| <= |s|
    ensures forall i :: 0 <= i < |r| ==> InClass(r[i], AlnumClass)
    ensures (forall i :: 0 <= i < |s| ==> InClass(s[i], AlnumClass)) ==> r == s
  {
    if s == [] then []
    else if InClass(s[0], AlnumClass) then [s[0]] + KeepAlnum(s[1..])
    else KeepAlnum(s[1..])
  }

  /** `genReferencia` as written: the text of the random number keeps its
      leading `0`, so only five random characters follow it. */
  function GenReferenciaAsWritten(prefix: string, digits: string): (r: string)
    ensures |prefix| + 1 <= |r| <= |prefix| + 1 + REFERENCE_RANDOM_LENGTH
    ensures r[..|prefix| + 1] == prefix + "-"
    ensures forall i :: |prefix| + 1 <= i < |r| ==> InClass(r[i], AlnumClass)
  {
    var rnd := Take(KeepAlnum(ToUpper(RandomText(digits))), REFERENCE_RANDOM_LENGTH);
    assert forall i :: 0 <= i < |rnd| ==> rnd[i] == KeepAlnum(ToUpper(RandomText(digits)))[i];
    prefix + "-" + rnd
  }

  /** Whatever `Math.random` draws, the random part of the as-written
      reference starts with `0`. */
  lemma AsWrittenRandomPartStartsWithZero(prefix: string, digits: string)
    ensures |GenReferenciaAsWritten(prefix, digits)| > |prefix| + 1
    ensures GenReferenciaAsWritten(prefix, digits)[|prefix| + 1] == '0'
  {
    var text := ToUpper(RandomText(digits));
    assert text[0] == '0';
    if digits != [] {
      assert text[1] == '.';
      assert text == ['0'] + ['.'] + text[2..];
      assert KeepAlnum(text) == ['0'] + KeepAlnum(text[1..]);
      assert KeepAlnum(text[1..]) == KeepAlnum(text[2..]) by { assert text[1..] == ['.'] + text[2..]; }
    } else {
      assert text == "0";
    }
    assert KeepAlnum(text)[0] == '0';
  }

  /** So no Bizum order is ever given the reference `TUAPP-BIZ-A00000`:
      of the 36^6 random parts, only those beginning with `0` occur. */
  lemma AsWrittenMissesReference(digits: string)
    ensures GenReferenciaAsWritten("TUAPP-BIZ", digits) != "TUAPP-BIZ-A00000"
  {
    AsWrittenRandomPartStartsWithZero("TUAPP-BIZ", digits);
    assert "TUAPP-BIZ-A00000"[10] == 'A';
  }

  /** The filter on a text with one more character in front. */
  lemma KeepAlnumPrepend(c: char, s: string)
    ensures KeepAlnum([c] + s) == if InClass(c, AlnumClass) then [c] + KeepAlnum(s) else KeepAlnum(s)
  {
    assert ([c] + s)[1..] == s;
  }

  /** Upper-casing a text with one more character in front. */
  lemma ToUpperPrepend(c: char, s: string)
    ensures ToUpper([c] + s) == [UpperChar(c)] + ToUpper(s)
  {
    assert forall i :: 0 <= i < |s| ==> ([c] + s)[i + 1] == s[i];
  }

  /** Upper-cased and filtered, the text of a draw reads as the draw's digits
      with a `0` in front: the point goes and the leading `0` stays. */
  lemma FilteredRandomText(digits: string)
    ensures KeepAlnum(ToUpper(RandomText(digits))) == KeepAlnum(ToUpper("0" + digits))
  {
    var upper := ToUpper(digits);
    assert KeepAlnum(ToUpper("0" + digits)) == ['0'] + KeepAlnum(upper) by {
      assert "0" + digits == ['0'] + digits;
      ToUpperPrepend('0', digits);
      KeepAlnumPrepend('0', upper);
    }
    if digits != [] {
      assert KeepAlnum(ToUpper(RandomText(digits))) == ['0'] + KeepAlnum(upper) by {
        assert RandomText(digits) == ['0'] + (['.'] + digits);
        ToUpperPrepend('0', ['.'] + digits);
        ToUpperPrepend('.', digits);
        KeepAlnumPrepend('0', ['.'] + upper);
        KeepAlnumPrepend('.', upper);
      }
    } else {
      assert RandomText(digits) == "0" + digits;
    }
  }

  /** The as-written reference of a draw is the intended reference of the
      same draw with a `0` put in front: the leading `0` takes one of the six
      places. */
  lemma AsWrittenIsShiftedDraw(prefix: string, digits: string)
    ensures IsBase36Digits(digits) ==> IsBase36Digits("0" + digits)
    ensures GenReferenciaAsWritten(prefix, digits) == GenReferencia(prefix, "0" + digits)
  {
    FilteredRandomText(digits);
  }

  /** `genReferencia` as intended: six random characters, taken from the
      digits of the draw. */
  function GenReferencia(prefix: string, digits: string): (r: string)
    ensures |prefix| + 1 <= |r| <= |prefix| + 1 + REFERENCE_RANDOM_LENGTH
    ensures r[..|prefix| + 1] == prefix + "-"
    ensures forall i :: |prefix| + 1 <= i < |r| ==> InClass(r[i], AlnumClass)
  {
    var rnd := Take(KeepAlnum(ToUpper(digits)), REFERENCE_RANDOM_LENGTH);
    assert forall i :: 0 <= i < |rnd| ==> rnd[i] == KeepAlnum(ToUpper(digits))[i];
    prefix + "-" + rnd
  }

  /** Every reference `prefix-XXXXXX` with six characters from `[A-Z0-9]`
      is drawn by some value of `Math.random`. */
  lemma {:induction false} GenReferenciaReachesEvery(prefix: string, target: string)
    requires |target| == REFERENCE_RANDOM_LENGTH
    requires forall i :: 0 <= i < |target| ==> InClass(target[i], AlnumClass)
    ensures exists digits :: IsBase36Digits(digits) && GenReferencia(prefix, digits) == prefix + "-" + target
  {
    var digits := ToLower(target);
    forall i | 0 <= i < |target|
      ensures UpperChar(LowerChar(target[i])) == target[i]
      ensures IsDigit(digits[i]) || IsLowerAscii(digits[i])
    {
    }
    assert ToUpper(digits) == target;
    assert IsBase36Digits(digits);
    assert GenReferencia(prefix, digits) == prefix + "-" + target;
  }

  // ---------------------------------------------------------------------------
  // createManualOrderHandler
  // ---------------------------------------------------------------------------

  /** The environment the handler reads. `priceEur` is `None` when
      `PRICE_EUR` is unset or does not parse to a finite number. */
  datatype PaymentConfig = PaymentConfig(
    priceEur: Option<real>,
    bizumPhone: string,
    bankIban: string,
    bankHolder: string,
    bankConceptHint: string)

  /** `getPriceEurFromEnv`: the configured price when it is positive, else 0. */
  function ConfiguredPrice(priceEur: Option<real>): (r: real)
    ensures r >= 0.0
    ensures r > 0.0 <==> priceEur.Some? && priceEur.value > 0.0
    ensures r > 0.0 ==> r == priceEur.value
  {
    if priceEur.Some? && priceEur.value > 0.0 then priceEur.value else 0.0
  }

  /** The payment instructions returned to the customer. */
  datatype Instructions =
    | BizumInstructions(metodo: string, referencia: string, amount: real, currency: string, bizumPhone: string)
    | TransferInstructions(metodo: string, referencia: string, amount: real, currency: string,
                           bankIban: string, bankHolder: string, bankConceptHint: string)

  datatype Created = Created(orderId: string, instrucciones: Instructions)

  /** `safeTrim(req.body?.producto || 'contratos')`: an empty product is
      `contratos`, while one made of spaces trims to empty. */
  function Producto(raw: string): (r: string)
    ensures raw == [] ==> r == "contratos"
    ensures raw != [] ==> r == Trim(raw)
  {
    Trim(if raw == [] then "contratos" else raw)
  }

  /** The reference prefix of a method. */
  function ReferencePrefix(metodo: string): string {
    if metodo == "bizum" then "TUAPP-BIZ" else "TUAPP-TRF"
  }

  /** The order document `add` stores. */
  function PendingOrder(metodo: string, email: string, uuid: string, producto: string, amount: real,
                        referencia: string, now: Time): (o: Order)
    ensures o.status == "pending" && o.currency == "EUR"
    ensures o.metodo == metodo && o.email == ToLower(email) && o.uuid == uuid && o.producto == producto
    ensures o.amount == amount && o.referencia == referencia
    ensures o.createdAt == Some(now) && o.updatedAt == Some(now)
    ensures o.paidAt.None? && o.licenseCode == [] && o.invoice == [] && o.sentAt.None?
  {
    Order(metodo, ToLower(email), uuid, producto, amount, "EUR", referencia, "pending",
          Some(now), Some(now), None, "", "", "", None)
  }

  /** The two accepted payment methods. */
  predicate IsMethod(metodo: string) {
    metodo == "bizum" || metodo == "transferencia"
  }

  /** The configuration a method needs: a Bizum phone or a bank IBAN. */
  predicate MethodConfigured(metodo: string, config: PaymentConfig) {
    if metodo == "bizum" then Trim(config.bizumPhone) != [] else Trim(config.bankIban) != []
  }

  /** The instructions for an order: the method's own payment details, with
      the order's reference and amount. */
  function InstructionsFor(o: Order, config: PaymentConfig): (r: Instructions)
    ensures r.metodo == o.metodo && r.referencia == o.referencia && r.amount == o.amount && r.currency == o.currency
    ensures r.BizumInstructions? <==> o.metodo == "bizum"
    ensures r.BizumInstructions? ==> r.bizumPhone == Trim(config.bizumPhone)
    ensures r.TransferInstructions? ==> r.bankIban == Trim(config.bankIban) && r.bankHolder == Trim(config.bankHolder)
  {
    if o.metodo == "bizum" then BizumInstructions(o.metodo, o.referencia, o.amount, o.currency, Trim(config.bizumPhone))
    else TransferInstructions(o.metodo, o.referencia, o.amount, o.currency,
                              Trim(config.bankIban), Trim(config.bankHolder), Trim(config.bankConceptHint))
  }

  /** `createManualOrderHandler`: the request checks, then the configuration
      checks, then the new pending order and its instructions. */
  function CreateManualOrder(db: Db, now: Time, rawMetodo: string, rawEmail: string, rawUuid: string,
                             rawProducto: string, config: PaymentConfig, digits: string, newId: string)
    : (r: (Result<Created, Failure>, Db))
    requires newId !in db.orders
    ensures !IsMethod(ToLower(Trim(rawMetodo))) ==> r == (Err(Failure(400, "INVALID_METHOD")), db)
    ensures IsMethod(ToLower(Trim(rawMetodo))) && '@' !in Trim(rawEmail) ==> r == (Err(Failure(400, "INVALID_EMAIL")), db)
    // The configuration is checked only for a well-formed request, and the
    // method's details before the price.
    ensures IsMethod(ToLower(Trim(rawMetodo))) && '@' in Trim(rawEmail) && !MethodConfigured(ToLower(Trim(rawMetodo)), config) ==>
      r.1 == db && r.0 == Err(Failure(500, if ToLower(Trim(rawMetodo)) == "bizum" then "BIZUM_PHONE_NOT_SET" else "BANK_IBAN_NOT_SET"))
    ensures (IsMethod(ToLower(Trim(rawMetodo))) && '@' in Trim(rawEmail) && MethodConfigured(ToLower(Trim(rawMetodo)), config)
             && ConfiguredPrice(config.priceEur) == 0.0) ==> r == (Err(Failure(500, "PRICE_EUR_NOT_SET")), db)
    ensures r.0.Err? ==> r.1 == db
    ensures r.0.Ok? <==>
      IsMethod(ToLower(Trim(rawMetodo))) && '@' in Trim(rawEmail) && MethodConfigured(ToLower(Trim(rawMetodo)), config)
      && ConfiguredPrice(config.priceEur) > 0.0
    // Success stores exactly one new pending order, priced and referenced,
    // and returns its id with the instructions for it.
    ensures r.0.Ok? ==>
      && r.0.value.orderId == newId
      && newId in r.1.orders
      && r.1 == db.(orders := db.orders[newId := r.1.orders[newId]])
      && r.1.orders[newId] == PendingOrder(ToLower(Trim(rawMetodo)), Trim(rawEmail), Trim(rawUuid), Producto(rawProducto),
           ConfiguredPrice(config.priceEur), GenReferencia(ReferencePrefix(ToLower(Trim(rawMetodo))), digits), now)
      && r.0.value.instrucciones == InstructionsFor(r.1.orders[newId], config)
  {
    var metodo := ToLower(Trim(rawMetodo));
    var email := Trim(rawEmail);
    if !IsMethod(metodo) then (Err(Failure(400, "INVALID_METHOD")), db)
    else if email == [] || '@' !in email then (Err(Failure(400, "INVALID_EMAIL")), db)
    else
      var amount := ConfiguredPrice(config.priceEur);
      var referencia := GenReferencia(ReferencePrefix(metodo), digits);
      if metodo == "bizum" && Trim(config.bizumPhone) == [] then (Err(Failure(500, "BIZUM_PHONE_NOT_SET")), db)
      else if metodo == "transferencia" && Trim(config.bankIban) == [] then (Err(Failure(500, "BANK_IBAN_NOT_SET")), db)
      else if amount <= 0.0 then (Err(Failure(500, "PRICE_EUR_NOT_SET")), db)
      else
        var order := PendingOrder(metodo, email, Trim(rawUuid), Producto(rawProducto), amount, referencia, now);
        (Ok(Created(newId, InstructionsFor(order, config))), db.(orders := db.orders[newId := order]))
  }

  /** The handler of the source, whose reference keeps the leading `0`, is
      this handler fed the draw with a `0` put in front: on success the
      stored reference is the as-written one of the original draw, and every
      other outcome is the same as for any draw. */
  lemma CreateManualOrderAsWritten(db: Db, now: Time, rawMetodo: string, rawEmail: string, rawUuid: string,
                                   rawProducto: string, config: PaymentConfig, digits: string, newId: string)
    requires newId !in db.orders
    ensures var r := CreateManualOrder(db, now, rawMetodo, rawEmail, rawUuid, rawProducto, config, "0" + digits, newId);
      r.0.Ok? ==> r.1.orders[newId].referencia == GenReferenciaAsWritten(ReferencePrefix(ToLower(Trim(rawMetodo))), digits)
    ensures CreateManualOrder(db, now, rawMetodo, rawEmail, rawUuid, rawProducto, config, "0" + digits, newId).0.Ok?
        == CreateManualOrder(db, now, rawMetodo, rawEmail, rawUuid, rawProducto, config, digits, newId).0.Ok?
  {
    AsWrittenIsShiftedDraw(ReferencePrefix(ToLower(Trim(rawMetodo))), digits);
  }
}

=== FILE: online_validation.dfy ===
/*******************************************************************************
 *  Online validation (index.js): `POST /api/licencia/validar` binds a code to
 *  the first device that validates it, moving it from `active` to `used`,
 *  and logs every outcome; `POST /api/licencia/info` reads a license's expiry
 *  without writing anything.
 *
 *  This path keeps its own field names: the bound device is `activatedUuid`
 *  (license activation uses `deviceUuid`), and its codes have the shape
 *  `CONTR-XXXX-…`, not the shape `XXXX-XXXX-XXXX` the generator issues.
 *******************************************************************************/

module OnlineValidation {
  import opened Common
  import opened Text
  import opened LicenseCode
  import opened Store

  /** `normalizarCodigo` is written exactly as `normalizeCode` of the code
      module: trim, upper-case, drop white space. */
  function NormalizarCodigo(raw: string): (r: string)
    ensures r == NormalizeCode(raw)
    ensures NoSpace(r) && NormalizeCode(r) == r
  {
    NormalizeCodeIdempotent(raw);
    NormalizeCode(raw)
  }

  const CONTR_PREFIX: string := "CONTR"

  /** `codigoFormatoValido`, `/^CONTR(-[A-Z0-9]{4}){3,5}$/`. */
  predicate CodigoFormatoValido(codigo: string)
    // Three, four or five groups after `CONTR`: 20, 25 or 30 characters.
    ensures CodigoFormatoValido(codigo) ==> |codigo| == 20 || |codigo| == 25 || |codigo| == 30
    ensures CodigoFormatoValido(codigo) ==> codigo[..5] == "CONTR" && codigo[5] == '-'
  {
    && |codigo| >= |CONTR_PREFIX| && codigo[..|CONTR_PREFIX|] == CONTR_PREFIX
    && var groups := codigo[|CONTR_PREFIX|..];
       DashGroupsPositions(groups, AlnumClass, 3);
       DashGroupsPositions(groups, AlnumClass, 4);
       DashGroupsPositions(groups, AlnumClass, 5);
       DashGroups(groups, AlnumClass, 3) || DashGroups(groups, AlnumClass, 4) || DashGroups(groups, AlnumClass, 5)
  }

  /** The same format by position: `CONTR` and 15, 20 or 25 more characters,
      a dash at every fifth of them and `[A-Z0-9]` elsewhere. */
  lemma CodigoFormatoValidoIff(codigo: string)
    ensures CodigoFormatoValido(codigo) <==>
      && |codigo| in {20, 25, 30} && codigo[..5] == "CONTR"
      && forall k :: 5 <= k < |codigo| ==> (if k % 5 == 0 then codigo[k] == '-' else InClass(codigo[k], AlnumClass))
  {
    if |codigo| >= 5 {
      var t := codigo[5..];
      DashGroupsPositions(t, AlnumClass, 3);
      DashGroupsPositions(t, AlnumClass, 4);
      DashGroupsPositions(t, AlnumClass, 5);
      assert forall k :: 5 <= k < |codigo| ==> codigo[k] == t[k - 5] && (k - 5) % 5 == k % 5;
      assert forall k :: 0 <= k < |t| ==> t[k] == codigo[k + 5] && (k + 5) % 5 == k % 5;
    }
  }

  /** No code of the generator's shape passes the online format check: it is
      14 characters long, and the shortest CONTR code has 20. */
  lemma CodeShapeNeverContr(code: string)
    requires HasCodeShape(code)
    ensures !CodigoFormatoValido(code)
  {
    CodigoFormatoValidoIff(code);
  }

  /** The verdict of `/validar`: `{ok: true}`, or `{ok: false, reason}` with
      its HTTP status (400 for a malformed request, 200 otherwise). */
  datatype Verdict = Valid | Invalid(httpStatus: int, reason: string)

  /** The status a license is read with: `lic.status || 'active'`. */
  function EffectiveStatus(lic: License): (s: string)
    ensures s != []
    ensures lic.status == [] ==> s == "active"
    ensures lic.status != [] ==> s == lic.status
  {
    if lic.status == [] then "active" else lic.status
  }

  /** `expiresAtDate && now > expiresAtDate`: only a present expiry that has
      strictly passed blocks; a missing one does not. */
  predicate HasLapsed(expiresAt: Option<Time>, now: Time)
    ensures expiresAt.None? ==> !HasLapsed(expiresAt, now)
    // Laxer than the activation endpoints' check: a lapsed license is expired
    // there too, and the two differ only on a missing expiry and at the instant itself.
    ensures HasLapsed(expiresAt, now) ==> IsExpired(expiresAt, now)
    ensures IsExpired(expiresAt, now) && !HasLapsed(expiresAt, now) ==> expiresAt.None? || expiresAt.value == now
  {
    expiresAt.Some? && now > expiresAt.value
  }

  /** The transaction: what it writes to the license (if anything), and the
      `result` of the activation log entry it always appends. */
  function ValidateTx(licenses: map<string, License>, now: Time, codigo: string, uuid: string)
    : (r: (Verdict, map<string, License>, string))
    requires uuid != []
    ensures r.0.Invalid? ==> r.0.httpStatus == 200 && r.1 == licenses
    ensures OnlyKeyChanged(licenses, r.1, codigo) && r.1.Keys == licenses.Keys
    ensures codigo !in licenses ==> r == (Invalid(200, "not_found"), licenses, "invalid")
    ensures codigo in licenses && EffectiveStatus(licenses[codigo]) == "revoked" ==>
      r == (Invalid(200, "revoked"), licenses, "revoked")
    ensures codigo in licenses && EffectiveStatus(licenses[codigo]) != "revoked" && HasLapsed(licenses[codigo].expiresAt, now) ==>
      r == (Invalid(200, "expired"), licenses, "expired")
    // The first use binds the device and restarts the year from now.
    ensures codigo in licenses && EffectiveStatus(licenses[codigo]) == "active" && !HasLapsed(licenses[codigo].expiresAt, now) ==>
      && r.0 == Valid && r.2 == "ok_first_use"
      && r.1[codigo] == licenses[codigo].(status := "used", activatedUuid := uuid, activatedAt := Some(now),
                                          expiresAt := Some(AddOneYear(now)))
    // Any other status counts as used: the bound device is let in again, and
    // a license without expiry gets one a year after its activation.
    ensures codigo in licenses && EffectiveStatus(licenses[codigo]) !in {"revoked", "active"}
            && !HasLapsed(licenses[codigo].expiresAt, now) ==>
      && (r.0 == Valid <==> licenses[codigo].activatedUuid == uuid)
      && (r.0 == Valid ==>
            && r.2 == "ok_same_device"
            && r.1[codigo] == (if licenses[codigo].expiresAt.Some? then licenses[codigo]
                               else licenses[codigo].(expiresAt := Some(AddOneYear(licenses[codigo].activatedAt.GetOr(now))))))
      && (r.0.Invalid? ==> r.0.reason == "used_by_other" && r.2 == "used_by_other")
    ensures IsSuccessResult(r.2) <==> r.0 == Valid
    ensures r.0 == Valid ==>
      && codigo in licenses && codigo in r.1
      && r.1[codigo].activatedUuid == uuid
      && EffectiveStatus(r.1[codigo]) != "active" && EffectiveStatus(r.1[codigo]) != "revoked"
      && r.1[codigo].expiresAt.Some?
      && !HasLapsed(licenses[codigo].expiresAt, now)
  {
    if codigo !in licenses then (Invalid(200, "not_found"), licenses, "invalid")
    else
      var lic := licenses[codigo];
      var status := EffectiveStatus(lic);
      if status == "revoked" then (Invalid(200, "revoked"), licenses, "revoked")
      else if HasLapsed(lic.expiresAt, now) then (Invalid(200, "expired"), licenses, "expired")
      else if status == "active" then
        (Valid, licenses[codigo := lic.(status := "used", activatedUuid := uuid, activatedAt := Some(now),
                                            expiresAt := Some(AddOneYear(now)))], "ok_first_use")
      else if lic.activatedUuid == uuid then
        if lic.expiresAt.None? then
          (Valid, licenses[codigo := lic.(expiresAt := Some(AddOneYear(lic.activatedAt.GetOr(now))))], "ok_same_device")
        else (Valid, licenses, "ok_same_device")
      else (Invalid(200, "used_by_other"), licenses, "used_by_other")
  }

  /** The `{ok: true}` outcomes of the log. */
  predicate IsSuccessResult(result: string) {
    result == "ok_first_use" || result == "ok_same_device"
  }

  /** `POST /api/licencia/validar`. */
  function Validate(db: Db, now: Time, rawCodigo: string, rawUuid: string): (r: (Verdict, Db))
    ensures NormalizarCodigo(rawCodigo) == [] || Trim(rawUuid) == [] ==> r == (Invalid(400, "missing_fields"), db)
    ensures NormalizarCodigo(rawCodigo) != [] && Trim(rawUuid) != [] && !CodigoFormatoValido(NormalizarCodigo(rawCodigo)) ==>
      r == (Invalid(400, "invalid_format"), db)
    // Only the license under the code and the activation log may change.
    ensures r.1 == db.(licenses := r.1.licenses, activations := r.1.activations)
    ensures OnlyKeyChanged(db.licenses, r.1.licenses, NormalizarCodigo(rawCodigo))
    // A request that reaches the store appends exactly one log entry, which
    // records the code, the device and whether it was let in.
    ensures r.0 != Invalid(400, "missing_fields") && r.0 != Invalid(400, "invalid_format") ==>
      && |r.1.activations| == |db.activations| + 1
      && r.1.activations[..|db.activations|] == db.activations
      && var entry := r.1.activations[|db.activations|];
      && entry.code == NormalizarCodigo(rawCodigo) && entry.uuid == Trim(rawUuid) && entry.createdAt == now
      && (IsSuccessResult(entry.result) <==> r.0 == Valid)
    ensures r.0 == Invalid(400, "missing_fields") || r.0 == Invalid(400, "invalid_format") ==> r.1 == db
    // A rejection never touches the license.
    ensures r.0.Invalid? ==> r.1.licenses == db.licenses
    // An accepted device is the one bound to the license, which is now used
    // (or keeps another non-active status) and has an expiry.
    ensures r.0 == Valid ==>
      var codigo := NormalizarCodigo(rawCodigo);
      && codigo in db.licenses && codigo in r.1.licenses
      && r.1.licenses[codigo].activatedUuid == Trim(rawUuid)
      && EffectiveStatus(r.1.licenses[codigo]) != "active" && EffectiveStatus(r.1.licenses[codigo]) != "revoked"
      && r.1.licenses[codigo].expiresAt.Some?
      && !HasLapsed(db.licenses[codigo].expiresAt, now)
  {
    var codigo := NormalizarCodigo(rawCodigo);
    var uuid := Trim(rawUuid);
    if codigo == [] || uuid == [] then (Invalid(400, "missing_fields"), db)
    else if !CodigoFormatoValido(codigo) then (Invalid(400, "invalid_format"), db)
    else
      var (verdict, licenses', result) := ValidateTx(db.licenses, now, codigo, uuid);
      (verdict, db.(licenses := licenses', activations := db.activations + [ActivationLog(codigo, uuid, now, result)]))
  }

  /** The conditions under which `/validar` lets device `uuid` in on a
      well-formed request for a stored license: not revoked, not lapsed, and
      either still unused or bound to that device. */
  predicate LetsIn(lic: License, now: Time, uuid: string) {
    && EffectiveStatus(lic) != "revoked"
    && !HasLapsed(lic.expiresAt, now)
    && (EffectiveStatus(lic) == "active" || lic.activatedUuid == uuid)
  }

  /** On a well-formed request, `/validar` lets a device in exactly when the
      license is stored and admits it. */
  lemma ValidateValidIff(db: Db, now: Time, rawCodigo: string, rawUuid: string)
    requires Trim(rawUuid) != [] && CodigoFormatoValido(NormalizarCodigo(rawCodigo))
    ensures Validate(db, now, rawCodigo, rawUuid).0 == Valid <==>
      NormalizarCodigo(rawCodigo) in db.licenses && LetsIn(db.licenses[NormalizarCodigo(rawCodigo)], now, Trim(rawUuid))
  {
  }

  /** Validating again from the bound device, before the license lapses, is
      accepted and leaves the license as it is. */
  lemma ValidateAgainSameDevice(db: Db, now: Time, later: Time, rawCodigo: string, rawUuid: string)
    requires Trim(rawUuid) != [] && CodigoFormatoValido(NormalizarCodigo(rawCodigo))
    requires NormalizarCodigo(rawCodigo) in db.licenses
    requires LetsIn(db.licenses[NormalizarCodigo(rawCodigo)], now, Trim(rawUuid))
    ensures Validate(db, now, rawCodigo, rawUuid).0 == Valid
    ensures var db1 := Validate(db, now, rawCodigo, rawUuid).1;
      !HasLapsed(db1.licenses[NormalizarCodigo(rawCodigo)].expiresAt, later) ==>
        && Validate(db1, later, rawCodigo, rawUuid).0 == Valid
        && Validate(db1, later, rawCodigo, rawUuid).1.licenses == db1.licenses
  {
  }

  /** Once a device was let in, every other device is turned away (as
      `used_by_other`, or `expired` once the license lapses), and the binding
      stays. */
  lemma OtherDeviceTurnedAway(db: Db, now: Time, later: Time, rawCodigo: string, u1: string, u2: string)
    requires Trim(u1) != [] && CodigoFormatoValido(NormalizarCodigo(rawCodigo))
    requires NormalizarCodigo(rawCodigo) in db.licenses
    requires LetsIn(db.licenses[NormalizarCodigo(rawCodigo)], now, Trim(u1))
    requires Trim(u2) != [] && Trim(u2) != Trim(u1)
    ensures Validate(db, now, rawCodigo, u1).0 == Valid
    ensures var db1 := Validate(db, now, rawCodigo, u1).1;
      && (Validate(db1, later, rawCodigo, u2).0 == Invalid(200, "used_by_other")
          || Validate(db1, later, rawCodigo, u2).0 == Invalid(200, "expired"))
      && Validate(db1, later, rawCodigo, u2).1.licenses == db1.licenses
  {
    var codigo := NormalizarCodigo(rawCodigo);
    ValidateValidIff(db, now, rawCodigo, u1);
    var db1 := Validate(db, now, rawCodigo, u1).1;
    var bound := db1.licenses[codigo];
    assert bound.activatedUuid == Trim(u1) && EffectiveStatus(bound) != "active" && EffectiveStatus(bound) != "revoked";
    var (verdict, _, _) := ValidateTx(db1.licenses, later, codigo, Trim(u2));
    assert verdict == Invalid(200, "used_by_other") || verdict == Invalid(200, "expired");
  }

  /** Codes issued by the generator (shape `XXXX-XXXX-XXXX`) are never found
      by online validation: it turns them away as malformed before reading
      the store, and logs nothing. */
  lemma IssuedCodesFailOnlineValidation(db: Db, now: Time, bytes: seq<byte>, rawUuid: string)
    requires RAW_LENGTH <= |Accepted(bytes)|
    ensures Validate(db, now, GenerateLicenseCode(bytes), rawUuid).1 == db
    ensures Validate(db, now, GenerateLicenseCode(bytes), rawUuid).0.Invalid?
    ensures Trim(rawUuid) != [] ==> Validate(db, now, GenerateLicenseCode(bytes), rawUuid).0 == Invalid(400, "invalid_format")
  {
    var code := GenerateLicenseCode(bytes);
    GeneratedCodeIsValid(bytes);
    CodeShapeNeverContr(code);
  }

  /** The answer of `POST /api/licencia/info`; it writes nothing, so there is
      no new store. */
  datatype InfoReply = InfoOk(expiresAt: Option<Time>) | InfoRejected(httpStatus: int, reason: string)

  /** The answer of `/info` for a stored license. */
  function InfoOnLicense(lic: License, now: Time, uuid: string): (r: InfoReply)
    ensures r.InfoRejected? ==>
      r.httpStatus == 200 && (r.reason == "revoked" || r.reason == "used_by_other" || r.reason == "expired")
    ensures r.InfoOk? ==>
      && EffectiveStatus(lic) != "revoked"
      && r.expiresAt == lic.expiresAt
      && !HasLapsed(r.expiresAt, now)
      && (EffectiveStatus(lic) == "used" && lic.activatedUuid != [] ==> lic.activatedUuid == uuid)
    // Otherwise the stored expiry (or its absence) is reported.
    ensures (EffectiveStatus(lic) != "revoked"
             && !(EffectiveStatus(lic) == "used" && lic.activatedUuid != [] && lic.activatedUuid != uuid)
             && !HasLapsed(lic.expiresAt, now)) ==>
      r == InfoOk(lic.expiresAt)
  {
    var status := EffectiveStatus(lic);
    if status == "revoked" then InfoRejected(200, "revoked")
    else if status == "used" && lic.activatedUuid != [] && lic.activatedUuid != uuid then InfoRejected(200, "used_by_other")
    else if lic.expiresAt.None? then InfoOk(None)
    else if now > lic.expiresAt.value then InfoRejected(200, "expired")
    else InfoOk(lic.expiresAt)
  }

  /** `POST /api/licencia/info`. */
  function Info(db: Db, now: Time, rawCodigo: string, rawUuid: string): (r: InfoReply)
    ensures NormalizarCodigo(rawCodigo) == [] || Trim(rawUuid) == [] ==> r == InfoRejected(400, "missing_fields")
    // The format is checked before the store is read.
    ensures NormalizarCodigo(rawCodigo) != [] && Trim(rawUuid) != [] && !CodigoFormatoValido(NormalizarCodigo(rawCodigo)) ==>
      r == InfoRejected(400, "invalid_format")
    // An unknown well-formed code is a 200 refusal, not an HTTP error.
    ensures Trim(rawUuid) != [] && CodigoFormatoValido(NormalizarCodigo(rawCodigo))
            && NormalizarCodigo(rawCodigo) !in db.licenses ==>
      r == InfoRejected(200, "not_found")
    ensures r.InfoRejected? && r.httpStatus == 200 ==>
      r.reason == "not_found" || r.reason == "revoked" || r.reason == "used_by_other" || r.reason == "expired"
    // A date is reported only for a known, unrevoked license that has not
    // lapsed, and only to its own device once it is used.
    ensures r.InfoOk? ==>
      var codigo := NormalizarCodigo(rawCodigo);
      && codigo in db.licenses && EffectiveStatus(db.licenses[codigo]) != "revoked"
      && r.expiresAt == db.licenses[codigo].expiresAt
      && !HasLapsed(r.expiresAt, now)
      && (EffectiveStatus(db.licenses[codigo]) == "used" && db.licenses[codigo].activatedUuid != [] ==>
            db.licenses[codigo].activatedUuid == Trim(rawUuid))
    // A well-formed request for such a license gets its stored expiry.
    ensures (Trim(rawUuid) != [] && CodigoFormatoValido(NormalizarCodigo(rawCodigo))
             && NormalizarCodigo(rawCodigo) in db.licenses) ==>
      var lic := db.licenses[NormalizarCodigo(rawCodigo)];
      (EffectiveStatus(lic) != "revoked"
       && !(EffectiveStatus(lic) == "used" && lic.activatedUuid != [] && lic.activatedUuid != Trim(rawUuid))
       && !HasLapsed(lic.expiresAt, now)) ==>
        r == InfoOk(lic.expiresAt)
  {
    var codigo := NormalizarCodigo(rawCodigo);
    var uuid := Trim(rawUuid);
    if codigo == [] || uuid == [] then InfoRejected(400, "missing_fields")
    else if !CodigoFormatoValido(codigo) then InfoRejected(400, "invalid_format")
    else if codigo !in db.licenses then InfoRejected(200, "not_found")
    else InfoOnLicense(db.licenses[codigo], now, uuid)
  }

  /** For a license that is active, or used and bound to a device, `/info`
      answers `ok` exactly when `/validar` would let the device in. */
  lemma InfoAgreesWithValidate(db: Db, now: Time, rawCodigo: string, rawUuid: string)
    requires NormalizarCodigo(rawCodigo) in db.licenses
    requires var lic := db.licenses[NormalizarCodigo(rawCodigo)];
      EffectiveStatus(lic) == "active" || (EffectiveStatus(lic) == "used" && lic.activatedUuid != [])
    ensures Info(db, now, rawCodigo, rawUuid).InfoOk? <==> Validate(db, now, rawCodigo, rawUuid).0 == Valid
  {
  }

  /** The two disagree on a license marked used but bound to no device:
      `/info` reports its date, while `/validar` turns every device away. */
  lemma InfoAndValidateDisagreeOnUnboundUsed(db: Db, now: Time, rawCodigo: string, rawUuid: string)
    requires Trim(rawUuid) != [] && CodigoFormatoValido(NormalizarCodigo(rawCodigo))
    requires NormalizarCodigo(rawCodigo) in db.licenses
    requires var lic := db.licenses[NormalizarCodigo(rawCodigo)];
      lic.status == "used" && lic.activatedUuid == [] && !HasLapsed(lic.expiresAt, now)
    ensures Info(db, now, rawCodigo, rawUuid).InfoOk?
    ensures Validate(db, now, rawCodigo, rawUuid).0 == Invalid(200, "used_by_other")
  {
  }
}

=== FILE: scenarios.dfy ===
/*******************************************************************************
 *  How the handlers fit together: what one path writes, another reads.
 *******************************************************************************/

module Scenarios {
  import opened Common
  import opened Text
  import opened LicenseCode
  import opened Store
  import opened LicenseIssue
  import opened InvoiceCounter
  import LicenseActivate
  import OnlineValidation
  import StripeWebhook
  import ManualPayment
  import AdminPanel

  /** A new, unbound license of the generator's shape activates on its
      first device while it lives, and `/validar` rejects its code as
      malformed. */
  lemma NewLicenseActivates(db1: Db, code: string, t: Time, rawDevice: string)
    requires code in db1.licenses && HasCodeShape(code) && IsNewLicense(db1.licenses[code], code)
    requires !IsExpired(db1.licenses[code].expiresAt, t)
    requires Trim(rawDevice) != []
    ensures && LicenseActivate.Activate(db1, t, code, rawDevice).0.Ok?
            && LicenseActivate.Activate(db1, t, code, rawDevice).0.value.firstActivation
            && LicenseActivate.Activate(db1, t, code, rawDevice).1.licenses[code].deviceUuid == Trim(rawDevice)
            && OnlineValidation.Validate(db1, t, code, rawDevice) == (OnlineValidation.Invalid(400, "invalid_format"), db1)
  {
    ShapedCodeIsNormal(code);
    OnlineValidation.CodeShapeNeverContr(code);
  }

  /** The license a Stripe purchase creates can be activated by
      `/api/licencia/activar` on any device while it lives (binding that
      device), but `/api/licencia/validar` rejects its code as malformed. */
  lemma WebhookLicenseActivates(db: Db, now: Time, yearNow: int, ev: StripeWebhook.Event,
                                draws: seq<seq<byte>>, mail: StripeWebhook.Mail, code: string, t: Time, rawDevice: string)
    requires EnoughEntropy(draws) && DEFAULT_MAX_ATTEMPTS <= |draws|
    requires code !in db.licenses && code in StripeWebhook.HandleWebhook(db, now, yearNow, true, ev, draws, mail).1.licenses
    requires !IsExpired(StripeWebhook.HandleWebhook(db, now, yearNow, true, ev, draws, mail).1.licenses[code].expiresAt, t)
    requires Trim(rawDevice) != []
    ensures var db1 := StripeWebhook.HandleWebhook(db, now, yearNow, true, ev, draws, mail).1;
      && LicenseActivate.Activate(db1, t, code, rawDevice).0.Ok?
      && LicenseActivate.Activate(db1, t, code, rawDevice).0.value.firstActivation
      && LicenseActivate.Activate(db1, t, code, rawDevice).1.licenses[code].deviceUuid == Trim(rawDevice)
      && OnlineValidation.Validate(db1, t, code, rawDevice) == (OnlineValidation.Invalid(400, "invalid_format"), db1)
  {
    var db1 := StripeWebhook.HandleWebhook(db, now, yearNow, true, ev, draws, mail).1;
    assert db1.licenses != db.licenses;
    assert StripeWebhook.AddsSessionLicense(db.licenses, db1.licenses, ev.session.id);
    var c :| c !in db.licenses && c in db1.licenses && HasCodeShape(c)
      && db1.licenses == db.licenses[c := db1.licenses[c]] && IsNewLicense(db1.licenses[c], c);
    assert c == code;
    NewLicenseActivates(db1, code, t, rawDevice);
  }

  /** A manual order that was just placed is pending, so an administrator
      can complete it: with a free code among the draws and the mail
      delivered, the order ends `license_sent` with a license that points
      back to it. */
  lemma PlacedOrderCompletes(db: Db, now: Time, later: Time, yearNow: int,
                             rawMetodo: string, rawEmail: string, rawUuid: string, rawProducto: string,
                             config: ManualPayment.PaymentConfig, digits: string, newId: string,
                             price: Option<real>, draws: seq<seq<byte>>)
    requires newId !in db.orders && newId != [] && NoSpace(newId)
    requires ManualPayment.CreateManualOrder(db, now, rawMetodo, rawEmail, rawUuid, rawProducto, config, digits, newId).0.Ok?
    requires EnoughEntropy(draws) && DEFAULT_MAX_ATTEMPTS <= |draws|
    requires exists k :: 0 <= k < DEFAULT_MAX_ATTEMPTS && Candidate(draws, k) !in db.licenses
    ensures var db1 := ManualPayment.CreateManualOrder(db, now, rawMetodo, rawEmail, rawUuid, rawProducto, config, digits, newId).1;
      var r := AdminPanel.CompleteManualOrder(db1, later, yearNow, newId, price, draws, AdminPanel.Delivered);
      && r.0.Ok?
      && r.1.orders[newId].status == "license_sent"
      && r.0.value.licenseCode in r.1.licenses
      && r.1.licenses[r.0.value.licenseCode].manual == Some(ManualRef(newId, db1.orders[newId].metodo, db1.orders[newId].referencia))
  {
    TrimOfNoSpace(newId);
  }

  /** Stripe sales and manual sales draw from one invoice counter: a manual
      completion in the year of a Stripe sale takes the very next number. */
  lemma SalesShareTheCounter(db: Db, now: Time, later: Time, yearNow: int, ev: StripeWebhook.Event,
                             draws1: seq<seq<byte>>, mail: StripeWebhook.Mail,
                             rawId: string, price: Option<real>, draws2: seq<seq<byte>>, delivery: AdminPanel.Delivery)
    requires EnoughEntropy(draws1) && DEFAULT_MAX_ATTEMPTS <= |draws1|
    requires EnoughEntropy(draws2) && DEFAULT_MAX_ATTEMPTS <= |draws2|
    requires StripeWebhook.HandleWebhook(db, now, yearNow, true, ev, draws1, mail).1.licenses != db.licenses
    requires var db1 := StripeWebhook.HandleWebhook(db, now, yearNow, true, ev, draws1, mail).1;
      AdminPanel.CompleteManualOrder(db1, later, yearNow, rawId, price, draws2, delivery).0.Ok?
    ensures var db1 := StripeWebhook.HandleWebhook(db, now, yearNow, true, ev, draws1, mail).1;
      var db2 := AdminPanel.CompleteManualOrder(db1, later, yearNow, rawId, price, draws2, delivery).1;
      && db1.counter.Some? && db2.counter.Some?
      && db2.counter.value == Counter(db1.counter.value.current + 1, yearNow)
  {
  }
}

=== FILE: store.dfy ===
/*******************************************************************************
 *  The Firestore documents the backend reads and writes, and the store that
 *  holds them. Every transaction of the backend is modelled as one atomic
 *  step from a `Db` to a new `Db`.
 *
 *  Conventions: a JavaScript string field that is null, undefined or empty is
 *  the empty string here (every reader of such a field tests it for
 *  truthiness, which treats the three alike); a timestamp that may be absent
 *  is an `Option<Time>`.
 *******************************************************************************/

module Store {
  import opened Common

  /** The `stripe` sub-object of a license issued from a Checkout session. */
  datatype StripeRef = StripeRef(
    sessionId: string,
    paymentIntentId: string,
    amountTotal: int,
    currency: string)

  /** The `manual` sub-object of a license issued for a manual order. */
  datatype ManualRef = ManualRef(orderId: string, metodo: string, referencia: string)

  /** A document of the `licenses` collection, keyed by its code. The
      activation, support and admin endpoints bind devices through
      `deviceUuid`; online validation binds through `activatedUuid`. */
  datatype License = License(
    code: string,
    email: string,
    status: string,
    createdAt: Option<Time>,
    paidAt: Option<Time>,
    expiresAt: Option<Time>,
    deviceUuid: string,
    activatedUuid: string,
    activatedAt: Option<Time>,
    deviceChangeUsed: bool,
    deviceChangedAt: Option<Time>,
    deviceChangeReason: string,
    previousDeviceUuid: string,
    recoveryUsed: bool,
    recoveryUsedAt: Option<Time>,
    source: string,
    stripe: Option<StripeRef>,
    manual: Option<ManualRef>,
    webhookProcessedAt: Option<Time>,
    updatedAt: Option<Time>)

  /** A document of the `manual_orders` collection. */
  datatype Order = Order(
    metodo: string,
    email: string,
    uuid: string,
    producto: string,
    amount: real,
    currency: string,
    referencia: string,
    status: string,
    createdAt: Option<Time>,
    updatedAt: Option<Time>,
    paidAt: Option<Time>,
    licenseCode: string,
    invoice: string,
    emailError: string,
    sentAt: Option<Time>)

  /** The singleton `metadata/invoice_counter` document; a field that is
      missing or zero is 0 here (the source reads both with `||`). */
  datatype Counter = Counter(current: int, year: int)

  /** An entry of the `invoices` ledger. The money fields are left out. */
  datatype Invoice = Invoice(invoiceNumber: string, date: Time, email: string, payMethod: string, orderId: string)

  /** A document of the `stripe_events` collection, keyed by the event id. */
  datatype EventDoc = EventDoc(
    eventType: string,
    createdAt: Time,
    receivedAt: Time,
    lastSeenAt: Option<Time>,
    status: string,
    reason: string,
    processedAt: Option<Time>,
    note: string,
    licenseCode: string,
    invoiceNumber: string,
    email: string,
    error: string)

  /** A document of the append-only `activations` log of online validation. */
  datatype ActivationLog = ActivationLog(code: string, uuid: string, createdAt: Time, result: string)

  /** The collections of the backend's Firestore database. */
  datatype Db = Db(
    licenses: map<string, License>,
    orders: map<string, Order>,
    counter: Option<Counter>,
    invoices: map<string, Invoice>,
    events: map<string, EventDoc>,
    activations: seq<ActivationLog>)

  /** A rejected request: the HTTP status and the `code` of the JSON body. */
  datatype Failure = Failure(status: int, code: string)

  /** `isExpired`: a license without `expiresAt` counts as expired, and so
      does one whose expiry instant is not after `now`. */
  predicate IsExpired(expiresAt: Option<Time>, now: Time)
    // A license without an expiry never counts as live.
    ensures expiresAt.None? ==> IsExpired(expiresAt, now)
    // One with an expiry is live strictly before that instant, and from then on expired.
    ensures expiresAt.Some? ==> (IsExpired(expiresAt, now) <==> expiresAt.value <= now)
  {
    expiresAt.None? || expiresAt.value <= now
  }

  /** Only the document under `key` may differ between the two maps: nothing
      is deleted, and nothing but `key` is added or rewritten. */
  predicate OnlyKeyChanged<V(==)>(before: map<string, V>, after: map<string, V>, key: string) {
    && before.Keys <= after.Keys <= before.Keys + {key}
    && forall k :: k in before && k != key ==> after[k] == before[k]
  }
}

=== FILE: stripe_webhook.dfy ===
/*******************************************************************************
 *  The Stripe webhook (stripe-webhook.js): every delivered event is recorded
 *  in the `stripe_events` ledger, and a paid `checkout.session.completed`
 *  event issues one license and one invoice number per Checkout session.
 *
 *  Signature verification, PDF rendering and the mail transport are inputs:
 *  whether the signature verified, and whether the purchase mail went out
 *  (with the error message when it did not).
 *******************************************************************************/

module StripeWebhook {
  import opened Common
  import opened Text
  import opened LicenseCode
  import opened Store
  import opened LicenseIssue
  import opened InvoiceCounter

  const CHECKOUT_COMPLETED: string := "checkout.session.completed"

  /** The messages of the TypeError raised by `.toLowerCase()` on a session
      that carries no e-mail: the engine names the value it was called on. */
  const NULL_EMAIL_MESSAGE: string := "Cannot read properties of null (reading 'toLowerCase')"
  const MISSING_EMAIL_MESSAGE: string := "Cannot read properties of undefined (reading 'toLowerCase')"

  /** A JSON field that may be left out, sent as `null`, or hold a string. */
  datatype Field = Absent | Null | Given(value: string)

  /** The fields of the Checkout session the handler reads. `detailsEmail`
      is empty when `customer_details.email` is missing, `null` or empty (all
      falsy alike); `amountTotal` is `None` when it is not a finite number. */
  datatype Session = Session(
    id: string,
    paymentStatus: string,
    detailsEmail: string,
    customerEmail: Field,
    paymentIntent: string,
    amountTotal: Option<int>,
    currency: string,
    created: int)

  /** A verified Stripe event; `created` is in seconds. */
  datatype Event = Event(id: string, eventType: string, created: int, session: Session)

  /** The rendering and sending of the purchase mail, taken together. */
  datatype Mail = MailSent | MailFailed(message: string)

  /** The HTTP reply: 400 for a bad signature, `{received: true}`, or a 500
      with the error message. */
  datatype Reply = BadSignature | Received | ServerError(message: string)

  /** A license issued for the Checkout session `sid` is stored. */
  predicate HasSessionLicense(licenses: map<string, License>, sid: string) {
    exists k :: k in licenses && licenses[k].stripe.Some? && licenses[k].stripe.value.sessionId == sid
  }

  /** No two stored licenses were issued for the same Checkout session. */
  predicate OneLicensePerSession(licenses: map<string, License>) {
    forall k1, k2 :: k1 in licenses && k2 in licenses && k1 != k2 && licenses[k1].stripe.Some? && licenses[k2].stripe.Some?
      ==> licenses[k1].stripe.value.sessionId != licenses[k2].stripe.value.sessionId
  }

  /** The idempotency transaction: a known event only gets `lastSeenAt`; a
      new one is created as `received`. */
  function RecordEvent(events: map<string, EventDoc>, now: Time, ev: Event): (r: map<string, EventDoc>)
    ensures r.Keys == events.Keys + {ev.id}
    ensures OnlyKeyChanged(events, r, ev.id)
    ensures ev.id in events ==> r[ev.id] == events[ev.id].(lastSeenAt := Some(now))
    ensures ev.id !in events ==> r[ev.id].status == "received" && r[ev.id].eventType == ev.eventType
                                 && r[ev.id].createdAt == ev.created * MS_PER_SECOND && r[ev.id].receivedAt == now
  {
    if ev.id in events then events[ev.id := events[ev.id].(lastSeenAt := Some(now))]
    else events[ev.id := EventDoc(ev.eventType, ev.created * MS_PER_SECOND, now, None, "received", "", None, "", "", "", "", "")]
  }

  /** `(customer_details.email || customer_email).toLowerCase()`; `None` when
      both are missing, where the source raises a TypeError. */
  function CustomerEmail(s: Session): (r: Option<string>)
    ensures r.None? <==> s.detailsEmail == [] && !s.customerEmail.Given?
    ensures s.detailsEmail != [] ==> r == Some(ToLower(s.detailsEmail))
  {
    if s.detailsEmail != [] then Some(ToLower(s.detailsEmail))
    else match s.customerEmail
      case Given(e) => Some(ToLower(e))
      case _ => None
  }

  /** The input `createLicenseFromStripe` receives: `paidAt` is the session's
      creation instant. */
  function IssueInput(s: Session, email: string): StripeInput {
    StripeInput(email, s.id, s.paymentIntent, s.amountTotal, s.currency, Some(s.created * MS_PER_SECOND))
  }

  /** The `set(…, {merge: true})` marking an event failed. */
  function MarkError(events: map<string, EventDoc>, id: string, now: Time, message: string): (r: map<string, EventDoc>)
    requires id in events
    ensures r.Keys == events.Keys
    ensures r[id].status == "error" && r[id].error == message && r[id].processedAt == Some(now)
    // A merge: the event's other fields and every other event are kept.
    ensures r[id].eventType == events[id].eventType && r[id].licenseCode == events[id].licenseCode && r[id].invoiceNumber == events[id].invoiceNumber
    ensures forall k :: k in events && k != id ==> r[k] == events[k]
  {
    events[id := events[id].(status := "error", error := message, processedAt := Some(now))]
  }

  /** `after` is `before` plus one new license, under a fresh well-formed
      code, issued for the Checkout session `sid`. */
  predicate AddsSessionLicense(before: map<string, License>, after: map<string, License>, sid: string) {
    exists code :: code !in before && code in after && HasCodeShape(code)
      && after == before[code := after[code]]
      && IsNewLicense(after[code], code)
      && after[code].stripe.Some? && after[code].stripe.value.sessionId == sid
  }

  /** Issuance can succeed for the session: every field it checks is present
      and some attempt draws a code not in use. */
  predicate CanIssue(db: Db, s: Session, email: string, draws: seq<seq<byte>>)
    requires EnoughEntropy(draws) && DEFAULT_MAX_ATTEMPTS <= |draws|
  {
    && email != [] && s.id != [] && s.amountTotal.Some? && s.currency != []
    && exists k :: 0 <= k < DEFAULT_MAX_ATTEMPTS && Candidate(draws, k) !in db.licenses
  }

  /** The settled event of a sale whose mail went out: processed, with the
      code, the invoice number and the e-mail. */
  predicate SettledSale(before: Db, after: Db, now: Time, yearNow: int, ev: Event, email: string)
    requires ev.id in after.events
  {
    var doc := after.events[ev.id];
    && doc.status == "processed" && doc.processedAt == Some(now)
    && doc.licenseCode !in before.licenses && ev.session.amountTotal.Some?
    && after.licenses == before.licenses[doc.licenseCode := StripeLicense(doc.licenseCode, now, IssueInput(ev.session, email))]
    && doc.invoiceNumber == InvoiceText(NextInvoiceNumber(before.counter, yearNow).0)
    && doc.email == email
  }

  /** The paid-session branch, from the duplicate check on: issue the license,
      take the invoice number, and settle the event by the mail's outcome. */
  function SettlePaid(db: Db, events: map<string, EventDoc>, now: Time, yearNow: int, ev: Event, email: string,
                      draws: seq<seq<byte>>, mail: Mail): (r: (Reply, Db))
    requires EnoughEntropy(draws) && DEFAULT_MAX_ATTEMPTS <= |draws|
    requires ev.id in events
    ensures r.1.orders == db.orders && r.1.invoices == db.invoices && r.1.activations == db.activations
    ensures r.1.events.Keys == events.Keys && OnlyKeyChanged(events, r.1.events, ev.id)
    ensures r.1.events[ev.id].status in {"processed", "error"}
    ensures r.0 == Received <==> r.1.events[ev.id].status == "processed"
    ensures HasSessionLicense(db.licenses, ev.session.id) ==>
      r.0 == Received && r.1.licenses == db.licenses && r.1.counter == db.counter
      && r.1.events[ev.id].note == "License already exists"
    ensures r.1.licenses == db.licenses || AddsSessionLicense(db.licenses, r.1.licenses, ev.session.id)
    ensures r.1.counter != db.counter ==> r.1.licenses != db.licenses
    ensures r.1.licenses != db.licenses ==> r.1.counter == Some(NextInvoiceNumber(db.counter, yearNow).1)
    ensures r.0 == Received ==> HasSessionLicense(r.1.licenses, ev.session.id)
    // A new session whose license can be issued gets it and the next invoice
    // number; the mail decides whether the event ends processed or error.
    ensures !HasSessionLicense(db.licenses, ev.session.id) && CanIssue(db, ev.session, email, draws) ==>
      && AddsSessionLicense(db.licenses, r.1.licenses, ev.session.id)
      && r.1.counter == Some(NextInvoiceNumber(db.counter, yearNow).1)
      && (mail == MailSent ==> r.0 == Received && SettledSale(db, r.1, now, yearNow, ev, email))
      && (mail.MailFailed? ==> r.0 == ServerError(mail.message) && r.1.events[ev.id] == MarkError(events, ev.id, now, mail.message)[ev.id])
    // When issuance fails, nothing is created and the event records the error.
    ensures !HasSessionLicense(db.licenses, ev.session.id) && !CanIssue(db, ev.session, email, draws) ==>
      && r.0.ServerError? && r.1.licenses == db.licenses && r.1.counter == db.counter
      && r.1.events == MarkError(events, ev.id, now, r.0.message)
  {
    if HasSessionLicense(db.licenses, ev.session.id) then
      (Received, db.(events := events[ev.id := events[ev.id].(status := "processed", note := "License already exists")]))
    else
      IssueForSession(db, events, now, yearNow, ev, email, draws, mail)
  }

  /** A paid session without a license: create it, or mark the event failed
      when creation is refused. */
  function IssueForSession(db: Db, events: map<string, EventDoc>, now: Time, yearNow: int, ev: Event, email: string,
                           draws: seq<seq<byte>>, mail: Mail): (r: (Reply, Db))
    requires EnoughEntropy(draws) && DEFAULT_MAX_ATTEMPTS <= |draws|
    requires ev.id in events
    ensures r.1.orders == db.orders && r.1.invoices == db.invoices && r.1.activations == db.activations
    ensures r.1.events.Keys == events.Keys && OnlyKeyChanged(events, r.1.events, ev.id)
    ensures r.1.events[ev.id].status in {"processed", "error"}
    ensures r.0 == Received <==> r.1.events[ev.id].status == "processed"
    ensures r.1.licenses == db.licenses || AddsSessionLicense(db.licenses, r.1.licenses, ev.session.id)
    ensures r.1.counter != db.counter ==> r.1.licenses != db.licenses
    ensures r.1.licenses != db.licenses ==> r.1.counter == Some(NextInvoiceNumber(db.counter, yearNow).1)
    ensures r.0 == Received ==> HasSessionLicense(r.1.licenses, ev.session.id)
    ensures CanIssue(db, ev.session, email, draws) ==>
      && AddsSessionLicense(db.licenses, r.1.licenses, ev.session.id)
      && r.1.counter == Some(NextInvoiceNumber(db.counter, yearNow).1)
      && (mail == MailSent ==> r.0 == Received && SettledSale(db, r.1, now, yearNow, ev, email))
      && (mail.MailFailed? ==> r.0 == ServerError(mail.message) && r.1.events == MarkError(events, ev.id, now, mail.message))
    ensures !CanIssue(db, ev.session, email, draws) ==>
      && r.0.ServerError? && r.1.licenses == db.licenses && r.1.counter == db.counter
      && r.1.events == MarkError(events, ev.id, now, r.0.message)
  {
    var s := ev.session;
    var input := IssueInput(s, email);
    var (issued, db1) := CreateLicenseFromStripe(db, now, input, draws);
    if issued.Err? then
      (ServerError(issued.error.Message()), db.(events := MarkError(events, ev.id, now, issued.error.Message())))
    else
      var code := issued.value.code;
      assert code in db1.licenses && db1.licenses[code].stripe.value.sessionId == s.id;
      assert AddsSessionLicense(db.licenses, db1.licenses, s.id);
      SettleIssued(db1, events, now, yearNow, ev.id, code, email, mail)
  }

  /** The end of a sale once its license is written to `db1`: take the next
      invoice number, then settle the event by the mail's outcome. */
  function SettleIssued(db1: Db, events: map<string, EventDoc>, now: Time, yearNow: int, id: string,
                        code: string, email: string, mail: Mail): (r: (Reply, Db))
    requires id in events
    ensures r.1 == db1.(counter := r.1.counter, events := r.1.events)
    ensures r.1.counter == Some(NextInvoiceNumber(db1.counter, yearNow).1)
    ensures r.1.events.Keys == events.Keys && OnlyKeyChanged(events, r.1.events, id)
    ensures mail == MailSent ==>
      && r.0 == Received && r.1.events[id].status == "processed" && r.1.events[id].processedAt == Some(now)
      && r.1.events[id].licenseCode == code && r.1.events[id].email == email
      && r.1.events[id].invoiceNumber == InvoiceText(NextInvoiceNumber(db1.counter, yearNow).0)
    ensures mail.MailFailed? ==> r.0 == ServerError(mail.message) && r.1.events == MarkError(events, id, now, mail.message)
  {
    var (no, counter') := NextInvoiceNumber(db1.counter, yearNow);
    var db2 := db1.(counter := Some(counter'));
    match mail
    case MailFailed(msg) => (ServerError(msg), db2.(events := MarkError(events, id, now, msg)))
    case MailSent =>
      var done := events[id].(status := "processed", processedAt := Some(now), licenseCode := code,
                              invoiceNumber := InvoiceText(no), email := email);
      (Received, db2.(events := events[id := done]))
  }

  /** The TypeError's message for a session whose e-mail is missing. */
  function NoEmailMessage(customerEmail: Field): string {
    if customerEmail.Null? then NULL_EMAIL_MESSAGE else MISSING_EMAIL_MESSAGE
  }

  /** `stripeWebhookHandler`. */
  function HandleWebhook(db: Db, now: Time, yearNow: int, signatureValid: bool, ev: Event,
                         draws: seq<seq<byte>>, mail: Mail): (r: (Reply, Db))
    requires EnoughEntropy(draws) && DEFAULT_MAX_ATTEMPTS <= |draws|
    ensures !signatureValid ==> r == (BadSignature, db)
    // The webhook never touches orders, the invoice ledger or the activation log.
    ensures r.1.orders == db.orders && r.1.invoices == db.invoices && r.1.activations == db.activations
    // Every verified delivery leaves its event settled.
    ensures signatureValid ==>
      && r.1.events.Keys == db.events.Keys + {ev.id}
      && OnlyKeyChanged(db.events, r.1.events, ev.id)
      && r.1.events[ev.id].status in {"ignored", "processed", "error"}
      && (r.0 == Received <==> r.1.events[ev.id].status != "error")
    // Ignored events create nothing.
    ensures signatureValid && (ev.eventType != CHECKOUT_COMPLETED || ev.session.paymentStatus != "paid") ==>
      r.0 == Received && r.1.events[ev.id].status == "ignored" && r.1.licenses == db.licenses && r.1.counter == db.counter
    // A session that already has its license gets no second one and no
    // second invoice number.
    ensures HasSessionLicense(db.licenses, ev.session.id) ==> r.1.licenses == db.licenses && r.1.counter == db.counter
    // A processed event always has its session's license.
    ensures signatureValid && r.1.events[ev.id].status == "processed" ==> HasSessionLicense(r.1.licenses, ev.session.id)
    // The licenses change only by one new license issued for this session,
    // and the counter moves only together with it.
    ensures r.1.licenses == db.licenses || AddsSessionLicense(db.licenses, r.1.licenses, ev.session.id)
    ensures r.1.counter != db.counter ==> r.1.licenses != db.licenses
    // The license is created first, then the next invoice number is taken.
    ensures r.1.licenses != db.licenses ==> r.1.counter == Some(NextInvoiceNumber(db.counter, yearNow).1)
    // A paid Checkout for a new session, with an e-mail and everything
    // issuance needs, creates the session's license and takes the next
    // invoice number; with the mail sent the event ends processed with both.
    ensures (signatureValid && ev.eventType == CHECKOUT_COMPLETED && ev.session.paymentStatus == "paid"
             && CustomerEmail(ev.session).Some? && !HasSessionLicense(db.licenses, ev.session.id)
             && CanIssue(db, ev.session, CustomerEmail(ev.session).value, draws)) ==>
      && AddsSessionLicense(db.licenses, r.1.licenses, ev.session.id)
      && r.1.counter == Some(NextInvoiceNumber(db.counter, yearNow).1)
      && (mail == MailSent ==> r.0 == Received && SettledSale(db, r.1, now, yearNow, ev, CustomerEmail(ev.session).value))
      && (mail.MailFailed? ==> r.0 == ServerError(mail.message) && r.1.events[ev.id].status == "error")
    // A paid Checkout with no e-mail throws a TypeError before anything is
    // issued: the reply is 500 with its message, and the event is marked error.
    ensures signatureValid && ev.eventType == CHECKOUT_COMPLETED && ev.session.paymentStatus == "paid"
            && CustomerEmail(ev.session).None? ==>
      var msg := if ev.session.customerEmail.Null? then NULL_EMAIL_MESSAGE else MISSING_EMAIL_MESSAGE;
      r == (ServerError(msg), db.(events := MarkError(RecordEvent(db.events, now, ev), ev.id, now, msg)))
  {
    if !signatureValid then (BadSignature, db)
    else
      var events := RecordEvent(db.events, now, ev);
      var s := ev.session;
      if ev.eventType != CHECKOUT_COMPLETED then
        (Received, db.(events := events[ev.id := events[ev.id].(status := "ignored", processedAt := Some(now))]))
      else if s.paymentStatus != "paid" then
        (Received, db.(events := events[ev.id := events[ev.id].(status := "ignored", reason := "not_paid", processedAt := Some(now))]))
      else
        match CustomerEmail(s)
        case None =>
          var msg := NoEmailMessage(s.customerEmail);
          (ServerError(msg), db.(events := MarkError(events, ev.id, now, msg)))
        case Some(email) => SettlePaid(db, events, now, yearNow, ev, email, draws, mail)
  }

  /** Adding a license for a session that had none keeps the sessions
      one-to-one with their licenses. */
  lemma AddingKeepsOneLicensePerSession(before: map<string, License>, after: map<string, License>, sid: string)
    requires OneLicensePerSession(before) && !HasSessionLicense(before, sid)
    requires AddsSessionLicense(before, after, sid)
    ensures OneLicensePerSession(after)
  {
    var code :| code !in before && code in after && after == before[code := after[code]]
      && after[code].stripe.Some? && after[code].stripe.value.sessionId == sid;
    forall k1, k2 | k1 in after && k2 in after && k1 != k2 && after[k1].stripe.Some? && after[k2].stripe.Some?
      ensures after[k1].stripe.value.sessionId != after[k2].stripe.value.sessionId
    {
      if k1 == code {
        assert k2 in before && before[k2] == after[k2];
      } else if k2 == code {
        assert k1 in before && before[k1] == after[k1];
      } else {
        assert before[k1] == after[k1] && before[k2] == after[k2];
      }
    }
  }

  /** The webhook keeps every Checkout session down to at most one license. */
  lemma WebhookKeepsOneLicensePerSession(db: Db, now: Time, yearNow: int, signatureValid: bool, ev: Event,
                                         draws: seq<seq<byte>>, mail: Mail)
    requires EnoughEntropy(draws) && DEFAULT_MAX_ATTEMPTS <= |draws|
    requires OneLicensePerSession(db.licenses)
    ensures OneLicensePerSession(HandleWebhook(db, now, yearNow, signatureValid, ev, draws, mail).1.licenses)
  {
    var after := HandleWebhook(db, now, yearNow, signatureValid, ev, draws, mail).1.licenses;
    if after != db.licenses {
      AddingKeepsOneLicensePerSession(db.licenses, after, ev.session.id);
    }
  }

  /** A license added for a session is that session's license. */
  lemma AddedIsSessionLicense(before: map<string, License>, after: map<string, License>, sid: string)
    requires AddsSessionLicense(before, after, sid)
    ensures HasSessionLicense(after, sid)
  {
    var code :| code !in before && code in after && after == before[code := after[code]]
      && after[code].stripe.Some? && after[code].stripe.value.sessionId == sid;
  }

  /** A paid Checkout event for a session that already has its license, and
      with a customer e-mail, is answered with success and writes nothing but
      its own event, which ends processed with the note saying why. */
  lemma SessionWithLicenseNotReissued(db: Db, now: Time, yearNow: int, ev: Event, draws: seq<seq<byte>>, mail: Mail)
    requires EnoughEntropy(draws) && DEFAULT_MAX_ATTEMPTS <= |draws|
    requires ev.eventType == CHECKOUT_COMPLETED && ev.session.paymentStatus == "paid"
    requires ev.session.detailsEmail != [] || ev.session.customerEmail.Given?
    requires HasSessionLicense(db.licenses, ev.session.id)
    ensures var r := HandleWebhook(db, now, yearNow, true, ev, draws, mail);
      && r == (Received, db.(events := r.1.events))
      && r.1.events[ev.id].status == "processed" && r.1.events[ev.id].note == "License already exists"
  {
  }

  /** Redelivering an event whose session already received its license (even
      when the purchase mail of the first delivery failed) marks it processed
      and creates nothing: the customer is not mailed again. */
  lemma RedeliveryCreatesNothing(db: Db, now: Time, later: Time, y1: int, y2: int, ev: Event,
                                 draws1: seq<seq<byte>>, draws2: seq<seq<byte>>, m1: Mail, m2: Mail)
    requires EnoughEntropy(draws1) && DEFAULT_MAX_ATTEMPTS <= |draws1|
    requires EnoughEntropy(draws2) && DEFAULT_MAX_ATTEMPTS <= |draws2|
    requires HandleWebhook(db, now, y1, true, ev, draws1, m1).1.licenses != db.licenses
    ensures HandleWebhook(HandleWebhook(db, now, y1, true, ev, draws1, m1).1, later, y2, true, ev, draws2, m2)
      == (Received, HandleWebhook(db, now, y1, true, ev, draws1, m1).1.(events := HandleWebhook(HandleWebhook(db, now, y1, true, ev, draws1, m1).1, later, y2, true, ev, draws2, m2).1.events))
    ensures var db2 := HandleWebhook(HandleWebhook(db, now, y1, true, ev, draws1, m1).1, later, y2, true, ev, draws2, m2).1;
      db2.events[ev.id].status == "processed" && db2.events[ev.id].note == "License already exists"
  {
    var db1 := HandleWebhook(db, now, y1, true, ev, draws1, m1).1;
    AddedIsSessionLicense(db.licenses, db1.licenses, ev.session.id);
  }
}

=== FILE: text.dfy ===
/*******************************************************************************
 *  The JavaScript string operations the handlers rely on: `trim()`,
 *  `toUpperCase()`, `toLowerCase()`, `replace(/\s+/g, '')`, `replace('/', '-')`
 *  and the decimal rendering of integers in template strings.
 *******************************************************************************/

module Text {

  /** JavaScript white space and line terminators: the characters `trim()`
      strips and the regular-expression class `\s` matches. */
  predicate IsSpace(c: char) {
    || c == ' ' || c == '\t' || c == '\n' || c == '\r' || c == '\U{B}' || c == '\U{C}'
    || c == '\U{A0}' || c == '\U{1680}' || ('\U{2000}' <= c <= '\U{200A}')
    || c == '\U{2028}' || c == '\U{2029}' || c == '\U{202F}' || c == '\U{205F}'
    || c == '\U{3000}' || c == '\U{FEFF}'
  }

  predicate NoSpace(s: string) {
    forall i :: 0 <= i < |s| ==> !IsSpace(s[i])
  }

  predicate AllSpace(s: string) {
    forall i :: 0 <= i < |s| ==> IsSpace(s[i])
  }

  /** Number of white-space characters at the start of `s`. */
  function LeadingSpaces(s: string): (n: nat)
    ensures n <= |s|
    ensures AllSpace(s[..n])
    ensures n == |s| || !IsSpace(s[n])
  {
    if |s| == 0 || !IsSpace(s[0]) then 0
    else
      var k := LeadingSpaces(s[1..]);
      assert forall i :: 1 <= i < 1 + k ==> s[i] == s[1..][..k][i - 1];
      1 + k
  }

  /** Number of white-space characters at the end of `s`. */
  function TrailingSpaces(s: string): (n: nat)
    ensures n <= |s|
    ensures AllSpace(s[|s| - n..])
    ensures n == |s| || !IsSpace(s[|s| - n - 1])
  {
    if |s| == 0 || !IsSpace(s[|s| - 1]) then 0
    else
      var k := TrailingSpaces(s[..|s| - 1]);
      assert forall i :: |s| - 1 - k <= i < |s| - 1 ==> s[i] == s[..|s| - 1][|s| - 1 - k..][i - (|s| - 1 - k)];
      1 + k
  }

  /** `String.prototype.trim`: drops leading and trailing white space. */
  function Trim(s: string): (r: string)
    ensures |r| <= |s|
    ensures r == [] || (!IsSpace(r[0]) && !IsSpace(r[|r| - 1]))
  {
    var t := s[LeadingSpaces(s)..];
    t[..|t| - TrailingSpaces(t)]
  }

  /** The upper-case form of an ASCII letter; every other character is kept. */
  function UpperChar(c: char): char {
    if 'a' <= c <= 'z' then (c as int - 32) as char else c
  }

  /** The lower-case form of an ASCII letter; every other character is kept. */
  function LowerChar(c: char): char {
    if 'A' <= c <= 'Z' then (c as int + 32) as char else c
  }

  predicate IsLowerAscii(c: char) {
    'a' <= c <= 'z'
  }

  predicate IsUpperAscii(c: char) {
    'A' <= c <= 'Z'
  }

  function ToUpper(s: string): (r: string)
    ensures |r| == |s|
    ensures forall i :: 0 <= i < |s| ==> r[i] == UpperChar(s[i])
  {
    seq(|s|, i requires 0 <= i < |s| => UpperChar(s[i]))
  }

  function ToLower(s: string): (r: string)
    ensures |r| == |s|
    ensures forall i :: 0 <= i < |s| ==> r[i] == LowerChar(s[i])
  {
    seq(|s|, i requires 0 <= i < |s| => LowerChar(s[i]))
  }

  /** `s.replace(/\s+/g, '')`: every white-space character removed. */
  function RemoveSpaces(s: string): (r: string)
    ensures NoSpace(r)
    ensures |r| <= |s|
    ensures forall c :: c in r ==> c in s
  {
    if |s| == 0 then []
    else (if IsSpace(s[0]) then [] else [s[0]]) + RemoveSpaces(s[1..])
  }

  lemma {:induction false} RemoveSpacesAppend(a: string, b: string)
    ensures RemoveSpaces(a + b) == RemoveSpaces(a) + RemoveSpaces(b)
    decreases |a|
  {
    if |a| == 0 {
      assert a + b == b;
    } else {
      assert (a + b)[1..] == a[1..] + b;
      RemoveSpacesAppend(a[1..], b);
    }
  }

  lemma {:induction false} RemoveSpacesOfAllSpace(s: string)
    requires AllSpace(s)
    ensures RemoveSpaces(s) == []
    decreases |s|
  {
    if |s| > 0 {
      RemoveSpacesOfAllSpace(s[1..]);
    }
  }

  lemma {:induction false} RemoveSpacesOfNoSpace(s: string)
    requires NoSpace(s)
    ensures RemoveSpaces(s) == s
    decreases |s|
  {
    if |s| > 0 {
      RemoveSpacesOfNoSpace(s[1..]);
      assert s == [s[0]] + s[1..];
    }
  }

  /** Trimming first does not change what removing all white space yields. */
  lemma RemoveSpacesIgnoresTrim(s: string)
    ensures RemoveSpaces(Trim(s)) == RemoveSpaces(s)
  {
    var a := LeadingSpaces(s);
    var t := s[a..];
    var b := TrailingSpaces(t);
    assert s == s[..a] + (t[..|t| - b] + t[|t| - b..]);
    RemoveSpacesAppend(s[..a], t[..|t| - b] + t[|t| - b..]);
    RemoveSpacesAppend(t[..|t| - b], t[|t| - b..]);
    RemoveSpacesOfAllSpace(s[..a]);
    RemoveSpacesOfAllSpace(t[|t| - b..]);
  }

  lemma TrimOfNoSpace(s: string)
    requires NoSpace(s)
    ensures Trim(s) == s
  {
  }

  lemma ToUpperOfUpper(s: string)
    requires forall i :: 0 <= i < |s| ==> !IsLowerAscii(s[i])
    ensures ToUpper(s) == s
  {
  }

  /** `ToUpper` never creates or removes white space. */
  lemma ToUpperKeepsSpaces(s: string)
    ensures forall i :: 0 <= i < |s| ==> (IsSpace(ToUpper(s)[i]) <==> IsSpace(s[i]))
  {
  }

  predicate IsDigit(c: char) {
    '0' <= c <= '9'
  }

  function DigitChar(d: nat): (c: char)
    requires d < 10
    ensures IsDigit(c)
  {
    ('0' as int + d) as char
  }

  /** The decimal rendering of a natural number, as `${n}` produces it. */
  function NatToString(n: nat): (r: string)
    ensures |r| >= 1
    ensures forall i :: 0 <= i < |r| ==> IsDigit(r[i])
    ensures n < 10 <==> |r| == 1
    decreases n
  {
    if n < 10 then [DigitChar(n)] else NatToString(n / 10) + [DigitChar(n % 10)]
  }

  /** Distinct natural numbers have distinct decimal renderings. */
  lemma {:induction false} NatToStringInjective(a: nat, b: nat)
    requires NatToString(a) == NatToString(b)
    ensures a == b
    decreases a
  {
    var s := NatToString(a);
    if a >= 10 && b >= 10 {
      assert s[..|s| - 1] == NatToString(a / 10);
      assert s[..|s| - 1] == NatToString(b / 10);
      NatToStringInjective(a / 10, b / 10);
      assert DigitChar(a % 10) == s[|s| - 1] == DigitChar(b % 10);
    }
  }

  /** The decimal rendering of an integer, with a leading minus sign when negative. */
  function IntToString(n: int): string {
    if n < 0 then "-" + NatToString(-n) else NatToString(n)
  }

  /** `s.replace(from, to)` with a one-character string pattern: only the first
      occurrence is replaced. */
  function ReplaceFirst(s: string, from: char, to: char): (r: string)
    ensures |r| == |s|
    ensures from !in s ==> r == s
  {
    if |s| == 0 then []
    else if s[0] == from then [to] + s[1..]
    else [s[0]] + ReplaceFirst(s[1..], from, to)
  }

  lemma {:induction false} ReplaceFirstSplit(a: string, from: char, to: char, b: string)
    requires from !in a
    ensures ReplaceFirst(a + [from] + b, from, to) == a + [to] + b
    decreases |a|
  {
    if |a| > 0 {
      assert (a + [from] + b)[1..] == a[1..] + [from] + b;
      ReplaceFirstSplit(a[1..], from, to, b);
    }
  }

  /** The first `n` characters, as `slice(0, n)`. */
  function Take(s: string, n: nat): (r: string)
    ensures |r| <= n && r <= s
    ensures |s| <= n ==> r == s
    ensures n <= |s| ==> |r| == n
  {
    if |s| <= n then s else s[..n]
  }
}
